=== FILE: README.md ===
# svgcleaner: removal of invisible elements, in Dafny

This project models svgcleaner's `remove_invisible_elements` task and proves
what its four passes do to an SVG document tree. The passes run in a fixed
order, and each one reads the tree the previous one left:

1. **display**: `process_display_attribute` removes `display="none"` subtrees
   in which no node is referenced.
2. **paths**: `process_paths` removes `path` elements whose `d` attribute is
   missing, holds no path data, or holds empty path data.
3. **clip paths**: `process_clip_paths` has two phases.
   - It strips from every `clipPath` the children that cannot take part in
     clipping. Those are anything but a basic shape, `path` or `text`, and a
     `use` that names no such shape.
   - It then deletes every `clipPath` left without children, together with
     every node linking to it that is still there at its turn (see "A target
     swept away early keeps its linkers" below).
4. **filters**: `process_filter` removes every `filter` without children,
   together with every node linking to it that is still there at its turn.

If any pass set the shared flag, `remove_invisible_elements` then asks for the
unused-definitions cleanup. Stripping invalid `clipPath` children alone does
not set the flag.

## Modules

- **`Dom`** (`dom.dfy`) holds the document.
  - The document is an immutable forest of nodes. Each node has an identity, an
    element kind, an attribute map and children.
  - Links are attribute values (`Link` for `xlink:href`, `FuncLink` for
    `url(#…)`) that name a node by identity.
  - It also defines the queries svgdom answers: the pre-order walk, `is_used`,
    `linked_nodes` and lookup.
  - Removal is detaching a set of nodes with their subtrees (`RemoveSet`).
    Removing a list one node at a time is proved equal to one `RemoveSet`.
- **`Family`** (`dom.dfy`) holds facts about parents, children and removal in a
  tree with unique identities. It defines `Descends` ("every node of the new
  tree is a node of the old one with the same identity, kind and attributes";
  its children may have been pruned) and proves it transitive.
- **`Cascade`** (`cascade.dfy`) is the "remove the linkers, then the node" loop
  shared by the clip-path and filter passes.
  - It is proved equal to one removal of the targets plus every node linking
    to a listed node that is still live when its turn comes.
  - When no turn reaches a later listed node (none lies below an earlier
    listed node or below a node linking to one), every listed node is live at
    its turn, so the cascade removes the targets and every node linking to any
    of them.
- **`DisplayPass`**, **`PathPass`**, **`ClipPathPass`**, **`FilterPass`** hold
  the four passes.
- **`RemoveInvisible`** holds `remove_invisible_elements` itself: the four passes in order, and
  the cleanup decision.
- **`Scenarios`** (`scenarios.dfy`) holds the unit tests of the source file,
  stated as lemmas.
  - Node identities are parameters, so each lemma covers every assignment of
    distinct identities.
  - Three extra lemmas show behaviour the tests do not cover:
    - a second run can still remove something;
    - a `clipPath` child can be left naming a removed shape;
    - a node linking to an empty filter can survive, when that filter was
      itself removed as a linker of an earlier empty filter.

## Model

| member | source | states |
|---|---|---|
| `Dom.RemoveAllIsRemoveSet` | src/task/rm_invisible_elements.rs:168-170 | Popping recorded nodes one by one and removing each leaves the same tree as removing all of them at once. The order does not matter. |
| `Dom.RemoveSetDrops` | src/task/rm_invisible_elements.rs:168-170 | Removing a node takes away every node of its subtree. |
| `Dom.RemoveSetKeeps` | src/task/rm_invisible_elements.rs:168-170 | A node survives a removal when neither it nor any ancestor was removed. It keeps its identity, kind and attributes. |
| `Dom.RemoveSetUnique` | src/task/rm_invisible_elements.rs:168-170 | Removal keeps node identities distinct. |
| `Dom.SelectIds` | src/task/rm_invisible_elements.rs:175-176 | Filtering the descendants collects exactly the identities of the nodes passing the test: each collected one passes, and every passing node is collected. |
| `Dom.Find` | src/task/rm_invisible_elements.rs:94-96 | Resolving a link yields a live node with that identity, and fails exactly when no live node carries it. |
| `Dom.SelectIdsInOrder` | src/task/rm_invisible_elements.rs:175-176 | The collected identities are those of the passing nodes in document order, the order of the `descendants` walk. |
| `Dom.FindInOrder` | src/task/rm_invisible_elements.rs:94-96 | Resolving a link yields the first node in document order that carries the identity. |
| `Family.RemoveSetDescends` | src/task/rm_invisible_elements.rs:168-170 | Every node left after a removal is a node of the tree before with the same identity, kind and attributes. |
| `Family.DescendsTrans` | src/task/rm_invisible_elements.rs:30-40 | A composition fact, following from the definition of descent: "only takes nodes away" carries through the chain of passes. |
| `Cascade.CascadeIsRemoveSet` | src/task/rm_invisible_elements.rs:184-189 | Removing each node's linkers and then the node, node after node, equals one removal of all listed nodes plus every node linking to a listed node that is still live when its turn comes. A listed node an earlier turn already removed brings no linkers with it. |
| `Cascade.CascadeClears` | src/task/rm_invisible_elements.rs:72-77 | After the cascade no listed node is live. Nodes that named a listed node can survive; see "A target swept away early keeps its linkers". |
| `Cascade.CascadeUnique` | src/task/rm_invisible_elements.rs:72-77 | The cascade keeps identities distinct. |
| `Cascade.CascadeShrinks` | src/task/rm_invisible_elements.rs:184-189 | The cascade adds no node and no link. |
| `Cascade.CascadeDescends` | src/task/rm_invisible_elements.rs:184-189 | The cascade only takes nodes away. |
| `Cascade.LiveAtTurnApart` | src/task/rm_invisible_elements.rs:184-189 | When no listed node lies below an earlier listed node or below a node linking to one, the listed nodes still live at their turn are exactly the listed nodes of the tree, stated without running the cascade. |
| `Cascade.CascadeApart` | src/task/rm_invisible_elements.rs:184-189 | Under the same condition, the cascade is one removal of the listed nodes plus every node linking to any of them. |
| `Cascade.UsedIffLinkers` | src/task/rm_invisible_elements.rs:73 | A node is used exactly when its list of linking nodes is non-empty. |
| `DisplayPass.CollectHidden` | src/task/rm_invisible_elements.rs:148-162 | The walk records only nodes that have `display="none"`, are unused, and have no used node below them. |
| `DisplayPass.CollectHiddenComplete` | src/task/rm_invisible_elements.rs:148-162 | Every qualifying node is recorded, or lies below a recorded node whose children the walk skipped. |
| `DisplayPass.CollectHiddenNotNested` | src/task/rm_invisible_elements.rs:157-159 | After `skip_children`, no node below a recorded node is recorded too. |
| `DisplayPass.RecordedAreHidden` | src/task/rm_invisible_elements.rs:151-155 | A recorded node satisfies the test on the tree as it was before the pass. |
| `DisplayPass.DisplayPassRemoves` | src/task/rm_invisible_elements.rs:145-171 | A node disappears if and only if it is, or lies below, a node with `display="none"` whose subtree holds no used node. |
| `DisplayPass.DisplayPassKeepsUsed` | src/task/rm_invisible_elements.rs:151-153 | A node with a used node in its subtree survives the pass. |
| `DisplayPass.DisplayPassFlag` | src/task/rm_invisible_elements.rs:164-166 | The pass sets the flag exactly when some node qualifies. |
| `DisplayPass.DisplayPassIdle` | src/task/rm_invisible_elements.rs:164-170 | With no qualifying node the tree and the flag are untouched. |
| `DisplayPass.DisplayPassWellFormed` | src/task/rm_invisible_elements.rs:168-170 | The pass keeps identities distinct and only takes nodes away. |
| `PathPass.PathPassRemoves` | src/task/rm_invisible_elements.rs:129-141 | A node disappears if and only if it is, or lies below, a `path` whose `d` is missing, is not path data, or is empty path data. Whether the path is used does not matter. |
| `PathPass.PathPassLeavesVisible` | src/task/rm_invisible_elements.rs:109-127 | Every `path` left after the pass has a `d` attribute holding non-empty path data. |
| `PathPass.PathPassFlag` | src/task/rm_invisible_elements.rs:135-137 | The pass sets the flag exactly when the tree holds an invisible `path`. |
| `PathPass.PathPassIdle` | src/task/rm_invisible_elements.rs:129-141 | With no invisible `path` the tree and the flag are untouched. |
| `PathPass.PathPassWellFormed` | src/task/rm_invisible_elements.rs:139-141 | The pass keeps identities distinct and only takes nodes away. |
| `ClipPathPass.InvalidChildren` | src/task/rm_invisible_elements.rs:50-54 | A child is collected if and only if it fails `is_valid_clip_path_elem`. |
| `ClipPathPass.StripOneVisit` | src/task/rm_invisible_elements.rs:49-63 | One visit removes exactly the invalid children, each with its subtree, and keeps the `clipPath`. It records the `clipPath`, and only it, exactly when no children are left. |
| `ClipPathPass.StripOneRecords` | src/task/rm_invisible_elements.rs:50-62 | A visit records the `clipPath` exactly when none of its children passes the validity test. |
| `ClipPathPass.StripAllSettles` | src/task/rm_invisible_elements.rs:49-63 | This is the phase-one loop invariant. Every visited `clipPath` still live has only valid or dangling children, and it has no children exactly when it was recorded. |
| `ClipPathPass.StripAllDescends` | src/task/rm_invisible_elements.rs:49-63 | Phase one only takes nodes away. |
| `ClipPathPass.StripClipPathsFacts` | src/task/rm_invisible_elements.rs:49-63 | After phase one, every recorded identity is a `clipPath` of the input, and every childless `clipPath` was recorded. |
| `ClipPathPass.ClipPassChildren` | src/task/rm_invisible_elements.rs:42-78 | After the pass every child of every `clipPath` passes the validity test, or is a `use` whose target is gone. |
| `ClipPathPass.ClipPassRemovesEmptied` | src/task/rm_invisible_elements.rs:65-77 | A `clipPath` left childless by phase one is gone after the pass, and the flag is set. |
| `ClipPathPass.ClipPassCascade` | src/task/rm_invisible_elements.rs:69-77 | Phase two removes exactly the recorded `clipPath`s and every node linking to a recorded `clipPath` that is still live at its turn. Turns go last recorded first. |
| `ClipPathPass.ClipPassCascadeApart` | src/task/rm_invisible_elements.rs:69-77 | When no turn of phase two reaches a later recorded `clipPath`, phase two removes the recorded `clipPath`s and every node linking to one of them. |
| `ClipPathPass.ClipPassFlag` | src/task/rm_invisible_elements.rs:65-67 | A set flag means some `clipPath` of the input is gone. |
| `ClipPathPass.ClipPassIdle` | src/task/rm_invisible_elements.rs:49-67 | With no `clipPath` the tree and the flag are untouched. |
| `ClipPathPass.ClipPassWellFormed` | src/task/rm_invisible_elements.rs:44-78 | The pass keeps identities distinct and only takes nodes away. |
| `FilterPass.FilterPassRemoves` | src/task/rm_invisible_elements.rs:173-190 | A node disappears if and only if it is, or lies below, either an empty `filter` or a node linking to an empty `filter` that is still live at its turn. |
| `FilterPass.FilterPassClears` | src/task/rm_invisible_elements.rs:184-189 | No empty `filter` survives the pass. |
| `FilterPass.FilterPassRemovesApart` | src/task/rm_invisible_elements.rs:173-190 | When no empty `filter` lies below an earlier empty `filter` or below a node linking to one, a node disappears exactly when it is, or lies below, an empty `filter` or a node linking to one. |
| `FilterPass.FilterPassFlag` | src/task/rm_invisible_elements.rs:178-180 | The pass sets the flag exactly when the tree holds a `filter` without children. |
| `FilterPass.FilterPassIdle` | src/task/rm_invisible_elements.rs:175-189 | With no empty `filter` the tree and the flag are untouched. |
| `FilterPass.FilterPassWellFormed` | src/task/rm_invisible_elements.rs:184-189 | The pass keeps identities distinct and only takes nodes away. |
| `RemoveInvisible.RunWellFormed` | src/task/rm_invisible_elements.rs:30-36 | A run keeps identities distinct and only takes nodes away. |
| `RemoveInvisible.RunRemovesHidden` | src/task/rm_invisible_elements.rs:30-36 | Every node of an unused `display="none"` subtree of the input is gone after the run. |
| `RemoveInvisible.RunPathsVisible` | src/task/rm_invisible_elements.rs:30-36 | No invisible `path` is left after a run. |
| `RemoveInvisible.RunClipChildren` | src/task/rm_invisible_elements.rs:30-36 | After a run every `clipPath` child is valid or a `use` whose target is gone. |
| `RemoveInvisible.RunCleanup` | src/task/rm_invisible_elements.rs:30-40 | The cleanup is requested only when some node of the input was really removed. |
| `RemoveInvisible.LossCarries` | src/task/rm_invisible_elements.rs:31-37 | A composition fact, gluing the per-pass flag lemmas with descent: the shared flag, set by any of the four passes, implies a node of the input is gone from the final tree. |
| `RemoveInvisible.GoneStaysGone` | src/task/rm_invisible_elements.rs:32-35 | A composition fact, following from the definition of descent: a node removed by one pass never comes back in a later one. |
| `Scenarios.ClipChildrenScenario` | src/task/rm_invisible_elements.rs:220-232 | `rm_clip_path_children_1`: the group is stripped, the rectangle is kept, and no cleanup is asked. |
| `Scenarios.UseClipScenario` | src/task/rm_invisible_elements.rs:234-251 | `rm_clip_path_children_2`: the `use` without a link and the `use` naming a group go; the `use` naming a rectangle stays. |
| `Scenarios.EmptyClipScenario` | src/task/rm_invisible_elements.rs:253-260 | `rm_clip_path_1`: the empty `clipPath` and both rectangles referencing it go. |
| `Scenarios.HiddenClipScenario` | src/task/rm_invisible_elements.rs:271-278 | `rm_clip_path_3`: the hidden rectangle goes first, which empties the `clipPath`, which then goes too. |
| `Scenarios.PathScenario` | src/task/rm_invisible_elements.rs:280-292 | `rm_path_1` and `rm_path_2`: a `path` without `d`, or with empty `d`, is removed. |
| `Scenarios.HiddenLeafScenario` | src/task/rm_invisible_elements.rs:302-307 | `rm_display_none_1`: an unused element with `display="none"` is removed. |
| `Scenarios.HiddenGroupScenario` | src/task/rm_invisible_elements.rs:309-316 | `rm_display_none_2`: a hidden group goes with its content. |
| `Scenarios.UsedGroupScenario` | src/task/rm_invisible_elements.rs:318-325 | `skip_display_none_1`: a hidden group holding a referenced rectangle is kept, and the document is unchanged. |
| `Scenarios.LoneFilterScenario` | src/task/rm_invisible_elements.rs:327-332 | `rm_filter_1`: a `filter` without children is removed, and the cleanup is asked for. |
| `Scenarios.FilterScenario` | src/task/rm_invisible_elements.rs:334-340 | `rm_filter_2`: the empty filter and the rectangle using it go. |
| `Scenarios.ChainFilterScenario` | src/task/rm_invisible_elements.rs:173-190 | Two empty filters, the second naming the first, and a rectangle naming the second. Both filters go, but the rectangle stays: the second filter goes as a linker of the first, so its own turn finds no linkers. |
| `Scenarios.SecondRunFindsMore` | src/task/rm_invisible_elements.rs:145-171 | Running `remove_invisible_elements` twice can remove more than running it once. |
| `Scenarios.DanglingScenario` | src/task/rm_invisible_elements.rs:49-63 | A `use` kept because its shape was live can lose that shape to a later visit, and it then fails the validity test after the run. |

## Behaviour worth knowing

- **A run is not idempotent.** Removing a hidden group can take away the only
  `use` of another hidden element. That element becomes removable only after
  the display pass has already decided. `Scenarios.SecondRunFindsMore`
  exhibits this.
- **Clip-path children are valid only up to dangling links.** A `use` is judged
  while its target is live. A later visit, or the phase-two cascade, can then
  remove the target. `Scenarios.DanglingScenario` exhibits this.
- **The cascade takes every linker.** The clip-path and filter cascades remove
  every node that links to the deleted element by any attribute, not only by
  `clip-path` or `filter`, because `linked_nodes` reports them all.
- **A target swept away early keeps its linkers.** A listed element can be
  removed during an earlier element's turn, as one of that element's linkers.
  svgdom then drops every link to it, so its own turn finds no linkers. Nodes
  that named it stay, with the link gone. For filters this keeps a rectangle
  whose filter was empty (`Scenarios.ChainFilterScenario`). It takes an order:
  filters take their turns in document order, so the empty filter named by the
  other empty filter has to come first. Emptied `clipPath`s take their turns
  last recorded first, so for an emptied `clipPath` whose own `clip-path` names
  another emptied `clipPath`, the named one has to come later in document
  order. In the opposite order the naming element takes its turn first and its
  own linkers go with it.
- **Stripping does not set the flag.** Only the deletion of an emptied
  `clipPath` sets the shared flag. Removing invalid children alone leaves it
  clear.
- **A later pass can undo an earlier one.** The filter cascade can remove every
  child of a `clipPath` that the clip-path pass already checked, leaving it
  empty. The clip-path pass does not run again.

## Left out

- `remove_unused_defs` is called at src/task/rm_invisible_elements.rs:38. The
  model stops at the decision to call it (`Outcome.cleanupDefs`). So the tests
  `rm_clip_path_2` and `rm_path_3`, whose gradients are removed by that
  cleanup, are not stated as scenarios.
- The tests' `group_defs` and `final_fixes` steps, parsing and serialisation
  are not modelled: scenarios start and end at the tree.
- svgdom's document internals are not modelled: reference counting, the
  iterator implementation, and the unlinking of attributes that point to a
  removed node.
  - A link to a removed node stays in the attribute map, where svgdom would
    drop the attribute. Such leftover links remain in the output wherever a
    surviving node named a removed one: the rectangle of
    `Scenarios.ChainFilterScenario` keeps its `filter`, a `use` naming an
    invisible `path` keeps its `xlink:href`, and a node outside a `clipPath`
    keeps its link to a child stripped in phase one.
  - Every query the passes make ignores such a link. `Used` and `Linkers` count
    only links to a live node, and `Find` only ever returns a live node, so
    they answer as svgdom does after its unlinking. In particular a listed node
    already removed by an earlier turn of a cascade has no linkers.
  - The only contracts the leftover links weaken are
    `ClipPathPass.ClipPassChildren` and `RemoveInvisible.RunClipChildren`: a
    `use` child of a `clipPath` whose target was removed is reported as
    dangling (see `ClipPathPass.ValidOrDangling`), where svgdom leaves that
    `use` without `xlink:href`.
  - For the walk of phase one at src/task/rm_invisible_elements.rs:49-58, the
    model assumes that removing children of the `clipPath` the `descendants`
    iterator is on leaves the walk to continue over the rest of the input's
    pre-order, skipping removed nodes (`ClipPathPass.StripAll` visits the
    input's `clipPath`s in that order and `StripOne` skips one no longer live).
    So a `clipPath` inside a removed child is never visited.
- The `mask` and `visibility` processing is marked TODO in the source and does
  not exist there.
- `src/main.cpp` is the GUI launcher and is not part of this model.
- `ClipPathPass.ClipPassChildren` is weaker than "every child of every
  `clipPath` is valid": it admits a `use` whose target was removed, because the
  code admits it (see `Scenarios.DanglingScenario`).
- `RemoveInvisible.RunClipChildren` is weaker in the same way, for the same
  reason.
- `ClipPathPass.ClipPassFlag` is one direction only: the converse is
  `ClipPathPass.ClipPassRemovesEmptied`, stated for the tree after phase one,
  because phase one decides which `clipPath`s end up childless.
- `RemoveInvisible.RunCleanup` is one direction only, because the converse is
  false. Phase one of the clip-path pass removes invalid children without
  setting the flag, so a run can change the tree and still not ask for the
  cleanup. `Scenarios.ClipChildrenScenario` is such a run.

=== FILE: cascade.dfy ===
/**
 * The cascading removal shared by the clip-path and filter passes: for each
 * listed node in turn, every live node that links to it is removed, then the
 * node itself. A listed node that an earlier turn already removed has no
 * linkers left by its own turn, so it takes nothing else with it.
 */
module Cascade {
  import opened Dom
  import opened Family

  /**
   * For each node of `ids`, first listed first: remove every node returned by
   * `linked_nodes`, then the node itself. The linkers are read on the tree as
   * it is when that node's turn comes; removing a node that is already gone
   * changes nothing.
   */
  function CascadeRemove(f: Forest, ids: seq<NodeId>): Forest
    decreases |ids|
  {
    if ids == [] then f
    else
      var id := ids[0];
      CascadeRemove(RemoveSet(RemoveSet(f, Linkers(f, id)), {id}), ids[1..])
  }

  lemma UsedIffLinkers(f: Forest, t: NodeId)
    ensures Used(f, t) <==> Linkers(f, t) != {}
  {
    if Used(f, t) {
      var m :| m in Flatten(f) && m.LinksTo(t);
      assert m.id in Linkers(f, t);
    }
  }

  /** A cascade only takes nodes and links away. */
  lemma {:induction false} CascadeShrinks(f: Forest, ids: seq<NodeId>, t: NodeId)
    ensures Ids(CascadeRemove(f, ids)) <= Ids(f)
    ensures Used(CascadeRemove(f, ids), t) ==> Used(f, t)
    decreases |ids|
  {
    if ids != [] {
      var id := ids[0];
      var g := RemoveSet(f, Linkers(f, id));
      var h := RemoveSet(g, {id});
      CascadeShrinks(h, ids[1..], t);
      RemoveSetIds(f, Linkers(f, id));
      RemoveSetIds(g, {id});
      RemoveSetUsed(f, Linkers(f, id), t);
      RemoveSetUsed(g, {id}, t);
    }
  }

  /** A cascade only takes nodes away. */
  lemma {:induction false} CascadeDescends(f: Forest, ids: seq<NodeId>)
    ensures Descends(CascadeRemove(f, ids), f)
    decreases |ids|
  {
    if ids == [] {
      DescendsRefl(f);
    } else {
      var id := ids[0];
      var g := RemoveSet(f, Linkers(f, id));
      var h := RemoveSet(g, {id});
      CascadeDescends(h, ids[1..]);
      RemoveSetDescends(f, Linkers(f, id));
      RemoveSetDescends(g, {id});
      DescendsTrans(h, g, f);
      DescendsTrans(CascadeRemove(f, ids), h, f);
    }
  }

  /** A cascade keeps identities unique. */
  lemma {:induction false} CascadeUnique(f: Forest, ids: seq<NodeId>)
    requires Unique(f)
    ensures Unique(CascadeRemove(f, ids))
    decreases |ids|
  {
    if ids != [] {
      var id := ids[0];
      var g := RemoveSet(f, Linkers(f, id));
      RemoveSetUnique(f, Linkers(f, id));
      RemoveSetUnique(g, {id});
      CascadeUnique(RemoveSet(g, {id}), ids[1..]);
    }
  }

  /** After a cascade no listed node is live. */
  lemma {:induction false} CascadeClears(f: Forest, ids: seq<NodeId>)
    ensures forall id | id in ids :: id !in Ids(CascadeRemove(f, ids))
    decreases |ids|
  {
    if ids != [] {
      var id := ids[0];
      var g := RemoveSet(f, Linkers(f, id));
      var h := RemoveSet(g, {id});
      var out := CascadeRemove(h, ids[1..]);
      assert out == CascadeRemove(f, ids);
      CascadeClears(h, ids[1..]);
      RemoveSetIds(g, {id});
      CascadeShrinks(h, ids[1..], id);
    }
  }

  /**
   * In a well-formed forest, a removal leaves the links of the surviving nodes
   * to the surviving targets as they were.
   */
  lemma LinkersOfAnyAfterRemove(f: Forest, s: set<NodeId>, targets: set<NodeId>)
    requires Unique(f) && targets <= Ids(RemoveSet(f, s))
    ensures LinkersOfAny(RemoveSet(f, s), targets) <= LinkersOfAny(f, targets)
    ensures LinkersOfAny(f, targets) * Ids(RemoveSet(f, s)) <= LinkersOfAny(RemoveSet(f, s), targets)
  {
    var g := RemoveSet(f, s);
    forall x | x in LinkersOfAny(g, targets)
      ensures x in LinkersOfAny(f, targets)
    {
      var m, t :| m in Flatten(g) && t in targets && t in Ids(g) && m.LinksTo(t) && m.id == x;
      RemoveSetIds(f, s);
      RemoveSetNodes(f, s, m);
      var n :| n in Flatten(f) && n.id !in s && m == Prune(n, s);
      assert n.LinksTo(t);
    }
    forall x | x in LinkersOfAny(f, targets) * Ids(g)
      ensures x in LinkersOfAny(g, targets)
    {
      var n, t :| n in Flatten(f) && t in targets && t in Ids(f) && n.LinksTo(t) && n.id == x;
      var m :| m in Flatten(g) && m.id == x;
      RemoveSetNodes(f, s, m);
      var n' :| n' in Flatten(f) && n'.id !in s && m == Prune(n', s);
      FindUnique(f, n);
      FindUnique(f, n');
      assert m.LinksTo(t);
    }
  }

  lemma LinkersOfAnySplit(f: Forest, id: NodeId, rest: set<NodeId>)
    ensures LinkersOfAny(f, {id} + rest) == Linkers(f, id) + LinkersOfAny(f, rest)
  {
  }

  lemma LinkersOfNone(f: Forest)
    ensures LinkersOfAny(f, {}) == {}
  {
  }

  /** The first node's own linkers, if it is live, and those of the later live nodes. */
  lemma LinkersOfAnyHere(f: Forest, id: NodeId, live: set<NodeId>)
    ensures LinkersOfAny(f, (if id in Ids(f) then {id} else {}) + live) == Linkers(f, id) + LinkersOfAny(f, live)
  {
    if id in Ids(f) {
      LinkersOfAnySplit(f, id, live);
    } else {
      assert Linkers(f, id) == {};
      assert ({} + live) == live;
    }
  }

  lemma MembersCons(ids: seq<NodeId>)
    requires ids != []
    ensures Members(ids) == {ids[0]} + Members(ids[1..])
  {
    assert ids == [ids[0]] + ids[1..];
  }

  lemma SetShuffle(a: set<NodeId>, l: set<NodeId>, id: NodeId, rest: set<NodeId>, x: set<NodeId>)
    requires a == l + {id}
    ensures a + rest + x == ({id} + rest) + (l + x)
  {
  }

  /**
   * The listed nodes still live when their turn comes: `ids[i]` is in the tree
   * the first `i` turns leave behind.
   */
  function LiveAtTurn(f: Forest, ids: seq<NodeId>): set<NodeId>
  {
    set i | 0 <= i < |ids| && ids[i] in Ids(CascadeRemove(f, ids[..i])) :: ids[i]
  }

  /** One turn, then the rest: the first node counts when it is live, the others on the tree its turn leaves. */
  lemma LiveAtTurnCons(f: Forest, ids: seq<NodeId>)
    requires ids != []
    ensures
      var id := ids[0];
      var d1 := RemoveSet(RemoveSet(f, Linkers(f, id)), {id});
      LiveAtTurn(f, ids) == (if id in Ids(f) then {id} else {}) + LiveAtTurn(d1, ids[1..])
  {
    var id := ids[0];
    var d1 := RemoveSet(RemoveSet(f, Linkers(f, id)), {id});
    var rest := ids[1..];
    assert ids[..0] == [];
    forall i | 1 <= i <= |ids|
      ensures CascadeRemove(f, ids[..i]) == CascadeRemove(d1, rest[..i - 1])
    {
      assert ids[..i][0] == id;
      assert ids[..i][1..] == rest[..i - 1];
    }
    forall x | x in LiveAtTurn(f, ids)
      ensures x in (if id in Ids(f) then {id} else {}) + LiveAtTurn(d1, rest)
    {
      var i :| 0 <= i < |ids| && ids[i] in Ids(CascadeRemove(f, ids[..i])) && ids[i] == x;
      if i > 0 {
        assert rest[i - 1] == x;
      }
    }
    forall x | x in (if id in Ids(f) then {id} else {}) + LiveAtTurn(d1, rest)
      ensures x in LiveAtTurn(f, ids)
    {
      if x in LiveAtTurn(d1, rest) {
        var j :| 0 <= j < |rest| && rest[j] in Ids(CascadeRemove(d1, rest[..j])) && rest[j] == x;
        assert ids[j + 1] == x;
      } else {
        assert ids[0] == x;
      }
    }
  }

  /** A node counts only when it is listed and still in the tree the cascade starts from. */
  lemma {:induction false} LiveAtTurnBounds(f: Forest, ids: seq<NodeId>)
    ensures LiveAtTurn(f, ids) <= Members(ids) * Ids(f)
  {
    forall x | x in LiveAtTurn(f, ids)
      ensures x in Members(ids) * Ids(f)
    {
      var i :| 0 <= i < |ids| && ids[i] in Ids(CascadeRemove(f, ids[..i])) && ids[i] == x;
      CascadeShrinks(f, ids[..i], x);
    }
  }

  /**
   * No turn reaches a later listed node: none lies in the subtree of an
   * earlier listed node, or of a node linking to one.
   */
  predicate TurnsApart(f: Forest, ids: seq<NodeId>)
  {
    forall i, j | 0 <= i < j < |ids| ::
      forall a | a in Flatten(f) && (a.id == ids[i] || a.id in Linkers(f, ids[i])) :: ids[j] !in IdSet(Subtree(a))
  }

  /** When no turn reaches a later listed node, every listed node of the tree is still there at its turn. */
  lemma LiveAtTurnApart(f: Forest, ids: seq<NodeId>)
    requires Unique(f) && TurnsApart(f, ids)
    ensures LiveAtTurn(f, ids) == Members(ids) * Ids(f)
  {
    LiveAtTurnBounds(f, ids);
    forall x | x in Members(ids) * Ids(f)
      ensures x in LiveAtTurn(f, ids)
    {
      var j :| 0 <= j < |ids| && ids[j] == x;
      var pre := ids[..j];
      var live := LiveAtTurn(f, pre);
      var s := Members(pre) + LinkersOfAny(f, live);
      CascadeIsRemoveSet(f, pre);
      LiveAtTurnBounds(f, pre);
      var n :| n in Flatten(f) && n.id == x;
      forall a | a in Flatten(f) && a.id in s
        ensures n !in Subtree(a)
      {
        var i: int;
        if a.id in Members(pre) {
          i :| 0 <= i < j && pre[i] == a.id;
        } else {
          var m, t :| m in Flatten(f) && t in live && t in Ids(f) && m.LinksTo(t) && m.id == a.id;
          i :| 0 <= i < j && pre[i] == t;
          assert a.id in Linkers(f, ids[i]);
        }
        assert ids[j] !in IdSet(Subtree(a));
      }
      RemoveSetKeeps(f, s, n);
      assert Prune(n, s).id == x;
      assert x in Ids(CascadeRemove(f, ids[..j]));
    }
  }

  /** Targets that are not in the tree have no linkers. */
  lemma LinkersOfLive(f: Forest, ids: set<NodeId>)
    ensures LinkersOfAny(f, ids * Ids(f)) == LinkersOfAny(f, ids)
  {
  }

  /** Nodes that linked to `live` but are gone after removing `a` may be added to a later removal for free. */
  lemma AbsorbGone(f: Forest, a: set<NodeId>, rest: set<NodeId>, live: set<NodeId>)
    requires Unique(f) && live <= Ids(RemoveSet(f, a))
    ensures
      var d1 := RemoveSet(f, a);
      RemoveSet(d1, rest + LinkersOfAny(d1, live)) == RemoveSet(f, a + rest + LinkersOfAny(f, live))
  {
    var d1 := RemoveSet(f, a);
    var x := rest + LinkersOfAny(d1, live);
    LinkersOfAnyAfterRemove(f, a, live);
    var e := LinkersOfAny(f, live) - LinkersOfAny(d1, live);
    assert e !! Ids(d1);
    calc {
      RemoveSet(d1, x);
      { RemoveSetNoop(d1, e); }
      RemoveSet(RemoveSet(d1, e), x);
      { RemoveSetTwice(d1, e, x); }
      RemoveSet(d1, e + x);
      { RemoveSetTwice(f, a, e + x); }
      RemoveSet(f, a + (e + x));
      { assert a + (e + x) == a + rest + LinkersOfAny(f, live); }
      RemoveSet(f, a + rest + LinkersOfAny(f, live));
    }
  }

  /**
   * Taking the listed nodes one at a time is the same as removing, in one go,
   * all of them together with every node that links to one of them that is
   * still live when its turn comes.
   */
  lemma {:induction false} CascadeIsRemoveSet(f: Forest, ids: seq<NodeId>)
    requires Unique(f)
    ensures CascadeRemove(f, ids) == RemoveSet(f, Members(ids) + LinkersOfAny(f, LiveAtTurn(f, ids)))
    decreases |ids|
  {
    if ids == [] {
      assert Members(ids) == {};
      assert LiveAtTurn(f, ids) == {};
      LinkersOfNone(f);
      assert Members(ids) + LinkersOfAny(f, LiveAtTurn(f, ids)) == {};
      RemoveSetNoop(f, {});
    } else {
      var id := ids[0];
      var rest := Members(ids[1..]);
      var a := Linkers(f, id) + {id};
      var d1 := RemoveSet(RemoveSet(f, Linkers(f, id)), {id});
      var live := LiveAtTurn(d1, ids[1..]);
      RemoveSetTwice(f, Linkers(f, id), {id});
      RemoveSetUnique(f, a);
      CascadeIsRemoveSet(d1, ids[1..]);
      LiveAtTurnBounds(d1, ids[1..]);
      AbsorbGone(f, a, rest, live);
      LiveAtTurnCons(f, ids);
      LinkersOfAnyHere(f, id, live);
      MembersCons(ids);
      SetShuffle(a, Linkers(f, id), id, rest, LinkersOfAny(f, live));
    }
  }

  /**
   * When no turn reaches a later listed node, the cascade removes the listed
   * nodes and every node linking to any of them, with their subtrees.
   */
  lemma CascadeApart(f: Forest, ids: seq<NodeId>)
    requires Unique(f) && TurnsApart(f, ids)
    ensures CascadeRemove(f, ids) == RemoveSet(f, Members(ids) + LinkersOfAny(f, Members(ids)))
  {
    CascadeIsRemoveSet(f, ids);
    LiveAtTurnApart(f, ids);
    LinkersOfLive(f, Members(ids));
  }
}

=== FILE: clip_path_pass.dfy ===
/**
 * `process_clip_paths`: strips from every `clipPath` the children that cannot
 * take part in a clipping path (section 14.3.5 "Establishing a new clipping
 * path" of the SVG 1.1 specification), then deletes every `clipPath` left
 * without children together with every node that links to it.
 *
 * Phase one visits the `clipPath` elements in document order; each visit reads
 * the tree as the earlier visits left it. Phase two starts only once phase one
 * is over.
 */
module ClipPathPass {
  import opened Dom
  import opened Family
  import opened Cascade

  /** `is_basic_shape`: `rect`, `circle`, `ellipse`, `line`, `polyline`, `polygon`. */
  predicate IsBasicShape(n: Node)
  {
    n.tag.Rect? || n.tag.Circle? || n.tag.Ellipse? || n.tag.Line? || n.tag.Polyline? || n.tag.Polygon?
  }

  /** `is_valid_shape`: a basic shape, a `path` or a `text`. */
  predicate IsValidShape(n: Node)
  {
    IsBasicShape(n) || n.tag == Path || n.tag == Text
  }

  /** The node `t` names is live and is a valid shape. */
  predicate LinksToShape(doc: Forest, t: NodeId)
  {
    match Find(doc, t)
    case Some(target) => IsValidShape(target)
    case None => false
  }

  /**
   * `is_valid_clip_path_elem`: a `use` without `xlink:href` is invalid; a `use`
   * whose `xlink:href` is a link is valid when it names a valid shape; anything
   * else (a `use` included) is valid when it is itself a valid shape.
   */
  predicate IsValidClipPathElem(doc: Forest, n: Node)
  {
    if n.tag == Use then
      if XlinkHref !in n.attrs then false
      else
        match n.attrs[XlinkHref]
        case Link(t) => LinksToShape(doc, t)
        case _ => IsValidShape(n)
    else
      IsValidShape(n)
  }

  /** The children that fail the test, in document order, all judged on the same tree. */
  function InvalidChildren(doc: Forest, children: seq<Node>): (r: seq<NodeId>)
    ensures forall c | c in children && !IsValidClipPathElem(doc, c) :: c.id in r
    ensures forall id | id in r :: exists c | c in children :: c.id == id && !IsValidClipPathElem(doc, c)
  {
    if children == [] then []
    else
      var c := children[0];
      (if IsValidClipPathElem(doc, c) then [] else [c.id]) + InvalidChildren(doc, children[1..])
  }

  /** The tree after phase one, and the `clipPath`s it recorded as empty, in visiting order. */
  datatype StripResult = StripResult(tree: Forest, emptied: seq<NodeId>)

  /**
   * One visit of the loop of phase one: pop the invalid children, then record
   * the `clipPath` if it has no children left. A node no longer live is not
   * visited.
   */
  function StripOne(doc: Forest, id: NodeId): StripResult
  {
    match Find(doc, id)
    case None => StripResult(doc, [])
    case Some(cp) =>
      var tree := RemoveAll(doc, InvalidChildren(doc, cp.children));
      var left := Find(tree, id);
      StripResult(tree, if left.Some? && left.value.children == [] then [id] else [])
  }

  /** Phase one over the listed `clipPath`s, in order. */
  function StripAll(doc: Forest, cps: seq<NodeId>): StripResult
    decreases |cps|
  {
    if cps == [] then StripResult(doc, [])
    else
      var one := StripOne(doc, cps[0]);
      var more := StripAll(one.tree, cps[1..]);
      StripResult(more.tree, one.emptied + more.emptied)
  }

  predicate IsClipPath(n: Node)
  {
    n.tag == ClipPath
  }

  /** Phase one over every `clipPath` of the document. */
  function StripClipPaths(doc: Forest): StripResult
  {
    StripAll(doc, SelectIds(doc, IsClipPath))
  }

  /**
   * The pass: phase one, then phase two pops the recorded `clipPath`s (last
   * recorded first), removing each one's linking nodes and then the node. The
   * flag is set when some `clipPath` was recorded.
   */
  function ProcessClipPaths(doc: Forest): PassResult
  {
    var stripped := StripClipPaths(doc);
    PassResult(CascadeRemove(stripped.tree, Reverse(stripped.emptied)), stripped.emptied != [])
  }

  // ---------------------------------------------------------------------------
  // One visit

  /** The `clipPath` does not lie below any of its own children. */
  lemma NotBelowOwnChild(doc: Forest, cp: Node, c: Node)
    requires Unique(doc) && cp in Flatten(doc) && c in cp.children
    ensures cp !in Subtree(c)
  {
    TopInFlatten(cp.children, c);
    UniqueSubtrees(doc, cp, c);
    if cp in Subtree(c) {
      assert cp in Flatten(c.children);
      ChildrenWithin(doc, cp);
      FlattenSingle(cp);
      SubtreeWithin(c.children, cp);
      assert c in Flatten(c.children);
      ChildrenWithin(doc, c);
      UniqueSubtrees(doc, c, c);
      assert false;
    }
  }

  /** The identities of the children of `cp` that one visit removes. */
  function Bad(doc: Forest, cp: Node): set<NodeId>
  {
    Members(InvalidChildren(doc, cp.children))
  }

  /** A child of `cp` is removed exactly when it fails the test. */
  lemma BadAreInvalid(doc: Forest, cp: Node)
    requires Unique(doc) && cp in Flatten(doc)
    ensures forall c | c in cp.children :: c.id in Bad(doc, cp) <==> !IsValidClipPathElem(doc, c)
    ensures forall id | id in Bad(doc, cp) :: exists c | c in cp.children :: c.id == id
  {
    UniqueBelow(doc, cp);
    forall c | c in cp.children
      ensures c.id in Bad(doc, cp) <==> !IsValidClipPathElem(doc, c)
    {
      if c.id in Bad(doc, cp) {
        var c2 :| c2 in cp.children && c2.id == c.id && !IsValidClipPathElem(doc, c2);
        TopInFlatten(cp.children, c);
        TopInFlatten(cp.children, c2);
        FindUnique(cp.children, c);
        FindUnique(cp.children, c2);
      }
    }
  }

  /**
   * One visit removes the invalid children of the visited `clipPath` (and what
   * lies below them), keeps the `clipPath` itself, and records it exactly when
   * it has no children left.
   */
  lemma StripOneVisit(doc: Forest, id: NodeId)
    requires Unique(doc) && Find(doc, id).Some?
    ensures
      var cp := Find(doc, id).value;
      var r := StripOne(doc, id);
      && r.tree == RemoveSet(doc, Bad(doc, cp))
      && Find(r.tree, id) == Some(Prune(cp, Bad(doc, cp)))
      && (r.emptied != [] <==> Prune(cp, Bad(doc, cp)).children == [])
      && Members(r.emptied) <= {id}
  {
    var cp := Find(doc, id).value;
    var invalid := InvalidChildren(doc, cp.children);
    var bad := Bad(doc, cp);
    var r := StripOne(doc, id);
    RemoveAllIsRemoveSet(doc, invalid);
    assert r.tree == RemoveSet(doc, bad);
    forall a | a in Flatten(doc) && a.id in bad
      ensures cp !in Subtree(a)
    {
      var c :| c in cp.children && c.id == a.id && !IsValidClipPathElem(doc, c);
      ChildrenWithin(doc, cp);
      TopInFlatten(cp.children, c);
      FindUnique(doc, a);
      FindUnique(doc, c);
      NotBelowOwnChild(doc, cp, c);
    }
    RemoveSetKeeps(doc, bad, cp);
    RemoveSetUnique(doc, bad);
    FindUnique(r.tree, Prune(cp, bad));
  }

  /** A visit records the `clipPath` exactly when none of its children passes the test. */
  lemma StripOneRecords(doc: Forest, id: NodeId)
    requires Unique(doc) && Find(doc, id).Some?
    ensures StripOne(doc, id).emptied != []
        <==> forall c | c in Find(doc, id).value.children :: !IsValidClipPathElem(doc, c)
  {
    var cp := Find(doc, id).value;
    StripOneVisit(doc, id);
    BadAreInvalid(doc, cp);
    RemoveSetEmpty(cp.children, Bad(doc, cp));
  }

  // ---------------------------------------------------------------------------
  // What phase one establishes

  /**
   * The child passed the validity test, except that the node its `xlink:href`
   * named may since have been removed.
   */
  predicate ValidOrDangling(doc: Forest, c: Node)
  {
    || IsValidClipPathElem(doc, c)
    || (&& c.tag == Use && XlinkHref in c.attrs && c.attrs[XlinkHref].Link?
        && c.attrs[XlinkHref].target !in Ids(doc))
  }

  /** Every child of every live `clipPath` is valid or dangling. */
  predicate ClipChildrenValid(doc: Forest)
  {
    forall cp | cp in Flatten(doc) && IsClipPath(cp) :: forall c | c in cp.children :: ValidOrDangling(doc, c)
  }

  /**
   * The loop invariant of phase one: every visited `clipPath` that is still
   * live has only valid or dangling children, and has no children exactly when
   * it was recorded; only visited ones are recorded.
   */
  predicate Settled(doc: Forest, visited: set<NodeId>, emptied: set<NodeId>)
  {
    && emptied <= visited
    && forall cp | cp in Flatten(doc) && IsClipPath(cp) && cp.id in visited :: NodeSettled(doc, cp, emptied)
  }

  /** The invariant for one `clipPath`. */
  predicate NodeSettled(doc: Forest, cp: Node, emptied: set<NodeId>)
  {
    && (forall c | c in cp.children :: ValidOrDangling(doc, c))
    && (cp.children == [] <==> cp.id in emptied)
  }

  /** A removal keeps a valid or dangling child so. */
  lemma ValidOrDanglingAfterRemove(doc: Forest, s: set<NodeId>, c: Node)
    requires Unique(doc) && ValidOrDangling(doc, c)
    ensures ValidOrDangling(RemoveSet(doc, s), Prune(c, s))
  {
    var out := RemoveSet(doc, s);
    RemoveSetIds(doc, s);
    if c.tag == Use && XlinkHref in c.attrs && c.attrs[XlinkHref].Link? {
      var t := c.attrs[XlinkHref].target;
      if t in Ids(out) {
        FindAfterRemove(doc, s, t);
      }
    }
  }

  /** A removal keeps the children of a node valid or dangling. */
  lemma ChildrenAfterRemove(doc: Forest, s: set<NodeId>, q: Node)
    requires Unique(doc) && forall c | c in q.children :: ValidOrDangling(doc, c)
    ensures forall c' | c' in Prune(q, s).children :: ValidOrDangling(RemoveSet(doc, s), c')
  {
    forall c' | c' in Prune(q, s).children
      ensures ValidOrDangling(RemoveSet(doc, s), c')
    {
      RemoveSetTop(q.children, s, c');
      var c :| c in q.children && c.id !in s && c' == Prune(c, s);
      ValidOrDanglingAfterRemove(doc, s, c);
    }
  }

  /** A removal keeps the children of the live `clipPath`s valid or dangling. */
  lemma ClipChildrenAfterRemove(doc: Forest, s: set<NodeId>)
    requires Unique(doc) && ClipChildrenValid(doc)
    ensures ClipChildrenValid(RemoveSet(doc, s))
  {
    var out := RemoveSet(doc, s);
    forall cp' | cp' in Flatten(out) && IsClipPath(cp')
      ensures forall c | c in cp'.children :: ValidOrDangling(out, c)
    {
      RemoveSetNodes(doc, s, cp');
      var cp :| cp in Flatten(doc) && cp.id !in s && cp' == Prune(cp, s);
      ChildrenAfterRemove(doc, s, cp);
    }
  }

  /** Removing children of `cp` leaves every other node's children list as empty or non-empty as it was. */
  lemma OtherChildrenKept(doc: Forest, cp: Node, q: Node, bad: set<NodeId>)
    requires Unique(doc) && cp in Flatten(doc) && q in Flatten(doc) && q.id != cp.id
    requires forall id | id in bad :: exists c | c in cp.children :: c.id == id
    ensures RemoveSet(q.children, bad) == [] <==> q.children == []
  {
    forall c | c in q.children
      ensures c.id !in bad
    {
      if c.id in bad {
        var c2 :| c2 in cp.children && c2.id == c.id;
        ChildrenWithin(doc, q);
        ChildrenWithin(doc, cp);
        TopInFlatten(q.children, c);
        TopInFlatten(cp.children, c2);
        FindUnique(doc, c);
        FindUnique(doc, c2);
        UniqueParent(doc, q, cp, c);
        assert false;
      }
    }
    RemoveSetEmpty(q.children, bad);
  }

  /** The visited `clipPath` itself, after its visit. */
  lemma VisitedSettles(doc: Forest, id: NodeId, q': Node)
    requires Unique(doc) && Find(doc, id).Some?
    requires q' in Flatten(StripOne(doc, id).tree) && q'.id == id
    ensures forall c | c in q'.children :: ValidOrDangling(StripOne(doc, id).tree, c)
    ensures q'.children == [] <==> StripOne(doc, id).emptied != []
  {
    var cp := Find(doc, id).value;
    var bad := Bad(doc, cp);
    var tree := StripOne(doc, id).tree;
    StripOneVisit(doc, id);
    RemoveSetUnique(doc, bad);
    FindUnique(tree, q');
    assert q' == Prune(cp, bad);
    BadAreInvalid(doc, cp);
    assert forall c | c in cp.children && c.id !in bad :: ValidOrDangling(doc, c);
    forall c' | c' in q'.children
      ensures ValidOrDangling(tree, c')
    {
      RemoveSetTop(cp.children, bad, c');
      var c :| c in cp.children && c.id !in bad && c' == Prune(c, bad);
      ValidOrDanglingAfterRemove(doc, bad, c);
    }
  }

  /** A `clipPath` visited earlier, after a later visit of another one. */
  lemma OtherSettles(doc: Forest, id: NodeId, q': Node)
    requires Unique(doc) && Find(doc, id).Some?
    requires q' in Flatten(StripOne(doc, id).tree) && q'.id != id
    ensures exists q | q in Flatten(doc) ::
      && q.id == q'.id && q.tag == q'.tag
      && ((forall c | c in q.children :: ValidOrDangling(doc, c)) ==>
            forall c | c in q'.children :: ValidOrDangling(StripOne(doc, id).tree, c))
      && (q'.children == [] <==> q.children == [])
  {
    var cp := Find(doc, id).value;
    var bad := Bad(doc, cp);
    StripOneVisit(doc, id);
    BadAreInvalid(doc, cp);
    RemoveSetNodes(doc, bad, q');
    var q :| q in Flatten(doc) && q.id !in bad && q' == Prune(q, bad);
    if forall c | c in q.children :: ValidOrDangling(doc, c) {
      ChildrenAfterRemove(doc, bad, q);
    }
    OtherChildrenKept(doc, cp, q, bad);
  }

  /** The invariant for the visited `clipPath`. */
  lemma VisitedNodeSettled(doc: Forest, id: NodeId, emptied: set<NodeId>, q': Node)
    requires Unique(doc) && Find(doc, id).Some?
    requires id in emptied ==> Find(doc, id).value.children == []
    requires q' in Flatten(StripOne(doc, id).tree) && q'.id == id
    ensures NodeSettled(StripOne(doc, id).tree, q', emptied + Members(StripOne(doc, id).emptied))
  {
    var r := StripOne(doc, id);
    var cp := Find(doc, id).value;
    VisitedSettles(doc, id, q');
    StripOneVisit(doc, id);
    if r.emptied != [] {
      assert r.emptied[0] in Members(r.emptied);
    }
    if id in emptied {
      // Recorded on an earlier visit: it had no children then, so none now.
      RemoveSetEmpty(cp.children, Bad(doc, cp));
    }
  }

  /** The invariant for a `clipPath` visited earlier than the current one. */
  lemma OtherNodeSettled(doc: Forest, id: NodeId, visited: set<NodeId>, emptied: set<NodeId>, q': Node)
    requires Unique(doc) && Settled(doc, visited, emptied) && Find(doc, id).Some?
    requires q' in Flatten(StripOne(doc, id).tree) && IsClipPath(q') && q'.id in visited && q'.id != id
    ensures NodeSettled(StripOne(doc, id).tree, q', emptied + Members(StripOne(doc, id).emptied))
  {
    StripOneVisit(doc, id);
    OtherSettles(doc, id, q');
    var q :| q in Flatten(doc) && q.id == q'.id && q.tag == q'.tag
      && ((forall c | c in q.children :: ValidOrDangling(doc, c)) ==>
            forall c | c in q'.children :: ValidOrDangling(StripOne(doc, id).tree, c))
      && (q'.children == [] <==> q.children == []);
    assert NodeSettled(doc, q, emptied);
  }

  /** One visit keeps the invariant for every visited `clipPath` still live. */
  lemma StripOneSettlesNode(doc: Forest, id: NodeId, visited: set<NodeId>, emptied: set<NodeId>, q': Node)
    requires Unique(doc) && Settled(doc, visited, emptied) && Find(doc, id).Some?
    requires q' in Flatten(StripOne(doc, id).tree) && IsClipPath(q') && q'.id in visited + {id}
    ensures NodeSettled(StripOne(doc, id).tree, q', emptied + Members(StripOne(doc, id).emptied))
  {
    var cp := Find(doc, id).value;
    if q'.id == id {
      StripOneVisit(doc, id);
      RemoveSetUnique(doc, Bad(doc, cp));
      FindUnique(StripOne(doc, id).tree, q');
      assert IsClipPath(cp);
      if id in emptied {
        assert NodeSettled(doc, cp, emptied);
      }
      VisitedNodeSettled(doc, id, emptied, q');
    } else {
      OtherNodeSettled(doc, id, visited, emptied, q');
    }
  }

  /** One visit keeps the invariant, with the visited identity added. */
  lemma StripOneSettles(doc: Forest, id: NodeId, visited: set<NodeId>, emptied: set<NodeId>)
    requires Unique(doc) && Settled(doc, visited, emptied)
    ensures
      var r := StripOne(doc, id);
      && Unique(r.tree)
      && Ids(r.tree) <= Ids(doc)
      && Settled(r.tree, visited + {id}, emptied + Members(r.emptied))
      && Members(r.emptied) <= {id} * Ids(doc)
  {
    var r := StripOne(doc, id);
    if Find(doc, id).None? {
      assert Members(r.emptied) == {};
      forall cp | cp in Flatten(doc) && IsClipPath(cp) && cp.id in visited + {id}
        ensures cp.id in visited
      {
        assert cp.id in Ids(doc);
      }
    } else {
      var bad := Bad(doc, Find(doc, id).value);
      StripOneVisit(doc, id);
      RemoveSetUnique(doc, bad);
      RemoveSetIds(doc, bad);
      assert id in Ids(doc);
      forall q' | q' in Flatten(r.tree) && IsClipPath(q') && q'.id in visited + {id}
        ensures NodeSettled(r.tree, q', emptied + Members(r.emptied))
      {
        StripOneSettlesNode(doc, id, visited, emptied, q');
      }
    }
  }

  /** Phase one keeps the invariant over the whole list. */
  lemma {:induction false} StripAllSettles(doc: Forest, cps: seq<NodeId>, visited: set<NodeId>, emptied: set<NodeId>)
    requires Unique(doc) && Settled(doc, visited, emptied)
    ensures
      var r := StripAll(doc, cps);
      && Unique(r.tree)
      && Ids(r.tree) <= Ids(doc)
      && Settled(r.tree, visited + Members(cps), emptied + Members(r.emptied))
      && Members(r.emptied) <= Members(cps) * Ids(doc)
    decreases |cps|
  {
    if cps == [] {
      assert Members(cps) == {};
    } else {
      var id := cps[0];
      var one := StripOne(doc, id);
      StripOneSettles(doc, id, visited, emptied);
      var e1 := emptied + Members(one.emptied);
      StripAllSettles(one.tree, cps[1..], visited + {id}, e1);
      var more := StripAll(one.tree, cps[1..]);
      assert Members(cps) == {id} + Members(cps[1..]);
      assert Members(one.emptied + more.emptied) == Members(one.emptied) + Members(more.emptied);
      assert visited + {id} + Members(cps[1..]) == visited + Members(cps);
      assert e1 + Members(more.emptied) == emptied + Members(one.emptied + more.emptied);
    }
  }

  /** Phase one only takes nodes away. */
  lemma {:induction false} StripAllDescends(doc: Forest, cps: seq<NodeId>)
    ensures Descends(StripAll(doc, cps).tree, doc)
    decreases |cps|
  {
    if cps == [] {
      DescendsRefl(doc);
    } else {
      var one := StripOne(doc, cps[0]);
      StripAllDescends(one.tree, cps[1..]);
      if Find(doc, cps[0]).Some? {
        var cp := Find(doc, cps[0]).value;
        RemoveAllIsRemoveSet(doc, InvalidChildren(doc, cp.children));
        RemoveSetDescends(doc, Bad(doc, cp));
        DescendsTrans(StripAll(doc, cps).tree, one.tree, doc);
      }
    }
  }

  /**
   * After phase one: every `clipPath` has only valid or dangling children, the
   * recorded ones are `clipPath`s of the input, and every `clipPath` left
   * without children was recorded.
   */
  lemma StripClipPathsFacts(doc: Forest)
    requires Unique(doc)
    ensures
      var r := StripClipPaths(doc);
      && Unique(r.tree)
      && ClipChildrenValid(r.tree)
      && (forall id | id in r.emptied :: exists cp | cp in Flatten(doc) :: cp.id == id && IsClipPath(cp))
      && (forall cp | cp in Flatten(r.tree) && IsClipPath(cp) && cp.children == [] :: cp.id in r.emptied)
  {
    var cps := SelectIds(doc, IsClipPath);
    var r := StripClipPaths(doc);
    StripAllSettles(doc, cps, {}, {});
    assert {} + Members(cps) == Members(cps);
    assert {} + Members(r.emptied) == Members(r.emptied);
    StripAllDescends(doc, cps);
    forall cp | cp in Flatten(r.tree) && IsClipPath(cp)
      ensures cp.id in Members(cps)
    {
      var n :| n in Flatten(doc) && n.id == cp.id && n.tag == cp.tag && n.attrs == cp.attrs;
    }
    forall id | id in r.emptied
      ensures exists cp | cp in Flatten(doc) :: cp.id == id && IsClipPath(cp)
    {
      assert id in Members(r.emptied);
    }
  }

  // ---------------------------------------------------------------------------
  // The whole pass

  /**
   * After the pass, every child of every `clipPath` passes the validity test,
   * unless it is a `use` whose target was removed during the pass.
   */
  lemma ClipPassChildren(doc: Forest)
    requires Unique(doc)
    ensures ClipChildrenValid(ProcessClipPaths(doc).tree)
  {
    var r := StripClipPaths(doc);
    var rev := Reverse(r.emptied);
    StripClipPathsFacts(doc);
    CascadeIsRemoveSet(r.tree, rev);
    ClipChildrenAfterRemove(r.tree, Members(rev) + LinkersOfAny(r.tree, LiveAtTurn(r.tree, rev)));
  }

  /** Every `clipPath` left without children by phase one is gone after the pass, and the flag is set. */
  lemma ClipPassRemovesEmptied(doc: Forest, cp: Node)
    requires Unique(doc)
    requires cp in Flatten(StripClipPaths(doc).tree) && IsClipPath(cp) && cp.children == []
    ensures cp.id !in Ids(ProcessClipPaths(doc).tree)
    ensures ProcessClipPaths(doc).removed
  {
    var r := StripClipPaths(doc);
    StripClipPathsFacts(doc);
    var rev := Reverse(r.emptied);
    var i :| 0 <= i < |r.emptied| && r.emptied[i] == cp.id;
    assert rev[|r.emptied| - 1 - i] == cp.id;
    CascadeClears(r.tree, rev);
  }

  /**
   * Phase two removes the recorded `clipPath`s and the nodes linking to those
   * of them still live when their turn comes, last recorded first; nothing
   * else.
   */
  lemma ClipPassCascade(doc: Forest)
    requires Unique(doc)
    ensures
      var r := StripClipPaths(doc);
      var e := Members(r.emptied);
      ProcessClipPaths(doc).tree == RemoveSet(r.tree, e + LinkersOfAny(r.tree, LiveAtTurn(r.tree, Reverse(r.emptied))))
  {
    var r := StripClipPaths(doc);
    var e := Members(r.emptied);
    var rev := Reverse(r.emptied);
    StripClipPathsFacts(doc);
    forall id | id in e
      ensures id in Members(rev)
    {
      var i :| 0 <= i < |r.emptied| && r.emptied[i] == id;
      assert rev[|r.emptied| - 1 - i] == id;
    }
    assert Members(rev) == e;
    CascadeIsRemoveSet(r.tree, rev);
  }

  /**
   * When no turn of phase two reaches a later recorded `clipPath`, phase two
   * removes the recorded `clipPath`s and every node linking to one of them.
   */
  lemma ClipPassCascadeApart(doc: Forest)
    requires Unique(doc) && TurnsApart(StripClipPaths(doc).tree, Reverse(StripClipPaths(doc).emptied))
    ensures
      var r := StripClipPaths(doc);
      var e := Members(r.emptied);
      ProcessClipPaths(doc).tree == RemoveSet(r.tree, e + LinkersOfAny(r.tree, e))
  {
    var r := StripClipPaths(doc);
    var e := Members(r.emptied);
    var rev := Reverse(r.emptied);
    StripClipPathsFacts(doc);
    CascadeApart(r.tree, rev);
    forall id | id in e
      ensures id in Members(rev)
    {
      var i :| 0 <= i < |r.emptied| && r.emptied[i] == id;
      assert rev[|r.emptied| - 1 - i] == id;
    }
    assert Members(rev) == e;
  }

  /** A set flag means a `clipPath` of the input was deleted. */
  lemma ClipPassFlag(doc: Forest)
    requires Unique(doc)
    ensures ProcessClipPaths(doc).removed ==>
      exists cp | cp in Flatten(doc) && IsClipPath(cp) :: cp.id !in Ids(ProcessClipPaths(doc).tree)
  {
    var r := StripClipPaths(doc);
    if ProcessClipPaths(doc).removed {
      StripClipPathsFacts(doc);
      var rev := Reverse(r.emptied);
      var id := r.emptied[0];
      assert id in r.emptied;
      var cp :| cp in Flatten(doc) && cp.id == id && IsClipPath(cp);
      assert rev[|r.emptied| - 1] == id;
      CascadeClears(r.tree, rev);
    }
  }

  /** With no `clipPath` the pass changes nothing and leaves the flag clear. */
  lemma ClipPassIdle(doc: Forest)
    requires forall n | n in Flatten(doc) :: !IsClipPath(n)
    ensures ProcessClipPaths(doc) == PassResult(doc, false)
  {
    SelectIdsEmpty(doc, IsClipPath);
  }

  /** The pass keeps identities unique and only takes nodes away. */
  lemma ClipPassWellFormed(doc: Forest)
    requires Unique(doc)
    ensures Unique(ProcessClipPaths(doc).tree)
    ensures Ids(ProcessClipPaths(doc).tree) <= Ids(doc)
    ensures Descends(ProcessClipPaths(doc).tree, doc)
  {
    var cps := SelectIds(doc, IsClipPath);
    var r := StripClipPaths(doc);
    StripAllSettles(doc, cps, {}, {});
    CascadeUnique(r.tree, Reverse(r.emptied));
    CascadeShrinks(r.tree, Reverse(r.emptied), 0);
    StripAllDescends(doc, cps);
    CascadeDescends(r.tree, Reverse(r.emptied));
    DescendsTrans(ProcessClipPaths(doc).tree, r.tree, doc);
  }
}

=== FILE: display_pass.dfy ===
/**
 * `process_display_attribute`: removes `display="none"` subtrees in which no
 * node is used.
 *
 * The walk is svgdom's pre-order `descendants()` with `skip_children()`: once a
 * node qualifies it is recorded and its subtree is not visited. Removal is
 * deferred until the walk is over and then pops the recorded nodes.
 */
module DisplayPass {
  import opened Dom
  import opened Family

  /** The node's `display` attribute is set to the keyword `none`. */
  predicate DisplayNone(n: Node)
  {
    Display in n.attrs && n.attrs[Display] == Keyword(NoneValue)
  }

  /**
   * The removal test: `display="none"`, not used itself, and no node of its
   * subtree used either (the subtree includes the node itself).
   */
  predicate Hidden(doc: Forest, n: Node)
  {
    && DisplayNone(n)
    && !Used(doc, n.id)
    && forall d | d in Subtree(n) :: !Used(doc, d.id)
  }

  /**
   * The walk over `f` (a part of `doc`): a qualifying node is recorded and its
   * children skipped; any other node is descended into.
   */
  function CollectHidden(doc: Forest, f: Forest): (r: seq<NodeId>)
    ensures Members(r) <= HiddenIds(doc, f)
  {
    if f == [] then []
    else
      var x := f[0];
      var here := if Hidden(doc, x) then [x.id] else CollectHidden(doc, x.children);
      var later := CollectHidden(doc, f[1..]);
      FlattenSingle(x);
      assert Members(here + later) == Members(here) + Members(later);
      assert HiddenIds(doc, x.children) <= HiddenIds(doc, [x]);
      assert Members(here) <= HiddenIds(doc, [x]);
      assert HiddenIds(doc, [x]) <= HiddenIds(doc, f);
      assert HiddenIds(doc, f[1..]) <= HiddenIds(doc, f);
      here + later
  }

  /** The identities of the qualifying nodes of `f`. */
  function HiddenIds(doc: Forest, f: Forest): set<NodeId>
  {
    set n | n in Flatten(f) && Hidden(doc, n) :: n.id
  }

  /** The pass itself; the flag is set when anything was collected. */
  function ProcessDisplayAttribute(doc: Forest): PassResult
  {
    var nodes := CollectHidden(doc, doc);
    PassResult(RemoveAll(doc, nodes), nodes != [])
  }

  /** Every qualifying node lies in the subtree of a recorded one (it is recorded, or an ancestor was). */
  lemma {:induction false} CollectHiddenComplete(doc: Forest, f: Forest, n: Node)
    requires n in Flatten(f) && Hidden(doc, n)
    ensures exists a | a in Flatten(f) && a.id in Members(CollectHidden(doc, f)) :: n in Subtree(a)
    decreases f
  {
    var x := f[0];
    var here := if Hidden(doc, x) then [x.id] else CollectHidden(doc, x.children);
    var later := CollectHidden(doc, f[1..]);
    assert CollectHidden(doc, f) == here + later;
    if n in Subtree(x) {
      if Hidden(doc, x) {
        assert x.id in Members(here + later);
      } else {
        assert n in Flatten(x.children);
        CollectHiddenComplete(doc, x.children, n);
        ChildrenWithin(f, x);
        var a :| a in Flatten(x.children) && a.id in Members(here) && n in Subtree(a);
        assert a.id in Members(here + later);
      }
    } else {
      CollectHiddenComplete(doc, f[1..], n);
      var a :| a in Flatten(f[1..]) && a.id in Members(later) && n in Subtree(a);
      assert a.id in Members(here + later);
    }
  }

  /** The recorded identities all belong to the part walked. */
  lemma CollectHiddenIds(doc: Forest, f: Forest)
    ensures Members(CollectHidden(doc, f)) <= Ids(f)
  {
    var r := CollectHidden(doc, f);
    forall id | id in Members(r)
      ensures id in Ids(f)
    {
      var i :| 0 <= i < |r| && r[i] == id;
    }
  }

  /** `skip_children` at work: no node below a recorded node is recorded as well. */
  lemma {:induction false} CollectHiddenNotNested(doc: Forest, f: Forest, a: Node, d: Node)
    requires Unique(f)
    requires a in Flatten(f) && a.id in Members(CollectHidden(doc, f))
    requires d in Flatten(a.children)
    ensures d.id !in Members(CollectHidden(doc, f))
    decreases f
  {
    var x := f[0];
    var here := if Hidden(doc, x) then [x.id] else CollectHidden(doc, x.children);
    var later := CollectHidden(doc, f[1..]);
    assert CollectHidden(doc, f) == here + later;
    assert Members(here + later) == Members(here) + Members(later);
    IdsCons(x, f[1..]);
    CollectHiddenIds(doc, f[1..]);
    CollectHiddenIds(doc, x.children);
    UniqueSubtrees(f, a, d);
    if a in Subtree(x) {
      FlattenSingle(a);
      SubtreeWithin([a], d);
      SubtreeTrans(x, a, d);
      assert d.id in IdSet(Subtree(x));
      assert a.id in IdSet(Subtree(x));
      assert a.id !in Members(later) && d.id !in Members(later);
      if Hidden(doc, x) {
        assert a.id == x.id;
        assert a == x;
      } else {
        assert a != x;
        assert a in Flatten(x.children);
        CollectHiddenNotNested(doc, x.children, a, d);
      }
    } else {
      assert a in Flatten(f[1..]);
      FlattenSingle(a);
      SubtreeWithin(f[1..], a);
      assert d in Flatten(f[1..]);
      assert a.id !in IdSet(Subtree(x)) && d.id !in IdSet(Subtree(x));
      assert a.id !in Members(here) && d.id !in Members(here);
      CollectHiddenNotNested(doc, f[1..], a, d);
    }
  }

  /** The flag is set exactly when some node qualifies. */
  lemma DisplayPassFlag(doc: Forest)
    ensures ProcessDisplayAttribute(doc).removed <==> exists n | n in Flatten(doc) :: Hidden(doc, n)
  {
    var nodes := CollectHidden(doc, doc);
    if exists n | n in Flatten(doc) :: Hidden(doc, n) {
      var n :| n in Flatten(doc) && Hidden(doc, n);
      CollectHiddenComplete(doc, doc, n);
    }
    if nodes != [] {
      assert nodes[0] in Members(nodes);
    }
  }

  /** With no qualifying node the pass changes nothing and leaves the flag clear. */
  lemma DisplayPassIdle(doc: Forest)
    requires forall n | n in Flatten(doc) :: !Hidden(doc, n)
    ensures ProcessDisplayAttribute(doc) == PassResult(doc, false)
  {
    DisplayPassFlag(doc);
  }

  /** With unique identities, a recorded identity is carried by a qualifying node only. */
  lemma RecordedAreHidden(doc: Forest, a: Node)
    requires Unique(doc) && a in Flatten(doc) && a.id in Members(CollectHidden(doc, doc))
    ensures Hidden(doc, a)
  {
    var n :| n in Flatten(doc) && n.id == a.id && Hidden(doc, n);
    FindUnique(doc, n);
    FindUnique(doc, a);
  }

  /**
   * What the pass removes: a node disappears exactly when it lies in the
   * subtree of a qualifying node. Nothing else is touched.
   */
  lemma DisplayPassRemoves(doc: Forest, n: Node)
    requires Unique(doc) && n in Flatten(doc)
    ensures n.id !in Ids(ProcessDisplayAttribute(doc).tree)
        <==> exists a | a in Flatten(doc) :: Hidden(doc, a) && n in Subtree(a)
  {
    var nodes := CollectHidden(doc, doc);
    var s := Members(nodes);
    var out := ProcessDisplayAttribute(doc).tree;
    RemoveAllIsRemoveSet(doc, nodes);
    assert out == RemoveSet(doc, s);
    if exists a | a in Flatten(doc) :: Hidden(doc, a) && n in Subtree(a) {
      var a :| a in Flatten(doc) && Hidden(doc, a) && n in Subtree(a);
      CollectHiddenComplete(doc, doc, a);
      var c :| c in Flatten(doc) && c.id in s && a in Subtree(c);
      SubtreeTrans(c, a, n);
      RemoveSetDrops(doc, s, c, n);
    } else {
      forall a | a in Flatten(doc) && a.id in s
        ensures n !in Subtree(a)
      {
        RecordedAreHidden(doc, a);
      }
      RemoveSetKeeps(doc, s, n);
      assert Prune(n, s).id == n.id;
    }
  }

  /**
   * A `display="none"` node that is used, or has a used node below it, is never
   * removed; neither is any used node.
   */
  lemma DisplayPassKeepsUsed(doc: Forest, n: Node, d: Node)
    requires Unique(doc) && n in Flatten(doc)
    requires d in Subtree(n) && Used(doc, d.id)
    ensures n.id in Ids(ProcessDisplayAttribute(doc).tree)
  {
    DisplayPassRemoves(doc, n);
    if exists a | a in Flatten(doc) :: Hidden(doc, a) && n in Subtree(a) {
      var a :| a in Flatten(doc) && Hidden(doc, a) && n in Subtree(a);
      SubtreeTrans(a, n, d);
      assert false;
    }
  }

  /** The pass keeps identities unique and only takes nodes away. */
  lemma DisplayPassWellFormed(doc: Forest)
    requires Unique(doc)
    ensures Unique(ProcessDisplayAttribute(doc).tree)
    ensures Ids(ProcessDisplayAttribute(doc).tree) <= Ids(doc)
    ensures Descends(ProcessDisplayAttribute(doc).tree, doc)
  {
    var nodes := CollectHidden(doc, doc);
    RemoveAllIsRemoveSet(doc, nodes);
    RemoveSetUnique(doc, Members(nodes));
    RemoveSetIds(doc, Members(nodes));
    RemoveSetDescends(doc, Members(nodes));
  }
}

=== FILE: dom.dfy ===
/**
 * The document tree the invisible-element passes work on: svgdom's `Document`
 * seen as an immutable forest of element nodes.
 *
 * A node carries an identity (standing for the node handle), an element kind,
 * an attribute map and an ordered list of children. Links between nodes are
 * attribute values that name another node by identity. Whether a node is used,
 * and which nodes link to it, is derived from the live tree, as svgdom's
 * `is_used` and `linked_nodes` are. svgdom drops the links to a node when it
 * removes it; here such a link stays in the attribute map but counts for
 * nothing, since every query below ignores links to a node that is not live.
 */
module Dom {

  datatype Option<T> = None | Some(value: T)

  /** The identity of a node. Distinct nodes of a well-formed tree never share one. */
  type NodeId = nat

  /** The element kinds the passes tell apart. */
  datatype ElementId =
    | Svg | G | Defs | ClipPath | Mask | Filter | Path | Text | Use
    | Rect | Circle | Ellipse | Line | Polyline | Polygon
    | LinearGradient | RadialGradient | FeGaussianBlur | OtherElement

  /** The attributes the passes read; every other attribute is `OtherAttribute`. */
  datatype AttributeId =
    | Display       // `display`
    | D             // `d`, the path data
    | XlinkHref     // `xlink:href`
    | ClipPathRef   // `clip-path`
    | FilterRef     // `filter`
    | Fill          // `fill`
    | Stroke        // `stroke`
    | OtherAttribute

  /** Keyword attribute values; `NoneValue` is the keyword `none`. */
  datatype ValueId = NoneValue | Inherit | CurrentColor | OtherValueId

  datatype PathSegment = MoveTo | LineTo | CurveTo | ArcTo | ClosePath

  /**
   * A parsed attribute value. `Link` is an `xlink:href` reference, `FuncLink` a
   * `url(#id)` reference as found in `clip-path`, `filter`, `fill` and `stroke`.
   * An attribute that is not set is simply not in the node's map.
   */
  datatype AttributeValue =
    | Keyword(keyword: ValueId)
    | PathData(segments: seq<PathSegment>)
    | Link(target: NodeId)
    | FuncLink(target: NodeId)
    | Other
  {
    predicate LinksTo(id: NodeId) {
      (Link? || FuncLink?) && target == id
    }
  }

  datatype Node = Node(id: NodeId, tag: ElementId, attrs: map<AttributeId, AttributeValue>, children: seq<Node>)
  {
    /** Some attribute of this node references `t`. */
    predicate LinksTo(t: NodeId) {
      exists a | a in attrs :: attrs[a].LinksTo(t)
    }
  }

  /** The top-level nodes of a document, in document order. */
  type Forest = seq<Node>

  /** What a pass leaves behind: the new tree and whether it set the shared "something removed" flag. */
  datatype PassResult = PassResult(tree: Forest, removed: bool)

  /** The node itself followed by all nodes below it, in pre-order, as `descendants` walks them. */
  function Subtree(n: Node): seq<Node>
  {
    [n] + Flatten(n.children)
  }

  /** All nodes of a forest in pre-order (document order). */
  function Flatten(f: Forest): seq<Node>
  {
    if f == [] then [] else Subtree(f[0]) + Flatten(f[1..])
  }

  function IdSet(ns: seq<Node>): set<NodeId>
  {
    set n | n in ns :: n.id
  }

  /** The identities of the live nodes of a forest. */
  function Ids(f: Forest): set<NodeId>
  {
    IdSet(Flatten(f))
  }

  /** `is_used`: `id` is live and some live node links to it. */
  predicate Used(f: Forest, id: NodeId)
  {
    id in Ids(f) && exists m | m in Flatten(f) :: m.LinksTo(id)
  }

  /** `linked_nodes`: the live nodes that link to `id`; none once `id` itself is gone. */
  function Linkers(f: Forest, id: NodeId): set<NodeId>
  {
    set m | m in Flatten(f) && id in Ids(f) && m.LinksTo(id) :: m.id
  }

  /** The live nodes that link to any live node of `ids`. */
  function LinkersOfAny(f: Forest, ids: set<NodeId>): set<NodeId>
  {
    set m, t | m in Flatten(f) && t in ids && t in Ids(f) && m.LinksTo(t) :: m.id
  }

  /** Resolves an identity to the live node carrying it, the first one in pre-order. */
  function Find(f: Forest, id: NodeId): (r: Option<Node>)
    ensures r.Some? ==> r.value in Flatten(f) && r.value.id == id
    ensures r.None? <==> id !in Ids(f)
  {
    if f == [] then None
    else if f[0].id == id then Some(f[0])
    else
      match Find(f[0].children, id)
      case Some(n) => Some(n)
      case None => Find(f[1..], id)
  }

  /** No two nodes of the forest share an identity: they are distinct handles. */
  predicate Unique(f: Forest)
  {
    f == [] ||
    (&& f[0].id !in Ids(f[0].children)
     && IdSet(Subtree(f[0])) !! Ids(f[1..])
     && Unique(f[0].children)
     && Unique(f[1..]))
  }

  /** The node with every descendant whose identity is in `s` cut off, subtree and all. */
  function Prune(n: Node, s: set<NodeId>): Node
  {
    n.(children := RemoveSet(n.children, s))
  }

  /** Removes every node whose identity is in `s`: each is detached with its whole subtree. */
  function RemoveSet(f: Forest, s: set<NodeId>): Forest
  {
    if f == [] then []
    else (if f[0].id in s then [] else [Prune(f[0], s)]) + RemoveSet(f[1..], s)
  }

  function Members(ids: seq<NodeId>): set<NodeId>
  {
    set i | i in ids
  }

  function Reverse(ids: seq<NodeId>): (r: seq<NodeId>)
    ensures |r| == |ids|
    ensures forall i | 0 <= i < |ids| :: r[i] == ids[|ids| - 1 - i]
  {
    if ids == [] then [] else Reverse(ids[1..]) + [ids[0]]
  }

  /**
   * Filtering the document's descendants: the identities of the nodes of `f`
   * that satisfy `p`, in document order.
   */
  function SelectIds(f: Forest, p: Node -> bool): (r: seq<NodeId>)
    ensures forall id | id in r :: exists n | n in Flatten(f) :: n.id == id && p(n)
    ensures forall n | n in Flatten(f) && p(n) :: n.id in r
  {
    if f == [] then []
    else
      var x := f[0];
      var here := (if p(x) then [x.id] else []) + SelectIds(x.children, p);
      assert Flatten(f) == Subtree(x) + Flatten(f[1..]);
      here + SelectIds(f[1..], p)
  }

  /**
   * Pops the recorded nodes off the end of the list and removes each in turn:
   * the listed nodes go one at a time, last listed first.
   */
  function RemoveAll(f: Forest, ids: seq<NodeId>): Forest
    decreases |ids|
  {
    if ids == [] then f
    else RemoveAll(RemoveSet(f, {ids[|ids| - 1]}), ids[..|ids| - 1])
  }

  // ---------------------------------------------------------------------------
  // Traversal facts

  lemma FlattenCons(x: Node, r: Forest)
    ensures Flatten([x] + r) == Subtree(x) + Flatten(r)
  {
    assert ([x] + r)[0] == x;
    assert ([x] + r)[1..] == r;
  }

  lemma FlattenSingle(x: Node)
    ensures Flatten([x]) == Subtree(x)
  {
    FlattenCons(x, []);
  }

  /** `SelectIds` finds nothing exactly when no node satisfies the test. */
  lemma {:induction false} SelectIdsEmpty(f: Forest, p: Node -> bool)
    ensures SelectIds(f, p) == [] <==> forall n | n in Flatten(f) :: !p(n)
    decreases f
  {
    if f != [] {
      assert Flatten(f) == [f[0]] + Flatten(f[0].children) + Flatten(f[1..]);
      SelectIdsEmpty(f[0].children, p);
      SelectIdsEmpty(f[1..], p);
    }
  }

  /** The identities of the nodes of a node list that satisfy `p`, in order. */
  function IdsWhere(ns: seq<Node>, p: Node -> bool): seq<NodeId>
  {
    if ns == [] then [] else (if p(ns[0]) then [ns[0].id] else []) + IdsWhere(ns[1..], p)
  }

  lemma {:induction false} IdsWhereAppend(a: seq<Node>, b: seq<Node>, p: Node -> bool)
    ensures IdsWhere(a + b, p) == IdsWhere(a, p) + IdsWhere(b, p)
    decreases |a|
  {
    if a != [] {
      assert (a + b)[0] == a[0];
      assert (a + b)[1..] == a[1..] + b;
      IdsWhereAppend(a[1..], b, p);
    } else {
      assert a + b == b;
    }
  }

  /** Filtering the descendants is filtering the document-order list of nodes. */
  lemma {:induction false} SelectIdsInOrder(f: Forest, p: Node -> bool)
    ensures SelectIds(f, p) == IdsWhere(Flatten(f), p)
    decreases f
  {
    if f != [] {
      var x := f[0];
      SelectIdsInOrder(x.children, p);
      SelectIdsInOrder(f[1..], p);
      assert [x][1..] == [];
      IdsWhereAppend([x], Flatten(x.children), p);
      IdsWhereAppend(Subtree(x), Flatten(f[1..]), p);
    }
  }

  /** The first node of a node list carrying `id`. */
  function FirstWithId(ns: seq<Node>, id: NodeId): Option<Node>
  {
    if ns == [] then None
    else if ns[0].id == id then Some(ns[0])
    else FirstWithId(ns[1..], id)
  }

  lemma {:induction false} FirstWithIdAppend(a: seq<Node>, b: seq<Node>, id: NodeId)
    ensures FirstWithId(a + b, id) == if FirstWithId(a, id).Some? then FirstWithId(a, id) else FirstWithId(b, id)
    decreases |a|
  {
    if a != [] {
      assert (a + b)[0] == a[0];
      assert (a + b)[1..] == a[1..] + b;
      FirstWithIdAppend(a[1..], b, id);
    } else {
      assert a + b == b;
    }
  }

  /** Resolving an identity finds the first node carrying it in document order. */
  lemma {:induction false} FindInOrder(f: Forest, id: NodeId)
    ensures Find(f, id) == FirstWithId(Flatten(f), id)
    decreases f
  {
    if f != [] {
      var x := f[0];
      FindInOrder(x.children, id);
      FindInOrder(f[1..], id);
      assert [x][1..] == [];
      FirstWithIdAppend([x], Flatten(x.children), id);
      FirstWithIdAppend(Subtree(x), Flatten(f[1..]), id);
    }
  }

  /** Every node below a live node is live. */
  lemma {:induction false} SubtreeWithin(f: Forest, n: Node)
    requires n in Flatten(f)
    ensures forall d | d in Subtree(n) :: d in Flatten(f)
    decreases f
  {
    var x := f[0];
    if n in Subtree(x) {
      if n != x {
        SubtreeWithin(x.children, n);
      }
    } else {
      SubtreeWithin(f[1..], n);
    }
  }

  /** Being below is transitive. */
  lemma SubtreeTrans(a: Node, n: Node, d: Node)
    requires n in Subtree(a) && d in Subtree(n)
    ensures d in Subtree(a)
  {
    FlattenSingle(a);
    SubtreeWithin([a], n);
  }

  /** The children of a live node are live. */
  lemma ChildrenWithin(f: Forest, n: Node)
    requires n in Flatten(f)
    ensures forall d | d in Flatten(n.children) :: d in Flatten(f)
  {
    SubtreeWithin(f, n);
  }

  /** In a well-formed forest a node is never below another node with its own identity. */
  lemma {:induction false} UniqueSubtrees(f: Forest, a: Node, n: Node)
    requires Unique(f) && a in Flatten(f) && n in Flatten(a.children)
    ensures n.id != a.id
    decreases f
  {
    var x := f[0];
    if a in Subtree(x) {
      if a == x {
      } else {
        UniqueSubtrees(x.children, a, n);
      }
    } else {
      UniqueSubtrees(f[1..], a, n);
    }
  }

  /** In a well-formed forest an identity resolves to the one node carrying it. */
  lemma {:induction false} FindUnique(f: Forest, n: Node)
    requires Unique(f) && n in Flatten(f)
    ensures Find(f, n.id) == Some(n)
    decreases f
  {
    var x := f[0];
    if n in Subtree(x) {
      if n == x {
      } else {
        assert n in Flatten(x.children);
        FindUnique(x.children, n);
      }
    } else {
      assert n.id in Ids(f[1..]);
      assert n.id !in IdSet(Subtree(x));
      FindUnique(f[1..], n);
    }
  }

  // ---------------------------------------------------------------------------
  // Removal facts

  /** Every live node after a removal is a pruned live node from before it, whose identity was not removed. */
  lemma {:induction false} RemoveSetNodes(f: Forest, s: set<NodeId>, m: Node)
    requires m in Flatten(RemoveSet(f, s))
    ensures exists n | n in Flatten(f) :: n.id !in s && m == Prune(n, s)
    decreases f
  {
    var x := f[0];
    var rest := RemoveSet(f[1..], s);
    if x.id in s {
      assert RemoveSet(f, s) == rest;
      RemoveSetNodes(f[1..], s, m);
    } else {
      var px := Prune(x, s);
      assert RemoveSet(f, s) == [px] + rest;
      FlattenCons(px, rest);
      if m == px {
        assert x in Flatten(f);
      } else if m in Flatten(px.children) {
        RemoveSetNodes(x.children, s, m);
        ChildrenWithin(f, x);
      } else {
        RemoveSetNodes(f[1..], s, m);
      }
    }
  }

  /** A removal keeps every node that does not lie below a removed one. */
  lemma {:induction false} RemoveSetKeeps(f: Forest, s: set<NodeId>, n: Node)
    requires n in Flatten(f)
    requires forall a | a in Flatten(f) && a.id in s :: n !in Subtree(a)
    ensures Prune(n, s) in Flatten(RemoveSet(f, s))
    decreases f
  {
    var x := f[0];
    var rest := RemoveSet(f[1..], s);
    if n in Subtree(x) {
      assert x in Flatten(f);
      assert x.id !in s;
      var px := Prune(x, s);
      assert RemoveSet(f, s) == [px] + rest;
      FlattenCons(px, rest);
      if n != x {
        ChildrenWithin(f, x);
        RemoveSetKeeps(x.children, s, n);
      }
    } else {
      RemoveSetKeeps(f[1..], s, n);
      if x.id in s {
        assert RemoveSet(f, s) == rest;
      } else {
        var px := Prune(x, s);
        assert RemoveSet(f, s) == [px] + rest;
        FlattenCons(px, rest);
      }
    }
  }

  lemma RemoveSetIds(f: Forest, s: set<NodeId>)
    ensures Ids(RemoveSet(f, s)) <= Ids(f) - s
  {
    forall id | id in Ids(RemoveSet(f, s))
      ensures id in Ids(f) - s
    {
      var m :| m in Flatten(RemoveSet(f, s)) && m.id == id;
      RemoveSetNodes(f, s, m);
    }
  }

  /** A removal never makes a node used: it only takes link holders away. */
  lemma RemoveSetUsed(f: Forest, s: set<NodeId>, t: NodeId)
    ensures Used(RemoveSet(f, s), t) ==> Used(f, t)
    ensures Linkers(RemoveSet(f, s), t) <= Linkers(f, t) - s
  {
    RemoveSetIds(f, s);
    forall m | m in Flatten(RemoveSet(f, s)) && t in Ids(RemoveSet(f, s)) && m.LinksTo(t)
      ensures m.id in Linkers(f, t) - s && Used(f, t)
    {
      RemoveSetNodes(f, s, m);
      var n :| n in Flatten(f) && n.id !in s && m == Prune(n, s);
      assert n.LinksTo(t);
    }
  }

  lemma IdsCons(x: Node, r: Forest)
    ensures Ids([x] + r) == {x.id} + Ids(x.children) + Ids(r)
    ensures IdSet(Subtree(x)) == {x.id} + Ids(x.children)
  {
    FlattenCons(x, r);
  }

  /** The identities left by a removal, split at the first top-level node. */
  lemma RemoveSetIdsCons(f: Forest, s: set<NodeId>)
    requires f != []
    ensures Ids(RemoveSet(f, s)) ==
      (if f[0].id in s then {} else {f[0].id} + Ids(RemoveSet(f[0].children, s))) + Ids(RemoveSet(f[1..], s))
  {
    var x := f[0];
    var rest := RemoveSet(f[1..], s);
    if x.id in s {
      assert RemoveSet(f, s) == rest;
    } else {
      var px := Prune(x, s);
      assert RemoveSet(f, s) == [px] + rest;
      IdsCons(px, rest);
    }
  }

  /** In a well-formed forest, every node below a removed node is gone. */
  lemma {:induction false} RemoveSetDrops(f: Forest, s: set<NodeId>, a: Node, n: Node)
    requires Unique(f) && a in Flatten(f) && a.id in s && n in Subtree(a)
    ensures n.id !in Ids(RemoveSet(f, s))
    decreases f
  {
    var x := f[0];
    RemoveSetIds(f[1..], s);
    RemoveSetIds(x.children, s);
    RemoveSetIdsCons(f, s);
    IdsCons(x, f[1..]);
    if a in Subtree(x) {
      SubtreeTrans(x, a, n);
      assert n.id in IdSet(Subtree(x));
      if x.id !in s {
        assert a in Flatten(x.children);
        FlattenSingle(a);
        SubtreeWithin(x.children, a);
        assert n in Flatten(x.children);
        RemoveSetDrops(x.children, s, a, n);
      }
    } else {
      SubtreeWithin(f[1..], a);
      assert n.id in Ids(f[1..]);
      RemoveSetDrops(f[1..], s, a, n);
    }
  }

  /** Removal keeps a forest well-formed. */
  lemma {:induction false} RemoveSetUnique(f: Forest, s: set<NodeId>)
    requires Unique(f)
    ensures Unique(RemoveSet(f, s))
    decreases f
  {
    if f != [] {
      var x := f[0];
      var rest := RemoveSet(f[1..], s);
      RemoveSetUnique(f[1..], s);
      if x.id in s {
        assert RemoveSet(f, s) == rest;
      } else {
        var px := Prune(x, s);
        var g := [px] + rest;
        assert RemoveSet(f, s) == g;
        assert g[0] == px && g[1..] == rest;
        RemoveSetUnique(x.children, s);
        RemoveSetIds(x.children, s);
        RemoveSetIds(f[1..], s);
        assert IdSet(Subtree(px)) == {x.id} + Ids(px.children);
        assert IdSet(Subtree(x)) == {x.id} + Ids(x.children);
      }
    }
  }

  /** Removing identities that are not live changes nothing. */
  lemma {:induction false} RemoveSetNoop(f: Forest, s: set<NodeId>)
    requires s !! Ids(f)
    ensures RemoveSet(f, s) == f
    decreases f
  {
    if f != [] {
      var x := f[0];
      assert f == [x] + f[1..];
      IdsCons(x, f[1..]);
      RemoveSetNoop(x.children, s);
      RemoveSetNoop(f[1..], s);
      assert Prune(x, s) == x;
    }
  }

  /** Two removals in a row are one removal of both sets. */
  lemma {:induction false} RemoveSetTwice(f: Forest, a: set<NodeId>, b: set<NodeId>)
    ensures RemoveSet(RemoveSet(f, a), b) == RemoveSet(f, a + b)
    decreases f
  {
    if f != [] {
      var x := f[0];
      RemoveSetTwice(f[1..], a, b);
      var ra := RemoveSet(f[1..], a);
      if x.id in a {
        assert RemoveSet(f, a) == ra;
      } else {
        var px := Prune(x, a);
        var g := [px] + ra;
        assert RemoveSet(f, a) == g;
        assert g[0] == px && g[1..] == ra;
        if x.id !in b {
          RemoveSetTwice(x.children, a, b);
          assert Prune(px, b) == Prune(x, a + b);
        }
      }
    }
  }

  /** Popping the nodes off the list one by one removes exactly the listed set: the order is irrelevant. */
  lemma {:induction false} RemoveAllIsRemoveSet(f: Forest, ids: seq<NodeId>)
    ensures RemoveAll(f, ids) == RemoveSet(f, Members(ids))
    decreases |ids|
  {
    if ids == [] {
      assert Members(ids) == {};
      RemoveSetNoop(f, {});
    } else {
      var last := ids[|ids| - 1];
      var init := ids[..|ids| - 1];
      var rest := Members(init);
      assert ids == init + [last];
      assert Members(ids) == {last} + rest;
      calc {
        RemoveAll(f, ids);
        RemoveAll(RemoveSet(f, {last}), init);
        { RemoveAllIsRemoveSet(RemoveSet(f, {last}), init); }
        RemoveSet(RemoveSet(f, {last}), rest);
        { RemoveSetTwice(f, {last}, rest); }
        RemoveSet(f, {last} + rest);
      }
    }
  }

  /** After a removal, an identity still live resolves to the pruned version of the node it named before. */
  lemma FindAfterRemove(f: Forest, s: set<NodeId>, x: NodeId)
    requires Unique(f)
    requires Find(RemoveSet(f, s), x).Some?
    ensures Find(f, x).Some?
    ensures Find(RemoveSet(f, s), x).value == Prune(Find(f, x).value, s)
  {
    var m := Find(RemoveSet(f, s), x).value;
    RemoveSetNodes(f, s, m);
    var n :| n in Flatten(f) && n.id !in s && m == Prune(n, s);
    FindUnique(f, n);
  }
}

/** Facts about parents and children in a well-formed forest. */
module Family {
  import opened Dom

  /** The part below a live node is well-formed too. */
  lemma {:induction false} UniqueBelow(f: Forest, n: Node)
    requires Unique(f) && n in Flatten(f)
    ensures Unique(n.children)
    decreases f
  {
    var x := f[0];
    if n in Subtree(x) {
      if n != x {
        UniqueBelow(x.children, n);
      }
    } else {
      UniqueBelow(f[1..], n);
    }
  }

  /** Each top-level node left by a removal is a pruned top-level node from before it. */
  lemma {:induction false} RemoveSetTop(g: Forest, s: set<NodeId>, x: Node)
    requires x in RemoveSet(g, s)
    ensures exists y | y in g :: y.id !in s && x == Prune(y, s)
    decreases g
  {
    var rest := RemoveSet(g[1..], s);
    if g[0].id in s {
      assert RemoveSet(g, s) == rest;
      RemoveSetTop(g[1..], s, x);
    } else {
      assert RemoveSet(g, s) == [Prune(g[0], s)] + rest;
      if x != Prune(g[0], s) {
        RemoveSetTop(g[1..], s, x);
      }
    }
  }

  /** A removal empties a list of siblings exactly when it names every one of them. */
  lemma {:induction false} RemoveSetEmpty(g: Forest, s: set<NodeId>)
    ensures RemoveSet(g, s) == [] <==> forall y | y in g :: y.id in s
    decreases g
  {
    if g != [] {
      RemoveSetEmpty(g[1..], s);
      assert forall y | y in g :: y == g[0] || y in g[1..];
    }
  }

  /** A top-level node is live. */
  lemma {:induction false} TopInFlatten(g: Forest, c: Node)
    requires c in g
    ensures c in Flatten(g)
    decreases g
  {
    if c != g[0] {
      assert c in g[1..];
      TopInFlatten(g[1..], c);
    }
  }

  /** Two node lists that share a node do not have disjoint identities. */
  lemma SharedId(ns: seq<Node>, ms: seq<Node>, n: Node)
    requires n in ns && n in ms
    ensures !(IdSet(ns) !! IdSet(ms))
  {
    assert n.id in IdSet(ns) && n.id in IdSet(ms);
  }

  /** A top-level node never lies below another node of the same forest. */
  lemma {:induction false} TopNotNested(g: Forest, c: Node, p: Node)
    requires Unique(g) && c in g && p in Flatten(g)
    ensures c !in Flatten(p.children)
    decreases g
  {
    var y := g[0];
    var rest := g[1..];
    assert g == [y] + rest;
    FlattenCons(y, rest);
    FlattenSingle(p);
    if c in Flatten(p.children) {
      if c == y {
        if p in Subtree(y) {
          if p != y {
            SubtreeWithin(y.children, p);
          }
          SharedId([y], Flatten(y.children), y);
          assert false;
        } else {
          SubtreeWithin(rest, p);
          SharedId(Subtree(y), Flatten(rest), y);
          assert false;
        }
      } else {
        assert c in rest;
        TopInFlatten(rest, c);
        if p in Subtree(y) {
          SubtreeTrans(y, p, c);
          SharedId(Subtree(y), Flatten(rest), c);
          assert false;
        } else {
          TopNotNested(rest, c, p);
        }
      }
    }
  }

  /** A node has one parent: two distinct live nodes never share a child. */
  lemma {:induction false} UniqueParent(f: Forest, p: Node, q: Node, c: Node)
    requires Unique(f) && p in Flatten(f) && q in Flatten(f)
    requires c in p.children && c in q.children
    ensures p == q
    decreases f
  {
    var x := f[0];
    var rest := f[1..];
    assert f == [x] + rest;
    FlattenCons(x, rest);
    var inX := p in Subtree(x);
    var qInX := q in Subtree(x);
    TopInFlatten(p.children, c);
    TopInFlatten(q.children, c);
    if inX && qInX {
      if p == x && q != x {
        UniqueBelow(f, x);
        TopNotNested(x.children, c, q);
      } else if q == x && p != x {
        UniqueBelow(f, x);
        TopNotNested(x.children, c, p);
      } else if p != x && q != x {
        UniqueParent(x.children, p, q, c);
      }
    } else if !inX && !qInX {
      UniqueParent(rest, p, q, c);
    } else if inX {
      FlattenSingle(p);
      SubtreeTrans(x, p, c);
      SubtreeWithin(rest, q);
      SharedId(Subtree(x), Flatten(rest), c);
      assert false;
    } else {
      FlattenSingle(q);
      SubtreeTrans(x, q, c);
      SubtreeWithin(rest, p);
      SharedId(Subtree(x), Flatten(rest), c);
      assert false;
    }
  }

  /** Every node of `g` was a node of `f`, with the same identity, kind and attributes. */
  predicate Descends(g: Forest, f: Forest)
  {
    forall m | m in Flatten(g) :: exists n | n in Flatten(f) :: n.id == m.id && n.tag == m.tag && n.attrs == m.attrs
  }

  /** A removal only takes nodes away; the survivors keep their kind and attributes. */
  lemma RemoveSetDescends(f: Forest, s: set<NodeId>)
    ensures Descends(RemoveSet(f, s), f)
  {
    forall m | m in Flatten(RemoveSet(f, s))
      ensures exists n | n in Flatten(f) :: n.id == m.id && n.tag == m.tag && n.attrs == m.attrs
    {
      RemoveSetNodes(f, s, m);
    }
  }

  lemma DescendsRefl(f: Forest)
    ensures Descends(f, f)
  {
    forall m | m in Flatten(f)
      ensures exists n | n in Flatten(f) :: n.id == m.id && n.tag == m.tag && n.attrs == m.attrs
    {
    }
  }

  lemma DescendsTrans(h: Forest, g: Forest, f: Forest)
    requires Descends(h, g) && Descends(g, f)
    ensures Descends(h, f)
  {
    forall m | m in Flatten(h)
      ensures exists n | n in Flatten(f) :: n.id == m.id && n.tag == m.tag && n.attrs == m.attrs
    {
      var k :| k in Flatten(g) && k.id == m.id && k.tag == m.tag && k.attrs == m.attrs;
    }
  }
}

=== FILE: filter_pass.dfy ===
/**
 * `process_filter`: a `filter` element without children defines no effect;
 * it is removed together with every node that links to it, since those render
 * nothing.
 */
module FilterPass {
  import opened Dom
  import opened Family
  import opened Cascade

  /** A `filter` element with no children. */
  predicate IsEmptyFilter(n: Node)
  {
    n.tag == Filter && n.children == []
  }

  /** The pass itself: the empty filters are collected first, then cascaded in document order. */
  function ProcessFilter(doc: Forest): PassResult
  {
    var nodes := SelectIds(doc, IsEmptyFilter);
    PassResult(CascadeRemove(doc, nodes), nodes != [])
  }

  /** The flag is set exactly when the document holds an empty filter. */
  lemma FilterPassFlag(doc: Forest)
    ensures ProcessFilter(doc).removed <==> exists n | n in Flatten(doc) :: IsEmptyFilter(n)
  {
    var nodes := SelectIds(doc, IsEmptyFilter);
    if nodes != [] {
      assert nodes[0] in nodes;
    }
  }

  /** With no empty filter the pass changes nothing and leaves the flag clear. */
  lemma FilterPassIdle(doc: Forest)
    requires forall n | n in Flatten(doc) :: !IsEmptyFilter(n)
    ensures ProcessFilter(doc) == PassResult(doc, false)
  {
    FilterPassFlag(doc);
  }

  /** No empty filter of the input survives the pass. */
  lemma FilterPassClears(doc: Forest, fl: Node)
    requires fl in Flatten(doc) && IsEmptyFilter(fl)
    ensures fl.id !in Ids(ProcessFilter(doc).tree)
  {
    CascadeClears(doc, SelectIds(doc, IsEmptyFilter));
  }

  /**
   * The empty filters still in the tree when their turn comes. An empty filter
   * can be swept away earlier, as a node linking to an earlier empty filter;
   * svgdom then drops the links to it, and its own turn removes nothing more.
   */
  function FiltersAtTurn(doc: Forest): set<NodeId>
  {
    LiveAtTurn(doc, SelectIds(doc, IsEmptyFilter))
  }

  /**
   * The nodes that disappear with an empty filter: the filter itself, and
   * whatever links to an empty filter still there at its turn.
   */
  predicate Doomed(doc: Forest, a: Node)
  {
    IsEmptyFilter(a) || exists fl | fl in Flatten(doc) && IsEmptyFilter(fl) && fl.id in FiltersAtTurn(doc) :: a.LinksTo(fl.id)
  }

  /**
   * What the pass removes: a node disappears exactly when it is, or lies below,
   * an empty filter or a node linking to an empty filter still there at its
   * turn. Filters with children, and everything else, are left alone.
   */
  lemma FilterPassRemoves(doc: Forest, n: Node)
    requires Unique(doc) && n in Flatten(doc)
    ensures n.id !in Ids(ProcessFilter(doc).tree)
        <==> exists a | a in Flatten(doc) :: Doomed(doc, a) && n in Subtree(a)
  {
    var nodes := SelectIds(doc, IsEmptyFilter);
    var fs := Members(nodes);
    var live := FiltersAtTurn(doc);
    var s := fs + LinkersOfAny(doc, live);
    CascadeIsRemoveSet(doc, nodes);
    LiveAtTurnBounds(doc, nodes);
    assert ProcessFilter(doc).tree == RemoveSet(doc, s);
    // The removed identities are exactly those of the doomed nodes.
    forall a | a in Flatten(doc)
      ensures a.id in s <==> Doomed(doc, a)
    {
      if a.id in fs {
        var b :| b in Flatten(doc) && b.id == a.id && IsEmptyFilter(b);
        FindUnique(doc, a);
        FindUnique(doc, b);
      } else if a.id in LinkersOfAny(doc, live) {
        var m, t :| m in Flatten(doc) && t in live && t in Ids(doc) && m.LinksTo(t) && m.id == a.id;
        FindUnique(doc, a);
        FindUnique(doc, m);
        assert t in fs;
        var fl :| fl in Flatten(doc) && fl.id == t && IsEmptyFilter(fl);
      }
      if Doomed(doc, a) && !IsEmptyFilter(a) {
        var fl :| fl in Flatten(doc) && IsEmptyFilter(fl) && fl.id in live && a.LinksTo(fl.id);
        assert fl.id in Ids(doc);
      }
    }
    if exists a | a in Flatten(doc) :: Doomed(doc, a) && n in Subtree(a) {
      var a :| a in Flatten(doc) && Doomed(doc, a) && n in Subtree(a);
      RemoveSetDrops(doc, s, a, n);
    } else {
      RemoveSetKeeps(doc, s, n);
      assert Prune(n, s).id == n.id;
    }
  }

  /** An empty filter, or a node linking to one. */
  predicate UsesEmptyFilter(doc: Forest, a: Node)
  {
    IsEmptyFilter(a) || exists fl | fl in Flatten(doc) && IsEmptyFilter(fl) :: a.LinksTo(fl.id)
  }

  /**
   * When no turn reaches a later empty filter (none lies below an earlier
   * empty filter or below a node linking to one), a node disappears exactly
   * when it is, or lies below, an empty filter or a node linking to one.
   */
  lemma FilterPassRemovesApart(doc: Forest, n: Node)
    requires Unique(doc) && n in Flatten(doc)
    requires TurnsApart(doc, SelectIds(doc, IsEmptyFilter))
    ensures n.id !in Ids(ProcessFilter(doc).tree)
        <==> exists a | a in Flatten(doc) :: UsesEmptyFilter(doc, a) && n in Subtree(a)
  {
    FilterPassRemoves(doc, n);
    FiltersAtTurnApart(doc);
    forall a | a in Flatten(doc)
      ensures Doomed(doc, a) <==> UsesEmptyFilter(doc, a)
    {
      DoomedApart(doc, a);
    }
  }

  /** With no turn reaching a later empty filter, every empty filter is still there at its turn. */
  lemma FiltersAtTurnApart(doc: Forest)
    requires Unique(doc) && TurnsApart(doc, SelectIds(doc, IsEmptyFilter))
    ensures forall fl | fl in Flatten(doc) && IsEmptyFilter(fl) :: fl.id in FiltersAtTurn(doc)
  {
    LiveAtTurnApart(doc, SelectIds(doc, IsEmptyFilter));
  }

  lemma DoomedApart(doc: Forest, a: Node)
    requires forall fl | fl in Flatten(doc) && IsEmptyFilter(fl) :: fl.id in FiltersAtTurn(doc)
    ensures Doomed(doc, a) <==> UsesEmptyFilter(doc, a)
  {
    if UsesEmptyFilter(doc, a) && !IsEmptyFilter(a) {
      var fl :| fl in Flatten(doc) && IsEmptyFilter(fl) && a.LinksTo(fl.id);
    }
  }

  /** The pass keeps identities unique and only takes nodes away. */
  lemma FilterPassWellFormed(doc: Forest)
    requires Unique(doc)
    ensures Unique(ProcessFilter(doc).tree)
    ensures Ids(ProcessFilter(doc).tree) <= Ids(doc)
    ensures Descends(ProcessFilter(doc).tree, doc)
  {
    var nodes := SelectIds(doc, IsEmptyFilter);
    CascadeUnique(doc, nodes);
    CascadeShrinks(doc, nodes, 0);
    CascadeDescends(doc, nodes);
  }
}

=== FILE: path_pass.dfy ===
/**
 * `process_paths`: removes `path` elements that have no drawable `d` data.
 * The test looks at the path's own `d` attribute only; whether the path is
 * referenced plays no part.
 */
module PathPass {
  import opened Dom
  import opened Family

  /**
   * `is_invisible`: the `d` attribute is not set, holds a value that is not path
   * data, or holds empty path data.
   */
  predicate IsInvisible(n: Node)
  {
    if D in n.attrs then
      match n.attrs[D]
      case PathData(segments) => segments == []
      case _ => true
    else
      true
  }

  /** A `path` element that draws nothing. */
  predicate IsInvisiblePath(n: Node)
  {
    n.tag == Path && IsInvisible(n)
  }

  /** The `path` nodes of `f` that are invisible, in document order. */
  function InvisiblePaths(f: Forest): seq<NodeId>
  {
    SelectIds(f, IsInvisiblePath)
  }

  /** The pass itself; the flag is set when some path was collected. */
  function ProcessPaths(doc: Forest): PassResult
  {
    var paths := InvisiblePaths(doc);
    PassResult(RemoveAll(doc, paths), paths != [])
  }

  /** The flag is set exactly when the document holds an invisible path. */
  lemma PathPassFlag(doc: Forest)
    ensures ProcessPaths(doc).removed <==> exists n | n in Flatten(doc) :: n.tag == Path && IsInvisible(n)
  {
    var paths := InvisiblePaths(doc);
    if paths != [] {
      assert paths[0] in paths;
    }
  }

  /** With no invisible path the pass changes nothing and leaves the flag clear. */
  lemma PathPassIdle(doc: Forest)
    requires forall n | n in Flatten(doc) :: !IsInvisiblePath(n)
    ensures ProcessPaths(doc) == PassResult(doc, false)
  {
    PathPassFlag(doc);
  }

  /**
   * What the pass removes: a node disappears exactly when it is, or lies below,
   * an invisible path, used or not.
   */
  lemma PathPassRemoves(doc: Forest, n: Node)
    requires Unique(doc) && n in Flatten(doc)
    ensures n.id !in Ids(ProcessPaths(doc).tree)
        <==> exists a | a in Flatten(doc) :: a.tag == Path && IsInvisible(a) && n in Subtree(a)
  {
    var paths := InvisiblePaths(doc);
    var s := Members(paths);
    RemoveAllIsRemoveSet(doc, paths);
    assert ProcessPaths(doc).tree == RemoveSet(doc, s);
    if exists a | a in Flatten(doc) :: a.tag == Path && IsInvisible(a) && n in Subtree(a) {
      var a :| a in Flatten(doc) && a.tag == Path && IsInvisible(a) && n in Subtree(a);
      RemoveSetDrops(doc, s, a, n);
    } else {
      forall a | a in Flatten(doc) && a.id in s
        ensures n !in Subtree(a)
      {
        var b :| b in Flatten(doc) && b.id == a.id && b.tag == Path && IsInvisible(b);
        FindUnique(doc, a);
        FindUnique(doc, b);
      }
      RemoveSetKeeps(doc, s, n);
      assert Prune(n, s).id == n.id;
    }
  }

  /** Every `path` left after the pass has non-empty path data in its `d` attribute. */
  lemma PathPassLeavesVisible(doc: Forest)
    ensures forall m | m in Flatten(ProcessPaths(doc).tree) && m.tag == Path ::
      D in m.attrs && m.attrs[D].PathData? && m.attrs[D].segments != []
  {
    var paths := InvisiblePaths(doc);
    var s := Members(paths);
    RemoveAllIsRemoveSet(doc, paths);
    forall m | m in Flatten(ProcessPaths(doc).tree) && m.tag == Path
      ensures D in m.attrs && m.attrs[D].PathData? && m.attrs[D].segments != []
    {
      RemoveSetNodes(doc, s, m);
      var n :| n in Flatten(doc) && n.id !in s && m == Prune(n, s);
      assert !IsInvisible(n);
    }
  }

  /** The pass keeps identities unique and only takes nodes away. */
  lemma PathPassWellFormed(doc: Forest)
    requires Unique(doc)
    ensures Unique(ProcessPaths(doc).tree)
    ensures Ids(ProcessPaths(doc).tree) <= Ids(doc)
    ensures Descends(ProcessPaths(doc).tree, doc)
  {
    var paths := InvisiblePaths(doc);
    RemoveAllIsRemoveSet(doc, paths);
    RemoveSetUnique(doc, Members(paths));
    RemoveSetIds(doc, Members(paths));
    RemoveSetDescends(doc, Members(paths));
  }
}

=== FILE: remove_invisible.dfy ===
/**
 * `remove_invisible_elements`: the four passes in their fixed order, each one
 * reading the tree the previous one left, and the decision whether the
 * unused-definitions cleanup is to run afterwards.
 */
module RemoveInvisible {
  import opened Dom
  import opened Family
  import opened DisplayPass
  import opened PathPass
  import opened ClipPathPass
  import opened FilterPass

  /**
   * The tree after the four passes, and whether `remove_unused_defs` is called
   * on it (that cleanup is not part of this model).
   */
  datatype Outcome = Outcome(tree: Forest, cleanupDefs: bool)

  function RemoveInvisibleElements(doc: Forest): Outcome
  {
    var display := ProcessDisplayAttribute(doc);
    var paths := ProcessPaths(display.tree);
    var clips := ProcessClipPaths(paths.tree);
    var filters := ProcessFilter(clips.tree);
    Outcome(filters.tree, display.removed || paths.removed || clips.removed || filters.removed)
  }

  /** No `path` in `f` is invisible. */
  predicate PathsVisible(f: Forest)
  {
    forall m | m in Flatten(f) && m.tag == Path :: !IsInvisible(m)
  }

  /** A tree whose nodes all come from a tree without invisible paths has none either. */
  lemma PathsVisibleDescends(g: Forest, f: Forest)
    requires Descends(g, f) && PathsVisible(f)
    ensures PathsVisible(g)
  {
    forall m | m in Flatten(g) && m.tag == Path
      ensures !IsInvisible(m)
    {
      var n :| n in Flatten(f) && n.id == m.id && n.tag == m.tag && n.attrs == m.attrs;
    }
  }

  /** A later pass keeps the `clipPath` children valid or dangling. */
  lemma FilterKeepsClipChildren(doc: Forest)
    requires Unique(doc) && ClipChildrenValid(doc)
    ensures ClipChildrenValid(ProcessFilter(doc).tree)
  {
    var nodes := SelectIds(doc, IsEmptyFilter);
    Cascade.CascadeIsRemoveSet(doc, nodes);
    ClipChildrenAfterRemove(doc, Members(nodes) + LinkersOfAny(doc, Cascade.LiveAtTurn(doc, nodes)));
  }

  /** A run keeps identities unique and only takes nodes away. */
  lemma RunWellFormed(doc: Forest)
    requires Unique(doc)
    ensures Unique(RemoveInvisibleElements(doc).tree)
    ensures Descends(RemoveInvisibleElements(doc).tree, doc)
  {
    var display := ProcessDisplayAttribute(doc);
    var paths := ProcessPaths(display.tree);
    var clips := ProcessClipPaths(paths.tree);
    var out := ProcessFilter(clips.tree).tree;
    DisplayPassWellFormed(doc);
    PathPassWellFormed(display.tree);
    ClipPassWellFormed(paths.tree);
    FilterPassWellFormed(clips.tree);
    DescendsTrans(clips.tree, paths.tree, display.tree);
    DescendsTrans(out, clips.tree, display.tree);
    DescendsTrans(out, display.tree, doc);
  }

  /** A node that is gone from one stage of a run stays gone. */
  lemma GoneStaysGone(g: Forest, f: Forest, id: NodeId)
    requires Descends(g, f) && id !in Ids(f)
    ensures id !in Ids(g)
  {
    forall m | m in Flatten(g)
      ensures m.id != id
    {
      DescendsWitness(g, f, m);
    }
  }

  /** Every unused `display="none"` subtree of the input without a used node is gone after a run. */
  lemma RunRemovesHidden(doc: Forest, a: Node, n: Node)
    requires Unique(doc) && a in Flatten(doc) && Hidden(doc, a) && n in Subtree(a)
    ensures n.id !in Ids(RemoveInvisibleElements(doc).tree)
  {
    var display := ProcessDisplayAttribute(doc);
    var out := RemoveInvisibleElements(doc).tree;
    SubtreeWithin(doc, a);
    DisplayPassRemoves(doc, n);
    RunFromDisplay(doc);
    GoneStaysGone(out, display.tree, n.id);
  }

  /** The three passes after the display pass only take nodes away. */
  lemma RunFromDisplay(doc: Forest)
    requires Unique(doc)
    ensures Descends(RemoveInvisibleElements(doc).tree, ProcessDisplayAttribute(doc).tree)
  {
    var display := ProcessDisplayAttribute(doc);
    var paths := ProcessPaths(display.tree);
    var clips := ProcessClipPaths(paths.tree);
    var out := ProcessFilter(clips.tree).tree;
    DisplayPassWellFormed(doc);
    PathPassWellFormed(display.tree);
    ClipPassWellFormed(paths.tree);
    FilterPassWellFormed(clips.tree);
    DescendsTrans(clips.tree, paths.tree, display.tree);
    DescendsTrans(out, clips.tree, display.tree);
  }

  /** Every `path` left after a run has non-empty path data. */
  lemma RunPathsVisible(doc: Forest)
    requires Unique(doc)
    ensures PathsVisible(RemoveInvisibleElements(doc).tree)
  {
    var display := ProcessDisplayAttribute(doc);
    var paths := ProcessPaths(display.tree);
    var clips := ProcessClipPaths(paths.tree);
    var out := ProcessFilter(clips.tree).tree;
    DisplayPassWellFormed(doc);
    PathPassWellFormed(display.tree);
    ClipPassWellFormed(paths.tree);
    FilterPassWellFormed(clips.tree);
    PathPassLeavesVisible(display.tree);
    assert PathsVisible(paths.tree);
    DescendsTrans(out, clips.tree, paths.tree);
    PathsVisibleDescends(out, paths.tree);
  }

  /**
   * Every child of a `clipPath` left after a run is a valid clipping element,
   * or a `use` whose target was removed during the run.
   */
  lemma RunClipChildren(doc: Forest)
    requires Unique(doc)
    ensures ClipChildrenValid(RemoveInvisibleElements(doc).tree)
  {
    var display := ProcessDisplayAttribute(doc);
    var paths := ProcessPaths(display.tree);
    var clips := ProcessClipPaths(paths.tree);
    DisplayPassWellFormed(doc);
    PathPassWellFormed(display.tree);
    ClipPassWellFormed(paths.tree);
    ClipPassChildren(paths.tree);
    FilterKeepsClipChildren(clips.tree);
  }

  /** A set display-pass flag means a node of its input is gone. */
  lemma DisplayFlagGone(doc: Forest)
    requires Unique(doc)
    ensures ProcessDisplayAttribute(doc).removed ==> LostNode(doc, ProcessDisplayAttribute(doc).tree)
  {
    if ProcessDisplayAttribute(doc).removed {
      DisplayPassFlag(doc);
      var a :| a in Flatten(doc) && Hidden(doc, a);
      FlattenSingle(a);
      DisplayPassRemoves(doc, a);
    }
  }

  /** A set path-pass flag means a node of its input is gone. */
  lemma PathFlagGone(doc: Forest)
    requires Unique(doc)
    ensures ProcessPaths(doc).removed ==> LostNode(doc, ProcessPaths(doc).tree)
  {
    if ProcessPaths(doc).removed {
      PathPassFlag(doc);
      var p :| p in Flatten(doc) && p.tag == Path && IsInvisible(p);
      FlattenSingle(p);
      PathPassRemoves(doc, p);
    }
  }

  /** A set filter-pass flag means a node of its input is gone. */
  lemma FilterFlagGone(doc: Forest)
    ensures ProcessFilter(doc).removed ==> LostNode(doc, ProcessFilter(doc).tree)
  {
    if ProcessFilter(doc).removed {
      FilterPassFlag(doc);
      var fl :| fl in Flatten(doc) && IsEmptyFilter(fl);
      FilterPassClears(doc, fl);
    }
  }

  /** Some node of `f` is gone from `g`. */
  predicate LostNode(f: Forest, g: Forest)
  {
    exists n | n in Flatten(f) :: n.id !in Ids(g)
  }

  /** A node of one stage, gone from a later stage, has a namesake in the input gone from the output. */
  lemma GoneFromRun(doc: Forest, before: Forest, after: Forest, out: Forest)
    requires Descends(before, doc) && Descends(out, after) && LostNode(before, after)
    ensures LostNode(doc, out)
  {
    var n :| n in Flatten(before) && n.id !in Ids(after);
    DescendsWitness(before, doc, n);
    GoneStaysGone(out, after, n.id);
  }

  /** A node of the input gone at one stage is still gone at a later one. */
  lemma LostStaysLost(d0: Forest, d1: Forest, d4: Forest)
    requires Descends(d4, d1) && LostNode(d0, d1)
    ensures LostNode(d0, d4)
  {
    var n :| n in Flatten(d0) && n.id !in Ids(d1);
    GoneStaysGone(d4, d1, n.id);
  }

  /** One pass as the run sees it: identities stay unique, nodes are only taken away, and a set flag means a loss. */
  predicate Step(f: Forest, r: PassResult)
  {
    Unique(r.tree) && Descends(r.tree, f) && (r.removed ==> LostNode(f, r.tree))
  }

  /** Along four passes, a loss at any pass is a loss overall. */
  lemma LossCarries(d0: Forest, r1: PassResult, r2: PassResult, r3: PassResult, r4: PassResult)
    requires Step(d0, r1) && Step(r1.tree, r2) && Step(r2.tree, r3) && Step(r3.tree, r4)
    ensures r1.removed || r2.removed || r3.removed || r4.removed ==> LostNode(d0, r4.tree)
  {
    var d1, d2, d3, d4 := r1.tree, r2.tree, r3.tree, r4.tree;
    if r1.removed {
      DescendsTrans(d3, d2, d1);
      DescendsTrans(d4, d3, d1);
      LostStaysLost(d0, d1, d4);
    } else if r2.removed {
      DescendsTrans(d4, d3, d2);
      GoneFromRun(d0, d1, d2, d4);
    } else if r3.removed {
      DescendsTrans(d2, d1, d0);
      GoneFromRun(d0, d2, d3, d4);
    } else if r4.removed {
      DescendsTrans(d2, d1, d0);
      DescendsTrans(d3, d2, d0);
      var n :| n in Flatten(d3) && n.id !in Ids(d4);
      DescendsWitness(d3, d0, n);
    }
  }

  lemma DisplayStep(doc: Forest)
    requires Unique(doc)
    ensures Step(doc, ProcessDisplayAttribute(doc))
  {
    DisplayPassWellFormed(doc);
    DisplayFlagGone(doc);
  }

  lemma PathStep(doc: Forest)
    requires Unique(doc)
    ensures Step(doc, ProcessPaths(doc))
  {
    PathPassWellFormed(doc);
    PathFlagGone(doc);
  }

  lemma ClipStep(doc: Forest)
    requires Unique(doc)
    ensures Step(doc, ProcessClipPaths(doc))
  {
    ClipPassWellFormed(doc);
    ClipPassFlag(doc);
  }

  lemma FilterStep(doc: Forest)
    requires Unique(doc)
    ensures Step(doc, ProcessFilter(doc))
  {
    FilterPassWellFormed(doc);
    FilterFlagGone(doc);
  }

  /** The cleanup is requested only when some node of the input was removed. */
  lemma RunCleanup(doc: Forest)
    requires Unique(doc)
    ensures RemoveInvisibleElements(doc).cleanupDefs ==> LostNode(doc, RemoveInvisibleElements(doc).tree)
  {
    var display := ProcessDisplayAttribute(doc);
    DisplayStep(doc);
    var paths := ProcessPaths(display.tree);
    PathStep(display.tree);
    var clips := ProcessClipPaths(paths.tree);
    ClipStep(paths.tree);
    var filters := ProcessFilter(clips.tree);
    FilterStep(clips.tree);
    LossCarries(doc, display, paths, clips, filters);
  }


  /** A node of a descendant tree has a namesake in the original. */
  lemma DescendsWitness(g: Forest, f: Forest, m: Node)
    requires Descends(g, f) && m in Flatten(g)
    ensures exists n | n in Flatten(f) :: n.id == m.id
  {
    var n :| n in Flatten(f) && n.id == m.id && n.tag == m.tag && n.attrs == m.attrs;
  }
}

=== FILE: scenarios.dfy ===
/**
 * The behaviour the repository's own test cases describe, proved for every
 * choice of node identities, plus documents on which a run is not idempotent,
 * leaves a dangling `use`, or keeps a node linking to an empty filter.
 *
 * Each document is written with its identities as parameters. Its facts are
 * computed in small steps: the document-order node list first, then the
 * queries a pass makes on it, then the pass, then the whole run.
 */
module Scenarios {
  import opened Dom
  import opened Family
  import opened Cascade
  import opened DisplayPass
  import opened PathPass
  import opened ClipPathPass
  import opened FilterPass
  import opened RemoveInvisible

  // ---------------------------------------------------------------------------
  // Building blocks

  /** An element without attributes or children. */
  function Leaf(id: NodeId, tag: ElementId): Node
  {
    Node(id, tag, map[], [])
  }

  /** `display="none"`. */
  function NoDisplay(): map<AttributeId, AttributeValue>
  {
    map[Display := Keyword(NoneValue)]
  }

  /** `xlink:href="#t"`. */
  function Href(t: NodeId): map<AttributeId, AttributeValue>
  {
    map[XlinkHref := Link(t)]
  }

  /** `clip-path="url(#c)"`. */
  function ClipRef(c: NodeId): map<AttributeId, AttributeValue>
  {
    map[ClipPathRef := FuncLink(c)]
  }

  /** `filter="url(#f)"`. */
  function FilterLink(f: NodeId): map<AttributeId, AttributeValue>
  {
    map[FilterRef := FuncLink(f)]
  }

  /** An `svg` root holding `kids`. */
  function Root(s: NodeId, kids: seq<Node>): Forest
  {
    [Node(s, Svg, map[], kids)]
  }

  /** The identity of `x` when it passes `p`. */
  function Pick(x: Node, p: Node -> bool): seq<NodeId>
  {
    if p(x) then [x.id] else []
  }

  lemma NotUseValidity(doc: Forest, n: Node)
    requires n.tag != Use
    ensures IsValidClipPathElem(doc, n) <==> IsValidShape(n)
  {
  }

  lemma Flatten2(x: Node, y: Node)
    ensures Flatten([x, y]) == Subtree(x) + Subtree(y)
  {
    assert [x, y] == [x] + [y];
    FlattenCons(x, [y]);
    FlattenSingle(y);
  }

  lemma Flatten3(x: Node, y: Node, z: Node)
    ensures Flatten([x, y, z]) == Subtree(x) + Subtree(y) + Subtree(z)
  {
    assert [x, y, z] == [x] + [y, z];
    FlattenCons(x, [y, z]);
    Flatten2(y, z);
  }

  lemma LeafSubtree(x: Node)
    requires x.children == []
    ensures Subtree(x) == [x]
  {
  }

  lemma Where1(a: Node, p: Node -> bool)
    ensures IdsWhere([a], p) == Pick(a, p)
  {
    assert [a][1..] == [];
  }

  lemma Where2(a: Node, b: Node, p: Node -> bool)
    ensures IdsWhere([a, b], p) == Pick(a, p) + Pick(b, p)
  {
    assert [a, b][1..] == [b];
    Where1(b, p);
  }

  lemma Where3(a: Node, b: Node, c: Node, p: Node -> bool)
    ensures IdsWhere([a, b, c], p) == Pick(a, p) + (Pick(b, p) + Pick(c, p))
  {
    assert [a, b, c][1..] == [b, c];
    Where2(b, c, p);
  }

  lemma Where4(a: Node, b: Node, c: Node, d: Node, p: Node -> bool)
    ensures IdsWhere([a, b, c, d], p) == Pick(a, p) + (Pick(b, p) + (Pick(c, p) + Pick(d, p)))
  {
    assert [a, b, c, d][1..] == [b, c, d];
    Where3(b, c, d, p);
  }

  lemma Where5(a: Node, b: Node, c: Node, d: Node, e: Node, p: Node -> bool)
    ensures IdsWhere([a, b, c, d, e], p) == Pick(a, p) + (Pick(b, p) + (Pick(c, p) + (Pick(d, p) + Pick(e, p))))
  {
    assert [a, b, c, d, e][1..] == [b, c, d, e];
    Where4(b, c, d, e, p);
  }

  lemma Where6(a: Node, b: Node, c: Node, d: Node, e: Node, f: Node, p: Node -> bool)
    ensures IdsWhere([a, b, c, d, e, f], p) == Pick(a, p) + (Pick(b, p) + (Pick(c, p) + (Pick(d, p) + (Pick(e, p) + Pick(f, p)))))
  {
    assert [a, b, c, d, e, f][1..] == [b, c, d, e, f];
    Where5(b, c, d, e, f, p);
  }

  lemma Where7(a: Node, b: Node, c: Node, d: Node, e: Node, f: Node, g: Node, p: Node -> bool)
    ensures IdsWhere([a, b, c, d, e, f, g], p) == Pick(a, p) + (Pick(b, p) + (Pick(c, p) + (Pick(d, p) + (Pick(e, p) + (Pick(f, p) + Pick(g, p))))))
  {
    assert [a, b, c, d, e, f, g][1..] == [b, c, d, e, f, g];
    Where6(b, c, d, e, f, g, p);
  }

  lemma First1(a: Node, id: NodeId)
    ensures FirstWithId([a], id) == if a.id == id then Some(a) else None
  {
    assert [a][1..] == [];
  }

  lemma First2(a: Node, b: Node, id: NodeId)
    ensures FirstWithId([a, b], id) == if a.id == id then Some(a) else if b.id == id then Some(b) else None
  {
    assert [a, b][1..] == [b];
    First1(b, id);
  }

  lemma First3(a: Node, b: Node, c: Node, id: NodeId)
    ensures FirstWithId([a, b, c], id) == if a.id == id then Some(a) else if b.id == id then Some(b) else if c.id == id then Some(c) else None
  {
    assert [a, b, c][1..] == [b, c];
    First2(b, c, id);
  }

  lemma First4(a: Node, b: Node, c: Node, d: Node, id: NodeId)
    ensures FirstWithId([a, b, c, d], id) == if a.id == id then Some(a) else if b.id == id then Some(b) else if c.id == id then Some(c) else if d.id == id then Some(d) else None
  {
    assert [a, b, c, d][1..] == [b, c, d];
    First3(b, c, d, id);
  }

  lemma First5(a: Node, b: Node, c: Node, d: Node, e: Node, id: NodeId)
    ensures FirstWithId([a, b, c, d, e], id) == if a.id == id then Some(a) else if b.id == id then Some(b) else if c.id == id then Some(c) else if d.id == id then Some(d) else if e.id == id then Some(e) else None
  {
    assert [a, b, c, d, e][1..] == [b, c, d, e];
    First4(b, c, d, e, id);
  }

  lemma First6(a: Node, b: Node, c: Node, d: Node, e: Node, f: Node, id: NodeId)
    ensures FirstWithId([a, b, c, d, e, f], id) == if a.id == id then Some(a) else if b.id == id then Some(b) else if c.id == id then Some(c) else if d.id == id then Some(d) else if e.id == id then Some(e) else if f.id == id then Some(f) else None
  {
    assert [a, b, c, d, e, f][1..] == [b, c, d, e, f];
    First5(b, c, d, e, f, id);
  }

  lemma First7(a: Node, b: Node, c: Node, d: Node, e: Node, f: Node, g: Node, id: NodeId)
    ensures FirstWithId([a, b, c, d, e, f, g], id) == if a.id == id then Some(a) else if b.id == id then Some(b) else if c.id == id then Some(c) else if d.id == id then Some(d) else if e.id == id then Some(e) else if f.id == id then Some(f) else if g.id == id then Some(g) else None
  {
    assert [a, b, c, d, e, f, g][1..] == [b, c, d, e, f, g];
    First6(b, c, d, e, f, g, id);
  }

  // ---------------------------------------------------------------------------
  // Passes with nothing to do

  /** No node of `f` carries a `display` attribute. */
  predicate NoDisplayAttr(f: Forest)
  {
    forall n | n in Flatten(f) :: Display !in n.attrs
  }

  /** No node of `f` is of kind `t`. */
  predicate Lacks(f: Forest, t: ElementId)
  {
    forall n | n in Flatten(f) :: n.tag != t
  }

  lemma QuietDisplay(doc: Forest)
    requires NoDisplayAttr(doc)
    ensures ProcessDisplayAttribute(doc) == PassResult(doc, false)
  {
    DisplayPassIdle(doc);
  }

  lemma QuietPaths(doc: Forest)
    requires Lacks(doc, Path)
    ensures ProcessPaths(doc) == PassResult(doc, false)
  {
    PathPassIdle(doc);
  }

  lemma QuietClips(doc: Forest)
    requires Lacks(doc, ClipPath)
    ensures ProcessClipPaths(doc) == PassResult(doc, false)
  {
    ClipPassIdle(doc);
  }

  lemma QuietFilters(doc: Forest)
    requires Lacks(doc, Filter)
    ensures ProcessFilter(doc) == PassResult(doc, false)
  {
    FilterPassIdle(doc);
  }

  lemma BareSvgPlain(s: NodeId)
    ensures Lacks(Root(s, []), Path) && Lacks(Root(s, []), ClipPath) && Lacks(Root(s, []), Filter)
  {
    var doc := Root(s, []);
    FlattenSingle(doc[0]);
    forall n | n in Flatten(doc)
      ensures n.tag != Path && n.tag != ClipPath && n.tag != Filter
    {
    }
  }

  /** A lone `svg` element gives the last three passes nothing to do. */
  lemma BareSvgQuiet(s: NodeId)
    ensures ProcessPaths(Root(s, [])) == PassResult(Root(s, []), false)
    ensures ProcessClipPaths(Root(s, [])) == PassResult(Root(s, []), false)
    ensures ProcessFilter(Root(s, [])) == PassResult(Root(s, []), false)
  {
    var doc := Root(s, []);
    BareSvgPlain(s);
    QuietPaths(doc);
    QuietClips(doc);
    QuietFilters(doc);
  }

  // ---------------------------------------------------------------------------
  // One step of each computation

  /** What removing `s` leaves of a one-node forest. */
  function Cut(x: Node, s: set<NodeId>): Forest
  {
    if x.id in s then [] else [Prune(x, s)]
  }

  /** The identity of a `clipPath` child when it fails the test. */
  function Reject(doc: Forest, x: Node): seq<NodeId>
  {
    if IsValidClipPathElem(doc, x) then [] else [x.id]
  }

  lemma Cut1(a: Node, s: set<NodeId>)
    ensures RemoveSet([a], s) == Cut(a, s)
  {
    assert [a][1..] == [];
  }

  lemma Cut2(a: Node, b: Node, s: set<NodeId>)
    ensures RemoveSet([a, b], s) == Cut(a, s) + Cut(b, s)
  {
    assert [a, b][1..] == [b];
    Cut1(b, s);
  }

  lemma Cut3(a: Node, b: Node, c: Node, s: set<NodeId>)
    ensures RemoveSet([a, b, c], s) == Cut(a, s) + (Cut(b, s) + Cut(c, s))
  {
    assert [a, b, c][1..] == [b, c];
    Cut2(b, c, s);
  }

  lemma Reject1(doc: Forest, a: Node)
    ensures InvalidChildren(doc, [a]) == Reject(doc, a)
  {
    assert [a][1..] == [];
  }

  lemma Reject2(doc: Forest, a: Node, b: Node)
    ensures InvalidChildren(doc, [a, b]) == Reject(doc, a) + Reject(doc, b)
  {
    assert [a, b][1..] == [b];
    Reject1(doc, b);
  }

  lemma Reject3(doc: Forest, a: Node, b: Node, c: Node)
    ensures InvalidChildren(doc, [a, b, c]) == Reject(doc, a) + (Reject(doc, b) + Reject(doc, c))
  {
    assert [a, b, c][1..] == [b, c];
    Reject2(doc, b, c);
  }

  /** A `use` without a link is always rejected. */
  lemma RejectBareUse(doc: Forest, u: NodeId)
    ensures Reject(doc, Leaf(u, Use)) == [u]
  {
  }

  /** A linking `use` is judged by the node it names. */
  lemma RejectUseLink(doc: Forest, u: NodeId, t: NodeId, target: Node)
    requires Find(doc, t) == Some(target)
    ensures Reject(doc, Node(u, Use, Href(t), [])) == if IsValidShape(target) then [] else [u]
  {
  }

  lemma InvalidVia3(doc: Forest, a: Node, b: Node, c: Node, out: seq<NodeId>)
    requires Reject(doc, a) + (Reject(doc, b) + Reject(doc, c)) == out
    ensures InvalidChildren(doc, [a, b, c]) == out
  {
    Reject3(doc, a, b, c);
  }

  lemma CutLeaf(x: Node, s: set<NodeId>)
    requires x.children == []
    ensures Cut(x, s) == if x.id in s then [] else [x]
  {
    assert RemoveSet(x.children, s) == [];
  }

  lemma RootCut(s: NodeId, kids: seq<Node>, ids: set<NodeId>)
    requires s !in ids
    ensures RemoveSet(Root(s, kids), ids) == Root(s, RemoveSet(kids, ids))
  {
    Cut1(Root(s, kids)[0], ids);
  }

  lemma RemoveOne(f: Forest, x: NodeId)
    ensures RemoveAll(f, [x]) == RemoveSet(f, {x})
  {
    assert [x][..0] == [];
  }

  lemma RemoveTwo(f: Forest, x: NodeId, y: NodeId)
    ensures RemoveAll(f, [x, y]) == RemoveSet(RemoveSet(f, {y}), {x})
  {
    assert [x, y][..1] == [x];
    RemoveOne(RemoveSet(f, {y}), x);
  }

  lemma CascadeOne(f: Forest, x: NodeId)
    ensures CascadeRemove(f, [x]) == RemoveSet(RemoveSet(f, Linkers(f, x)), {x})
  {
    assert [x][1..] == [];
  }

  lemma Collect1(doc: Forest, x: Node)
    ensures CollectHidden(doc, [x]) == if Hidden(doc, x) then [x.id] else CollectHidden(doc, x.children)
  {
    assert [x][1..] == [];
  }

  lemma Collect2(doc: Forest, x: Node, y: Node)
    ensures CollectHidden(doc, [x, y]) == CollectHidden(doc, [x]) + CollectHidden(doc, [y])
  {
    assert [x, y][1..] == [y];
    Collect1(doc, x);
  }

  lemma StripAllOne(doc: Forest, c: NodeId)
    ensures StripAll(doc, [c]) == StripOne(doc, c)
  {
    assert [c][1..] == [];
  }

  lemma StripAllTwo(doc: Forest, a: NodeId, b: NodeId)
    ensures var one := StripOne(doc, a);
      var two := StripOne(one.tree, b);
      StripAll(doc, [a, b]) == StripResult(two.tree, one.emptied + two.emptied)
  {
    assert [a, b][1..] == [b];
    StripAllOne(StripOne(doc, a).tree, b);
  }

  lemma ReverseOne(x: NodeId)
    ensures Reverse([x]) == [x]
  {
  }

  // ---------------------------------------------------------------------------
  // Generic steps

  lemma RootFlatten(s: NodeId, kids: seq<Node>)
    ensures Flatten(Root(s, kids)) == [Root(s, kids)[0]] + Flatten(kids)
  {
    FlattenSingle(Root(s, kids)[0]);
  }

  lemma FindFirstChild(s: NodeId, kids: seq<Node>, c: NodeId)
    requires kids != [] && kids[0].id == c && s != c
    ensures Find(Root(s, kids), c) == Some(kids[0])
  {
  }

  lemma LacksDescends(g: Forest, f: Forest, t: ElementId)
    requires Descends(g, f) && Lacks(f, t)
    ensures Lacks(g, t)
  {
    forall m | m in Flatten(g)
      ensures m.tag != t
    {
      var n :| n in Flatten(f) && n.id == m.id && n.tag == m.tag && n.attrs == m.attrs;
    }
  }

  /** Removing nodes never brings a kind of element into a tree. */
  lemma LacksAfterRemoveAll(f: Forest, ids: seq<NodeId>, t: ElementId)
    requires Lacks(f, t)
    ensures Lacks(RemoveAll(f, ids), t)
  {
    RemoveAllIsRemoveSet(f, ids);
    RemoveSetDescends(f, Members(ids));
    LacksDescends(RemoveAll(f, ids), f, t);
  }

  /** The clip-path pass, given what its first phase produced. */
  lemma ClipPassFrom(doc: Forest, tree: Forest, emptied: seq<NodeId>)
    requires StripClipPaths(doc) == StripResult(tree, emptied)
    ensures ProcessClipPaths(doc) == PassResult(CascadeRemove(tree, Reverse(emptied)), emptied != [])
  {
  }

  /** The display pass, given what its walk collected. */
  lemma DisplayPassFrom(doc: Forest, nodes: seq<NodeId>)
    requires CollectHidden(doc, doc) == nodes
    ensures ProcessDisplayAttribute(doc) == PassResult(RemoveAll(doc, nodes), nodes != [])
  {
  }

  /** A selection, given the document-order node list. */
  lemma SelectVia(f: Forest, ns: seq<Node>, p: Node -> bool, r: seq<NodeId>)
    requires Flatten(f) == ns && IdsWhere(ns, p) == r
    ensures SelectIds(f, p) == r
  {
    SelectIdsInOrder(f, p);
  }

  /** A lookup, given the document-order node list. */
  lemma FindVia(f: Forest, ns: seq<Node>, id: NodeId, r: Option<Node>)
    requires Flatten(f) == ns && FirstWithId(ns, id) == r
    ensures Find(f, id) == r
  {
    FindInOrder(f, id);
  }

  /** The path pass, given what it selected. */
  lemma PathPassFrom(doc: Forest, paths: seq<NodeId>)
    requires SelectIds(doc, IsInvisiblePath) == paths
    ensures ProcessPaths(doc) == PassResult(RemoveAll(doc, paths), paths != [])
  {
  }

  /** The filter pass, given what it selected. */
  lemma FilterPassFrom(doc: Forest, nodes: seq<NodeId>)
    requires SelectIds(doc, IsEmptyFilter) == nodes
    ensures ProcessFilter(doc) == PassResult(CascadeRemove(doc, nodes), nodes != [])
  {
  }

  /** Cascading one identity: its linking nodes go first, then the node. */
  lemma CascadeVia(f: Forest, x: NodeId, linkers: set<NodeId>, mid: Forest, out: Forest)
    requires Linkers(f, x) == linkers && RemoveSet(f, linkers) == mid && RemoveSet(mid, {x}) == out
    ensures CascadeRemove(f, [x]) == out
  {
    CascadeOne(f, x);
  }

  /** A run, given what each of its passes produced. */
  lemma RunOf(doc: Forest, display: PassResult, paths: PassResult, clips: PassResult, filters: PassResult)
    requires ProcessDisplayAttribute(doc) == display
    requires ProcessPaths(display.tree) == paths
    requires ProcessClipPaths(paths.tree) == clips
    requires ProcessFilter(clips.tree) == filters
    ensures RemoveInvisibleElements(doc) == Outcome(filters.tree, display.removed || paths.removed || clips.removed || filters.removed)
  {
  }

  /** A visit that strips nothing and finds the `clipPath` empty records it. */
  lemma VisitEmpty(doc: Forest, c: NodeId, cp: Node)
    requires Find(doc, c) == Some(cp) && cp.children == []
    ensures StripOne(doc, c) == StripResult(doc, [c])
  {
    assert RemoveAll(doc, []) == doc;
  }

  /** A visit that strips nothing from a `clipPath` with children records nothing. */
  lemma VisitKeeps(doc: Forest, c: NodeId, cp: Node)
    requires Find(doc, c) == Some(cp) && cp.children != []
    requires InvalidChildren(doc, cp.children) == []
    ensures StripOne(doc, c) == StripResult(doc, [])
  {
    assert RemoveAll(doc, []) == doc;
  }

  /** A visit that strips some children and leaves the `clipPath` as `cp'`. */
  lemma VisitStrips(doc: Forest, c: NodeId, cp: Node, bad: seq<NodeId>, tree: Forest, cp': Node)
    requires Find(doc, c) == Some(cp) && InvalidChildren(doc, cp.children) == bad
    requires RemoveAll(doc, bad) == tree && Find(tree, c) == Some(cp')
    ensures StripOne(doc, c) == StripResult(tree, if cp'.children == [] then [c] else [])
  {
  }

  // ---------------------------------------------------------------------------
  // `rm_path_1`, `rm_path_2`

  /** `<svg><path .../></svg>` */
  function PathDoc(s: NodeId, p: NodeId, attrs: map<AttributeId, AttributeValue>): Forest
  {
    Root(s, [Node(p, Path, attrs, [])])
  }

  lemma PathDocFlatten(s: NodeId, p: NodeId, attrs: map<AttributeId, AttributeValue>)
    ensures Flatten(PathDoc(s, p, attrs)) == [PathDoc(s, p, attrs)[0], Node(p, Path, attrs, [])]
  {
    RootFlatten(s, [Node(p, Path, attrs, [])]);
    FlattenSingle(Node(p, Path, attrs, []));
  }

  lemma PathDocPlain(s: NodeId, p: NodeId, attrs: map<AttributeId, AttributeValue>)
    requires Display !in attrs
    ensures NoDisplayAttr(PathDoc(s, p, attrs))
  {
    PathDocFlatten(s, p, attrs);
    forall n | n in [PathDoc(s, p, attrs)[0], Node(p, Path, attrs, [])]
      ensures Display !in n.attrs
    {
    }
  }

  lemma PathDocSelect(s: NodeId, p: NodeId, attrs: map<AttributeId, AttributeValue>)
    requires IsInvisible(Node(p, Path, attrs, []))
    ensures SelectIds(PathDoc(s, p, attrs), IsInvisiblePath) == [p]
  {
    var doc := PathDoc(s, p, attrs);
    var path := Node(p, Path, attrs, []);
    PathDocFlatten(s, p, attrs);
    Where2(doc[0], path, IsInvisiblePath);
    SelectVia(doc, [doc[0], path], IsInvisiblePath, [p]);
  }

  lemma PathDocRemove(s: NodeId, p: NodeId, attrs: map<AttributeId, AttributeValue>)
    requires s != p
    ensures RemoveAll(PathDoc(s, p, attrs), [p]) == Root(s, [])
  {
    var path := Node(p, Path, attrs, []);
    RemoveOne(PathDoc(s, p, attrs), p);
    RootCut(s, [path], {p});
    Cut1(path, {p});
  }

  lemma PathDocPaths(s: NodeId, p: NodeId, attrs: map<AttributeId, AttributeValue>)
    requires s != p && IsInvisible(Node(p, Path, attrs, []))
    ensures ProcessPaths(PathDoc(s, p, attrs)) == PassResult(Root(s, []), true)
  {
    PathDocSelect(s, p, attrs);
    PathDocRemove(s, p, attrs);
    PathPassFrom(PathDoc(s, p, attrs), [p]);
  }

  /** `rm_path_1`, `rm_path_2`: a path without drawable data is removed, whatever else it carries. */
  lemma PathScenario(s: NodeId, p: NodeId, attrs: map<AttributeId, AttributeValue>)
    requires s != p && Display !in attrs
    requires IsInvisible(Node(p, Path, attrs, []))
    ensures RemoveInvisibleElements(PathDoc(s, p, attrs)) == Outcome(Root(s, []), true)
  {
    var doc := PathDoc(s, p, attrs);
    var out := Root(s, []);
    PathDocPlain(s, p, attrs);
    QuietDisplay(doc);
    PathDocPaths(s, p, attrs);
    BareSvgQuiet(s);
    RunOf(doc, PassResult(doc, false), PassResult(out, true), PassResult(out, false), PassResult(out, false));
  }

  // ---------------------------------------------------------------------------
  // `rm_clip_path_children_1`

  function ClipChildrenDoc(s: NodeId, c: NodeId, gi: NodeId, ri: NodeId): Forest
  {
    Root(s, [Node(c, ClipPath, map[], [Leaf(gi, G), Leaf(ri, Rect)])])
  }

  function ClipChildrenOut(s: NodeId, c: NodeId, ri: NodeId): Forest
  {
    Root(s, [Node(c, ClipPath, map[], [Leaf(ri, Rect)])])
  }

  lemma ClipChildrenFlatten(s: NodeId, c: NodeId, gi: NodeId, ri: NodeId)
    ensures var doc := ClipChildrenDoc(s, c, gi, ri);
      Flatten(doc) == [doc[0], doc[0].children[0], Leaf(gi, G), Leaf(ri, Rect)]
  {
    var cp := Node(c, ClipPath, map[], [Leaf(gi, G), Leaf(ri, Rect)]);
    RootFlatten(s, [cp]);
    FlattenSingle(cp);
    Flatten2(Leaf(gi, G), Leaf(ri, Rect));
  }

  lemma ClipChildrenPlain(s: NodeId, c: NodeId, gi: NodeId, ri: NodeId)
    ensures var doc := ClipChildrenDoc(s, c, gi, ri);
      NoDisplayAttr(doc) && Lacks(doc, Path) && Lacks(doc, Filter)
  {
    var doc := ClipChildrenDoc(s, c, gi, ri);
    ClipChildrenFlatten(s, c, gi, ri);
    forall n | n in [doc[0], doc[0].children[0], Leaf(gi, G), Leaf(ri, Rect)]
      ensures Display !in n.attrs && n.tag != Path && n.tag != Filter
    {
    }
  }

  lemma ClipChildrenSelect(s: NodeId, c: NodeId, gi: NodeId, ri: NodeId)
    ensures SelectIds(ClipChildrenDoc(s, c, gi, ri), IsClipPath) == [c]
  {
    var doc := ClipChildrenDoc(s, c, gi, ri);
    var ns := [doc[0], doc[0].children[0], Leaf(gi, G), Leaf(ri, Rect)];
    ClipChildrenFlatten(s, c, gi, ri);
    Where4(ns[0], ns[1], ns[2], ns[3], IsClipPath);
    SelectVia(doc, ns, IsClipPath, [c]);
  }

  lemma ClipChildrenInvalid(s: NodeId, c: NodeId, gi: NodeId, ri: NodeId)
    ensures var doc := ClipChildrenDoc(s, c, gi, ri);
      InvalidChildren(doc, doc[0].children[0].children) == [gi]
  {
    var doc := ClipChildrenDoc(s, c, gi, ri);
    Reject2(doc, Leaf(gi, G), Leaf(ri, Rect));
    NotUseValidity(doc, Leaf(gi, G));
    NotUseValidity(doc, Leaf(ri, Rect));
  }

  lemma ClipChildrenRemove(s: NodeId, c: NodeId, gi: NodeId, ri: NodeId)
    requires s != gi && c != gi && gi != ri
    ensures RemoveAll(ClipChildrenDoc(s, c, gi, ri), [gi]) == ClipChildrenOut(s, c, ri)
  {
    var doc := ClipChildrenDoc(s, c, gi, ri);
    var cp := doc[0].children[0];
    RemoveOne(doc, gi);
    RootCut(s, [cp], {gi});
    Cut1(cp, {gi});
    Cut2(Leaf(gi, G), Leaf(ri, Rect), {gi});
    CutLeaf(Leaf(gi, G), {gi});
    CutLeaf(Leaf(ri, Rect), {gi});
    assert RemoveSet(cp.children, {gi}) == [Leaf(ri, Rect)];
    assert Cut(cp, {gi}) == ClipChildrenOut(s, c, ri)[0].children;
  }

  lemma ClipChildrenClip(s: NodeId, c: NodeId, gi: NodeId, ri: NodeId)
    requires s != c && s != gi && c != gi && gi != ri
    ensures ProcessClipPaths(ClipChildrenDoc(s, c, gi, ri)) == PassResult(ClipChildrenOut(s, c, ri), false)
  {
    var doc := ClipChildrenDoc(s, c, gi, ri);
    var out := ClipChildrenOut(s, c, ri);
    FindFirstChild(s, doc[0].children, c);
    ClipChildrenInvalid(s, c, gi, ri);
    ClipChildrenRemove(s, c, gi, ri);
    FindFirstChild(s, out[0].children, c);
    VisitStrips(doc, c, doc[0].children[0], [gi], out, out[0].children[0]);
    ClipChildrenSelect(s, c, gi, ri);
    StripAllOne(doc, c);
    ClipPassFrom(doc, out, []);
  }

  lemma ClipChildrenIdle(s: NodeId, c: NodeId, gi: NodeId, ri: NodeId)
    requires s != gi && c != gi && gi != ri
    ensures var doc := ClipChildrenDoc(s, c, gi, ri);
      && ProcessDisplayAttribute(doc) == PassResult(doc, false)
      && ProcessPaths(doc) == PassResult(doc, false)
      && ProcessFilter(ClipChildrenOut(s, c, ri)) == PassResult(ClipChildrenOut(s, c, ri), false)
  {
    var doc := ClipChildrenDoc(s, c, gi, ri);
    ClipChildrenPlain(s, c, gi, ri);
    QuietDisplay(doc);
    QuietPaths(doc);
    ClipChildrenRemove(s, c, gi, ri);
    LacksAfterRemoveAll(doc, [gi], Filter);
    QuietFilters(ClipChildrenOut(s, c, ri));
  }

  /**
   * `rm_clip_path_children_1`: the group is stripped from the `clipPath`, the
   * rectangle stays, and stripping alone does not request the cleanup.
   */
  lemma ClipChildrenScenario(s: NodeId, c: NodeId, gi: NodeId, ri: NodeId)
    requires s != c && s != gi && c != gi && gi != ri
    ensures RemoveInvisibleElements(ClipChildrenDoc(s, c, gi, ri)) == Outcome(ClipChildrenOut(s, c, ri), false)
  {
    var doc := ClipChildrenDoc(s, c, gi, ri);
    var out := ClipChildrenOut(s, c, ri);
    ClipChildrenIdle(s, c, gi, ri);
    ClipChildrenClip(s, c, gi, ri);
    RunOf(doc, PassResult(doc, false), PassResult(doc, false), PassResult(out, false), PassResult(out, false));
  }

  // ---------------------------------------------------------------------------
  // `rm_clip_path_1`

  function EmptyClipDoc(s: NodeId, c: NodeId, r1: NodeId, r2: NodeId): Forest
  {
    Root(s, [Leaf(c, ClipPath), Node(r1, Rect, ClipRef(c), []), Node(r2, Rect, ClipRef(c), [])])
  }

  lemma EmptyClipFlatten(s: NodeId, c: NodeId, r1: NodeId, r2: NodeId)
    ensures var doc := EmptyClipDoc(s, c, r1, r2);
      Flatten(doc) == [doc[0]] + doc[0].children
  {
    var kids := EmptyClipDoc(s, c, r1, r2)[0].children;
    RootFlatten(s, kids);
    Flatten3(kids[0], kids[1], kids[2]);
    LeafSubtree(kids[0]);
    LeafSubtree(kids[1]);
    LeafSubtree(kids[2]);
  }

  lemma EmptyClipPlain(s: NodeId, c: NodeId, r1: NodeId, r2: NodeId)
    ensures var doc := EmptyClipDoc(s, c, r1, r2);
      NoDisplayAttr(doc) && Lacks(doc, Path)
  {
    var doc := EmptyClipDoc(s, c, r1, r2);
    EmptyClipFlatten(s, c, r1, r2);
    forall n | n in [doc[0]] + doc[0].children
      ensures Display !in n.attrs && n.tag != Path
    {
    }
  }

  lemma EmptyClipSelect(s: NodeId, c: NodeId, r1: NodeId, r2: NodeId)
    ensures SelectIds(EmptyClipDoc(s, c, r1, r2), IsClipPath) == [c]
  {
    var doc := EmptyClipDoc(s, c, r1, r2);
    var kids := doc[0].children;
    EmptyClipFlatten(s, c, r1, r2);
    Where4(doc[0], kids[0], kids[1], kids[2], IsClipPath);
    SelectVia(doc, [doc[0]] + kids, IsClipPath, [c]);
  }

  lemma EmptyClipStrip(s: NodeId, c: NodeId, r1: NodeId, r2: NodeId)
    requires s != c
    ensures var doc := EmptyClipDoc(s, c, r1, r2);
      StripClipPaths(doc) == StripResult(doc, [c])
  {
    var doc := EmptyClipDoc(s, c, r1, r2);
    EmptyClipSelect(s, c, r1, r2);
    FindFirstChild(s, doc[0].children, c);
    VisitEmpty(doc, c, doc[0].children[0]);
    StripAllOne(doc, c);
  }

  lemma EmptyClipLinkers(s: NodeId, c: NodeId, r1: NodeId, r2: NodeId)
    ensures Linkers(EmptyClipDoc(s, c, r1, r2), c) == {r1, r2}
  {
    var doc := EmptyClipDoc(s, c, r1, r2);
    var kids := doc[0].children;
    EmptyClipFlatten(s, c, r1, r2);
    assert kids[1].attrs[ClipPathRef].LinksTo(c);
    assert kids[2].attrs[ClipPathRef].LinksTo(c);
  }

  lemma EmptyClipCascade(s: NodeId, c: NodeId, r1: NodeId, r2: NodeId)
    requires s != c && s != r1 && s != r2 && c != r1 && c != r2
    ensures CascadeRemove(EmptyClipDoc(s, c, r1, r2), [c]) == Root(s, [])
  {
    var doc := EmptyClipDoc(s, c, r1, r2);
    var cp := Leaf(c, ClipPath);
    var x1 := Node(r1, Rect, ClipRef(c), []);
    var x2 := Node(r2, Rect, ClipRef(c), []);
    EmptyClipLinkers(s, c, r1, r2);
    RootCut(s, [cp, x1, x2], {r1, r2});
    Cut3(cp, x1, x2, {r1, r2});
    CutLeaf(cp, {r1, r2});
    CutLeaf(x1, {r1, r2});
    CutLeaf(x2, {r1, r2});
    assert RemoveSet([cp, x1, x2], {r1, r2}) == [cp];
    RootCut(s, [cp], {c});
    Cut1(cp, {c});
    CascadeVia(doc, c, {r1, r2}, BareClipDoc(s, c), Root(s, []));
  }

  lemma EmptyClipClips(s: NodeId, c: NodeId, r1: NodeId, r2: NodeId)
    requires s != c && s != r1 && s != r2 && c != r1 && c != r2
    ensures ProcessClipPaths(EmptyClipDoc(s, c, r1, r2)) == PassResult(Root(s, []), true)
  {
    var doc := EmptyClipDoc(s, c, r1, r2);
    EmptyClipStrip(s, c, r1, r2);
    ReverseOne(c);
    EmptyClipCascade(s, c, r1, r2);
    ClipPassFrom(doc, doc, [c]);
  }

  /**
   * `rm_clip_path_1`: an empty `clipPath` is removed together with both
   * rectangles that reference it, and the cleanup is requested.
   */
  lemma EmptyClipScenario(s: NodeId, c: NodeId, r1: NodeId, r2: NodeId)
    requires s != c && s != r1 && s != r2 && c != r1 && c != r2
    ensures RemoveInvisibleElements(EmptyClipDoc(s, c, r1, r2)) == Outcome(Root(s, []), true)
  {
    var doc := EmptyClipDoc(s, c, r1, r2);
    var out := Root(s, []);
    EmptyClipPlain(s, c, r1, r2);
    QuietDisplay(doc);
    QuietPaths(doc);
    EmptyClipClips(s, c, r1, r2);
    BareSvgQuiet(s);
    RunOf(doc, PassResult(doc, false), PassResult(doc, false), PassResult(out, true), PassResult(out, false));
  }

  // ---------------------------------------------------------------------------
  // `rm_clip_path_3`

  function HiddenClipDoc(s: NodeId, c: NodeId, r: NodeId): Forest
  {
    Root(s, [Node(c, ClipPath, map[], [Node(r, Rect, NoDisplay(), [])])])
  }

  function BareClipDoc(s: NodeId, c: NodeId): Forest
  {
    Root(s, [Leaf(c, ClipPath)])
  }

  lemma HiddenClipFlatten(s: NodeId, c: NodeId, r: NodeId)
    ensures var doc := HiddenClipDoc(s, c, r);
      var cp := doc[0].children[0];
      Flatten(doc) == [doc[0], cp, cp.children[0]]
  {
    var doc := HiddenClipDoc(s, c, r);
    var cp := doc[0].children[0];
    RootFlatten(s, [cp]);
    FlattenSingle(cp);
    FlattenSingle(cp.children[0]);
  }

  lemma HiddenClipCollect(s: NodeId, c: NodeId, r: NodeId)
    ensures var doc := HiddenClipDoc(s, c, r);
      CollectHidden(doc, doc) == [r]
  {
    var doc := HiddenClipDoc(s, c, r);
    var cp := doc[0].children[0];
    var rect := cp.children[0];
    HiddenClipFlatten(s, c, r);
    LeafSubtree(rect);
    assert !Used(doc, r);
    assert Hidden(doc, rect);
    Collect1(doc, doc[0]);
    Collect1(doc, cp);
    Collect1(doc, rect);
  }

  lemma HiddenClipRemove(s: NodeId, c: NodeId, r: NodeId)
    requires s != r && c != r
    ensures RemoveAll(HiddenClipDoc(s, c, r), [r]) == BareClipDoc(s, c)
  {
    var doc := HiddenClipDoc(s, c, r);
    var cp := doc[0].children[0];
    RemoveOne(doc, r);
    RootCut(s, [cp], {r});
    Cut1(cp, {r});
    Cut1(cp.children[0], {r});
    CutLeaf(cp.children[0], {r});
  }

  lemma HiddenClipDisplay(s: NodeId, c: NodeId, r: NodeId)
    requires s != r && c != r
    ensures ProcessDisplayAttribute(HiddenClipDoc(s, c, r)) == PassResult(BareClipDoc(s, c), true)
  {
    HiddenClipCollect(s, c, r);
    HiddenClipRemove(s, c, r);
    DisplayPassFrom(HiddenClipDoc(s, c, r), [r]);
  }

  lemma BareClipFlatten(s: NodeId, c: NodeId)
    ensures Flatten(BareClipDoc(s, c)) == [BareClipDoc(s, c)[0], Leaf(c, ClipPath)]
  {
    RootFlatten(s, [Leaf(c, ClipPath)]);
    FlattenSingle(Leaf(c, ClipPath));
  }

  lemma BareClipPlain(s: NodeId, c: NodeId)
    ensures Lacks(BareClipDoc(s, c), Path)
  {
    BareClipFlatten(s, c);
    forall n | n in [BareClipDoc(s, c)[0], Leaf(c, ClipPath)]
      ensures n.tag != Path
    {
    }
  }

  lemma BareClipStrip(s: NodeId, c: NodeId)
    requires s != c
    ensures StripClipPaths(BareClipDoc(s, c)) == StripResult(BareClipDoc(s, c), [c])
  {
    var doc := BareClipDoc(s, c);
    var cp := Leaf(c, ClipPath);
    BareClipFlatten(s, c);
    Where2(doc[0], cp, IsClipPath);
    SelectVia(doc, [doc[0], cp], IsClipPath, [c]);
    FindFirstChild(s, [cp], c);
    VisitEmpty(doc, c, cp);
    StripAllOne(doc, c);
  }

  lemma BareClipCascade(s: NodeId, c: NodeId)
    requires s != c
    ensures CascadeRemove(BareClipDoc(s, c), [c]) == Root(s, [])
  {
    var doc := BareClipDoc(s, c);
    var cp := Leaf(c, ClipPath);
    BareClipFlatten(s, c);
    assert Linkers(doc, c) == {};
    RootCut(s, [cp], {});
    Cut1(cp, {});
    CutLeaf(cp, {});
    RootCut(s, [cp], {c});
    Cut1(cp, {c});
    CascadeVia(doc, c, {}, doc, Root(s, []));
  }

  lemma BareClipClips(s: NodeId, c: NodeId)
    requires s != c
    ensures ProcessClipPaths(BareClipDoc(s, c)) == PassResult(Root(s, []), true)
  {
    var doc := BareClipDoc(s, c);
    BareClipStrip(s, c);
    ReverseOne(c);
    BareClipCascade(s, c);
    ClipPassFrom(doc, doc, [c]);
  }

  /**
   * `rm_clip_path_3`: the display pass removes the hidden rectangle first, which
   * leaves the `clipPath` empty, so the clip-path pass removes it too. The order
   * of the passes is what makes this work.
   */
  lemma HiddenClipScenario(s: NodeId, c: NodeId, r: NodeId)
    requires s != c && s != r && c != r
    ensures RemoveInvisibleElements(HiddenClipDoc(s, c, r)) == Outcome(Root(s, []), true)
  {
    var bare := BareClipDoc(s, c);
    var out := Root(s, []);
    HiddenClipDisplay(s, c, r);
    BareClipPlain(s, c);
    QuietPaths(bare);
    BareClipClips(s, c);
    BareSvgQuiet(s);
    RunOf(HiddenClipDoc(s, c, r), PassResult(bare, true), PassResult(bare, false), PassResult(out, true), PassResult(out, false));
  }

  // ---------------------------------------------------------------------------
  // `rm_display_none_2` and `skip_display_none_1`

  function HiddenGroup(g: NodeId, r: NodeId): Node
  {
    Node(g, G, NoDisplay(), [Leaf(r, Rect)])
  }

  function HiddenGroupDoc(s: NodeId, g: NodeId, r: NodeId): Forest
  {
    Root(s, [HiddenGroup(g, r)])
  }

  lemma HiddenGroupSubtree(g: NodeId, r: NodeId)
    ensures Subtree(HiddenGroup(g, r)) == [HiddenGroup(g, r), Leaf(r, Rect)]
  {
    FlattenSingle(Leaf(r, Rect));
  }

  lemma HiddenGroupCollect(s: NodeId, g: NodeId, r: NodeId)
    ensures var doc := HiddenGroupDoc(s, g, r);
      CollectHidden(doc, doc) == [g]
  {
    var doc := HiddenGroupDoc(s, g, r);
    var grp := HiddenGroup(g, r);
    HiddenGroupSubtree(g, r);
    RootFlatten(s, [grp]);
    FlattenSingle(grp);
    assert Flatten(doc) == [doc[0], grp, Leaf(r, Rect)];
    assert !Used(doc, g) && !Used(doc, r);
    assert Hidden(doc, grp);
    Collect1(doc, doc[0]);
    Collect1(doc, grp);
  }

  lemma HiddenGroupDisplay(s: NodeId, g: NodeId, r: NodeId)
    requires s != g
    ensures ProcessDisplayAttribute(HiddenGroupDoc(s, g, r)) == PassResult(Root(s, []), true)
  {
    var doc := HiddenGroupDoc(s, g, r);
    var grp := HiddenGroup(g, r);
    HiddenGroupCollect(s, g, r);
    RemoveOne(doc, g);
    RootCut(s, [grp], {g});
    Cut1(grp, {g});
    DisplayPassFrom(doc, [g]);
  }

  /** `rm_display_none_2`: a hidden group goes together with its content. */
  lemma HiddenGroupScenario(s: NodeId, g: NodeId, r: NodeId)
    requires s != g
    ensures RemoveInvisibleElements(HiddenGroupDoc(s, g, r)) == Outcome(Root(s, []), true)
  {
    var out := Root(s, []);
    HiddenGroupDisplay(s, g, r);
    BareSvgQuiet(s);
    RunOf(HiddenGroupDoc(s, g, r), PassResult(out, true), PassResult(out, false), PassResult(out, false), PassResult(out, false));
  }

  function UsedGroupDoc(s: NodeId, g: NodeId, r: NodeId, u: NodeId): Forest
  {
    Root(s, [HiddenGroup(g, r), Node(u, Use, Href(r), [])])
  }

  lemma UsedGroupFlatten(s: NodeId, g: NodeId, r: NodeId, u: NodeId)
    ensures var doc := UsedGroupDoc(s, g, r, u);
      Flatten(doc) == [doc[0], HiddenGroup(g, r), Leaf(r, Rect), doc[0].children[1]]
  {
    var doc := UsedGroupDoc(s, g, r, u);
    var grp := HiddenGroup(g, r);
    var use := doc[0].children[1];
    RootFlatten(s, [grp, use]);
    Flatten2(grp, use);
    HiddenGroupSubtree(g, r);
    LeafSubtree(use);
  }

  lemma UsedGroupNothingHidden(s: NodeId, g: NodeId, r: NodeId, u: NodeId)
    ensures var doc := UsedGroupDoc(s, g, r, u);
      forall n | n in Flatten(doc) :: !Hidden(doc, n)
  {
    var doc := UsedGroupDoc(s, g, r, u);
    var grp := HiddenGroup(g, r);
    var use := doc[0].children[1];
    UsedGroupFlatten(s, g, r, u);
    HiddenGroupSubtree(g, r);
    assert use.attrs[XlinkHref].LinksTo(r);
    assert use.LinksTo(r);
    assert use in Flatten(doc);
    assert Used(doc, r);
    assert !Hidden(doc, grp) by {
      assert Leaf(r, Rect) in Subtree(grp);
    }
    forall n | n in Flatten(doc)
      ensures !Hidden(doc, n)
    {
    }
  }

  lemma UsedGroupPlain(s: NodeId, g: NodeId, r: NodeId, u: NodeId)
    ensures var doc := UsedGroupDoc(s, g, r, u);
      Lacks(doc, Path) && Lacks(doc, ClipPath) && Lacks(doc, Filter)
  {
    var doc := UsedGroupDoc(s, g, r, u);
    var ns := [doc[0], HiddenGroup(g, r), Leaf(r, Rect), doc[0].children[1]];
    UsedGroupFlatten(s, g, r, u);
    forall n | n in ns
      ensures n.tag != Path && n.tag != ClipPath && n.tag != Filter
    {
    }
  }

  /**
   * `skip_display_none_1`: a hidden group whose rectangle is referenced by a
   * `use` is kept, and nothing else changes either.
   */
  lemma UsedGroupScenario(s: NodeId, g: NodeId, r: NodeId, u: NodeId)
    ensures RemoveInvisibleElements(UsedGroupDoc(s, g, r, u)) == Outcome(UsedGroupDoc(s, g, r, u), false)
  {
    var doc := UsedGroupDoc(s, g, r, u);
    UsedGroupNothingHidden(s, g, r, u);
    DisplayPassIdle(doc);
    UsedGroupPlain(s, g, r, u);
    QuietPaths(doc);
    QuietClips(doc);
    QuietFilters(doc);
    RunOf(doc, PassResult(doc, false), PassResult(doc, false), PassResult(doc, false), PassResult(doc, false));
  }

  // ---------------------------------------------------------------------------
  // `rm_filter_1`, `rm_filter_2`

  function LoneFilterDoc(s: NodeId, fl: NodeId): Forest
  {
    Root(s, [Leaf(fl, Filter)])
  }

  function FilterDoc(s: NodeId, fl: NodeId, r: NodeId): Forest
  {
    Root(s, [Leaf(fl, Filter), Node(r, Rect, FilterLink(fl), [])])
  }

  lemma LoneFilterFlatten(s: NodeId, fl: NodeId)
    ensures Flatten(LoneFilterDoc(s, fl)) == [LoneFilterDoc(s, fl)[0], Leaf(fl, Filter)]
  {
    RootFlatten(s, [Leaf(fl, Filter)]);
    FlattenSingle(Leaf(fl, Filter));
  }

  lemma LoneFilterPlain(s: NodeId, fl: NodeId)
    ensures var doc := LoneFilterDoc(s, fl);
      NoDisplayAttr(doc) && Lacks(doc, Path) && Lacks(doc, ClipPath)
  {
    LoneFilterFlatten(s, fl);
    forall n | n in [LoneFilterDoc(s, fl)[0], Leaf(fl, Filter)]
      ensures Display !in n.attrs && n.tag != Path && n.tag != ClipPath
    {
    }
  }

  lemma LoneFilterSelect(s: NodeId, fl: NodeId)
    ensures SelectIds(LoneFilterDoc(s, fl), IsEmptyFilter) == [fl]
  {
    var doc := LoneFilterDoc(s, fl);
    LoneFilterFlatten(s, fl);
    Where2(doc[0], Leaf(fl, Filter), IsEmptyFilter);
    SelectVia(doc, [doc[0], Leaf(fl, Filter)], IsEmptyFilter, [fl]);
  }

  lemma LoneFilterCascade(s: NodeId, fl: NodeId)
    requires s != fl
    ensures CascadeRemove(LoneFilterDoc(s, fl), [fl]) == Root(s, [])
  {
    var doc := LoneFilterDoc(s, fl);
    var f := Leaf(fl, Filter);
    LoneFilterFlatten(s, fl);
    assert Linkers(doc, fl) == {};
    RootCut(s, [f], {});
    Cut1(f, {});
    CutLeaf(f, {});
    RootCut(s, [f], {fl});
    Cut1(f, {fl});
    CascadeVia(doc, fl, {}, doc, Root(s, []));
  }

  /** `rm_filter_1`: an empty filter is removed. */
  lemma LoneFilterScenario(s: NodeId, fl: NodeId)
    requires s != fl
    ensures RemoveInvisibleElements(LoneFilterDoc(s, fl)) == Outcome(Root(s, []), true)
  {
    var doc := LoneFilterDoc(s, fl);
    LoneFilterPlain(s, fl);
    QuietDisplay(doc);
    QuietPaths(doc);
    QuietClips(doc);
    LoneFilterSelect(s, fl);
    LoneFilterCascade(s, fl);
    FilterPassFrom(doc, [fl]);
    RunOf(doc, PassResult(doc, false), PassResult(doc, false), PassResult(doc, false), PassResult(Root(s, []), true));
  }

  lemma FilterDocFlatten(s: NodeId, fl: NodeId, r: NodeId)
    ensures var doc := FilterDoc(s, fl, r);
      Flatten(doc) == [doc[0], Leaf(fl, Filter), doc[0].children[1]]
  {
    var doc := FilterDoc(s, fl, r);
    RootFlatten(s, doc[0].children);
    Flatten2(Leaf(fl, Filter), doc[0].children[1]);
    LeafSubtree(Leaf(fl, Filter));
    LeafSubtree(doc[0].children[1]);
  }

  lemma FilterDocPlain(s: NodeId, fl: NodeId, r: NodeId)
    ensures var doc := FilterDoc(s, fl, r);
      NoDisplayAttr(doc) && Lacks(doc, Path) && Lacks(doc, ClipPath)
  {
    var doc := FilterDoc(s, fl, r);
    FilterDocFlatten(s, fl, r);
    forall n | n in [doc[0], Leaf(fl, Filter), doc[0].children[1]]
      ensures Display !in n.attrs && n.tag != Path && n.tag != ClipPath
    {
    }
  }

  lemma FilterDocSelect(s: NodeId, fl: NodeId, r: NodeId)
    ensures SelectIds(FilterDoc(s, fl, r), IsEmptyFilter) == [fl]
  {
    var doc := FilterDoc(s, fl, r);
    var ns := [doc[0], Leaf(fl, Filter), doc[0].children[1]];
    FilterDocFlatten(s, fl, r);
    Where3(ns[0], ns[1], ns[2], IsEmptyFilter);
    SelectVia(doc, ns, IsEmptyFilter, [fl]);
  }

  lemma FilterDocLinkers(s: NodeId, fl: NodeId, r: NodeId)
    ensures Linkers(FilterDoc(s, fl, r), fl) == {r}
  {
    var doc := FilterDoc(s, fl, r);
    var rect := doc[0].children[1];
    FilterDocFlatten(s, fl, r);
    assert rect.attrs[FilterRef].LinksTo(fl);
    assert rect.LinksTo(fl);
  }

  lemma FilterDocCascade(s: NodeId, fl: NodeId, r: NodeId)
    requires s != fl && s != r && fl != r
    ensures CascadeRemove(FilterDoc(s, fl, r), [fl]) == Root(s, [])
  {
    var doc := FilterDoc(s, fl, r);
    var f := Leaf(fl, Filter);
    var rect := Node(r, Rect, FilterLink(fl), []);
    FilterDocLinkers(s, fl, r);
    RootCut(s, [f, rect], {r});
    Cut2(f, rect, {r});
    CutLeaf(f, {r});
    CutLeaf(rect, {r});
    assert RemoveSet([f, rect], {r}) == [f];
    RootCut(s, [f], {fl});
    Cut1(f, {fl});
    CascadeVia(doc, fl, {r}, LoneFilterDoc(s, fl), Root(s, []));
  }

  /** `rm_filter_2`: an empty filter is removed with the rectangle that uses it. */
  lemma FilterScenario(s: NodeId, fl: NodeId, r: NodeId)
    requires s != fl && s != r && fl != r
    ensures RemoveInvisibleElements(FilterDoc(s, fl, r)) == Outcome(Root(s, []), true)
  {
    var doc := FilterDoc(s, fl, r);
    FilterDocPlain(s, fl, r);
    QuietDisplay(doc);
    QuietPaths(doc);
    QuietClips(doc);
    FilterDocSelect(s, fl, r);
    FilterDocCascade(s, fl, r);
    FilterPassFrom(doc, [fl]);
    RunOf(doc, PassResult(doc, false), PassResult(doc, false), PassResult(doc, false), PassResult(Root(s, []), true));
  }
  // ---------------------------------------------------------------------------
  // An empty filter that is itself filtered by an empty filter

  /**
   * Two empty filters, the second naming the first in its own `filter`
   * attribute, and a rectangle naming the second.
   */
  function ChainFilterDoc(s: NodeId, f1: NodeId, f2: NodeId, r: NodeId): Forest
  {
    Root(s, [Leaf(f1, Filter), Node(f2, Filter, FilterLink(f1), []), Node(r, Rect, FilterLink(f2), [])])
  }

  lemma ChainFilterFlatten(s: NodeId, f1: NodeId, f2: NodeId, r: NodeId)
    ensures var doc := ChainFilterDoc(s, f1, f2, r);
      Flatten(doc) == [doc[0], Leaf(f1, Filter), doc[0].children[1], doc[0].children[2]]
  {
    var k := ChainFilterDoc(s, f1, f2, r)[0].children;
    RootFlatten(s, k);
    Flatten3(k[0], k[1], k[2]);
    LeafSubtree(k[0]);
    LeafSubtree(k[1]);
    LeafSubtree(k[2]);
  }

  lemma ChainFilterPlain(s: NodeId, f1: NodeId, f2: NodeId, r: NodeId)
    ensures var doc := ChainFilterDoc(s, f1, f2, r);
      NoDisplayAttr(doc) && Lacks(doc, Path) && Lacks(doc, ClipPath)
  {
    var doc := ChainFilterDoc(s, f1, f2, r);
    ChainFilterFlatten(s, f1, f2, r);
    forall n | n in [doc[0], Leaf(f1, Filter), doc[0].children[1], doc[0].children[2]]
      ensures Display !in n.attrs && n.tag != Path && n.tag != ClipPath
    {
    }
  }

  lemma ChainFilterSelect(s: NodeId, f1: NodeId, f2: NodeId, r: NodeId)
    ensures SelectIds(ChainFilterDoc(s, f1, f2, r), IsEmptyFilter) == [f1, f2]
  {
    var doc := ChainFilterDoc(s, f1, f2, r);
    var ns := [doc[0], Leaf(f1, Filter), doc[0].children[1], doc[0].children[2]];
    ChainFilterFlatten(s, f1, f2, r);
    Where4(ns[0], ns[1], ns[2], ns[3], IsEmptyFilter);
    SelectVia(doc, ns, IsEmptyFilter, [f1, f2]);
  }

  /** The first filter's turn takes the second filter, its only linker, and then the first filter. */
  lemma ChainFilterFirstTurn(s: NodeId, f1: NodeId, f2: NodeId, r: NodeId)
    requires s != f1 && s != f2 && s != r && f1 != f2 && f1 != r && f2 != r
    ensures CascadeRemove(ChainFilterDoc(s, f1, f2, r), [f1]) == Root(s, [Node(r, Rect, FilterLink(f2), [])])
  {
    var doc := ChainFilterDoc(s, f1, f2, r);
    var a := Leaf(f1, Filter);
    var b := Node(f2, Filter, FilterLink(f1), []);
    var rect := Node(r, Rect, FilterLink(f2), []);
    ChainFilterFlatten(s, f1, f2, r);
    assert b.attrs[FilterRef].LinksTo(f1);
    assert b.LinksTo(f1);
    assert Linkers(doc, f1) == {f2};
    RootCut(s, [a, b, rect], {f2});
    Cut3(a, b, rect, {f2});
    CutLeaf(a, {f2});
    CutLeaf(b, {f2});
    CutLeaf(rect, {f2});
    assert RemoveSet([a, b, rect], {f2}) == [a, rect];
    RootCut(s, [a, rect], {f1});
    Cut2(a, rect, {f1});
    CutLeaf(a, {f1});
    CutLeaf(rect, {f1});
    assert RemoveSet([a, rect], {f1}) == [rect];
    CascadeVia(doc, f1, {f2}, Root(s, [a, rect]), Root(s, [rect]));
  }

  /** By the second filter's turn it is gone, so nothing links to it any more and the turn removes nothing. */
  lemma ChainFilterSecondTurn(s: NodeId, f2: NodeId, r: NodeId)
    requires s != f2 && f2 != r
    ensures CascadeRemove(Root(s, [Node(r, Rect, FilterLink(f2), [])]), [f2]) == Root(s, [Node(r, Rect, FilterLink(f2), [])])
  {
    var rect := Node(r, Rect, FilterLink(f2), []);
    var mid := Root(s, [rect]);
    RootFlatten(s, [rect]);
    FlattenSingle(rect);
    assert Flatten(mid) == [mid[0], rect];
    assert f2 !in Ids(mid);
    assert Linkers(mid, f2) == {};
    RootCut(s, [rect], {});
    Cut1(rect, {});
    CutLeaf(rect, {});
    RootCut(s, [rect], {f2});
    Cut1(rect, {f2});
    CutLeaf(rect, {f2});
    CascadeVia(mid, f2, {}, mid, mid);
  }

  lemma CascadeTwo(f: Forest, x: NodeId, y: NodeId)
    ensures CascadeRemove(f, [x, y]) == CascadeRemove(CascadeRemove(f, [x]), [y])
  {
    assert [x, y][1..] == [y];
    CascadeOne(f, x);
  }

  /**
   * Both filters go, but the rectangle naming the second one stays: the second
   * filter was removed as a linker of the first, which drops the rectangle's
   * link to it before the second filter's own turn comes.
   */
  lemma ChainFilterScenario(s: NodeId, f1: NodeId, f2: NodeId, r: NodeId)
    requires s != f1 && s != f2 && s != r && f1 != f2 && f1 != r && f2 != r
    ensures RemoveInvisibleElements(ChainFilterDoc(s, f1, f2, r)) == Outcome(Root(s, [Node(r, Rect, FilterLink(f2), [])]), true)
  {
    var doc := ChainFilterDoc(s, f1, f2, r);
    var out := Root(s, [Node(r, Rect, FilterLink(f2), [])]);
    ChainFilterPlain(s, f1, f2, r);
    QuietDisplay(doc);
    QuietPaths(doc);
    QuietClips(doc);
    ChainFilterSelect(s, f1, f2, r);
    ChainFilterFirstTurn(s, f1, f2, r);
    ChainFilterSecondTurn(s, f2, r);
    CascadeTwo(doc, f1, f2);
    FilterPassFrom(doc, [f1, f2]);
    RunOf(doc, PassResult(doc, false), PassResult(doc, false), PassResult(doc, false), PassResult(out, true));
  }


  // ---------------------------------------------------------------------------
  // `rm_clip_path_children_2`

  function UseClip(c: NodeId, u1: NodeId, u2: NodeId, u3: NodeId, r: NodeId, g: NodeId): Node
  {
    Node(c, ClipPath, map[], [Leaf(u1, Use), Node(u2, Use, Href(g), []), Node(u3, Use, Href(r), [])])
  }

  function UseClipDoc(s: NodeId, c: NodeId, u1: NodeId, u2: NodeId, u3: NodeId, r: NodeId, g: NodeId): Forest
  {
    Root(s, [UseClip(c, u1, u2, u3, r, g), Leaf(r, Rect), Leaf(g, G)])
  }

  /** The tree after the `use` naming the group is gone. */
  function UseClipMid(s: NodeId, c: NodeId, u1: NodeId, u3: NodeId, r: NodeId, g: NodeId): Forest
  {
    Root(s, [Node(c, ClipPath, map[], [Leaf(u1, Use), Node(u3, Use, Href(r), [])]), Leaf(r, Rect), Leaf(g, G)])
  }

  function UseClipOut(s: NodeId, c: NodeId, u3: NodeId, r: NodeId, g: NodeId): Forest
  {
    Root(s, [Node(c, ClipPath, map[], [Node(u3, Use, Href(r), [])]), Leaf(r, Rect), Leaf(g, G)])
  }

  lemma UseClipFlatten(s: NodeId, c: NodeId, u1: NodeId, u2: NodeId, u3: NodeId, r: NodeId, g: NodeId)
    ensures var doc := UseClipDoc(s, c, u1, u2, u3, r, g);
      var cp := UseClip(c, u1, u2, u3, r, g);
      Flatten(doc) == [doc[0], cp, cp.children[0], cp.children[1], cp.children[2], Leaf(r, Rect), Leaf(g, G)]
  {
    var doc := UseClipDoc(s, c, u1, u2, u3, r, g);
    var cp := UseClip(c, u1, u2, u3, r, g);
    var k := cp.children;
    RootFlatten(s, doc[0].children);
    Flatten3(cp, Leaf(r, Rect), Leaf(g, G));
    FlattenSingle(cp);
    Flatten3(k[0], k[1], k[2]);
    LeafSubtree(k[0]);
    LeafSubtree(k[1]);
    LeafSubtree(k[2]);
    LeafSubtree(Leaf(r, Rect));
    LeafSubtree(Leaf(g, G));
  }

  lemma UseClipIdle(s: NodeId, c: NodeId, u1: NodeId, u2: NodeId, u3: NodeId, r: NodeId, g: NodeId)
    ensures var doc := UseClipDoc(s, c, u1, u2, u3, r, g);
      && ProcessDisplayAttribute(doc) == PassResult(doc, false)
      && ProcessPaths(doc) == PassResult(doc, false)
  {
    var doc := UseClipDoc(s, c, u1, u2, u3, r, g);
    UseClipPlain(s, c, u1, u2, u3, r, g);
    QuietDisplay(doc);
    QuietPaths(doc);
  }

  lemma UseClipPlain(s: NodeId, c: NodeId, u1: NodeId, u2: NodeId, u3: NodeId, r: NodeId, g: NodeId)
    ensures var doc := UseClipDoc(s, c, u1, u2, u3, r, g);
      NoDisplayAttr(doc) && Lacks(doc, Path) && Lacks(doc, Filter)
  {
    var doc := UseClipDoc(s, c, u1, u2, u3, r, g);
    var cp := UseClip(c, u1, u2, u3, r, g);
    var ns := [doc[0], cp, cp.children[0], cp.children[1], cp.children[2], Leaf(r, Rect), Leaf(g, G)];
    UseClipFlatten(s, c, u1, u2, u3, r, g);
    forall n | n in ns
      ensures Display !in n.attrs && n.tag != Path && n.tag != Filter
    {
    }
  }

  lemma UseClipOutIdle(s: NodeId, c: NodeId, u1: NodeId, u2: NodeId, u3: NodeId, r: NodeId, g: NodeId)
    requires s != u1 && s != u2 && c != u1 && c != u2
    requires u1 != u2 && u1 != u3 && u1 != r && u1 != g
    requires u2 != u3 && u2 != r && u2 != g
    ensures var out := UseClipOut(s, c, u3, r, g);
      ProcessFilter(out) == PassResult(out, false)
  {
    var doc := UseClipDoc(s, c, u1, u2, u3, r, g);
    UseClipPlain(s, c, u1, u2, u3, r, g);
    UseClipRemove(s, c, u1, u2, u3, r, g);
    LacksAfterRemoveAll(doc, [u1, u2], Filter);
    QuietFilters(UseClipOut(s, c, u3, r, g));
  }

  lemma UseClipSelect(s: NodeId, c: NodeId, u1: NodeId, u2: NodeId, u3: NodeId, r: NodeId, g: NodeId)
    ensures SelectIds(UseClipDoc(s, c, u1, u2, u3, r, g), IsClipPath) == [c]
  {
    var doc := UseClipDoc(s, c, u1, u2, u3, r, g);
    var cp := UseClip(c, u1, u2, u3, r, g);
    var k := cp.children;
    var ns := [doc[0], cp, k[0], k[1], k[2], Leaf(r, Rect), Leaf(g, G)];
    UseClipFlatten(s, c, u1, u2, u3, r, g);
    Where7(ns[0], ns[1], ns[2], ns[3], ns[4], ns[5], ns[6], IsClipPath);
    SelectVia(doc, ns, IsClipPath, [c]);
  }

  /** Both shapes resolve to the top-level nodes carrying their identities. */
  lemma UseClipFind(s: NodeId, c: NodeId, u1: NodeId, u2: NodeId, u3: NodeId, r: NodeId, g: NodeId)
    requires s != r && c != r && u1 != r && u2 != r && u3 != r
    requires s != g && c != g && u1 != g && u2 != g && u3 != g && r != g
    ensures var doc := UseClipDoc(s, c, u1, u2, u3, r, g);
      Find(doc, r) == Some(Leaf(r, Rect)) && Find(doc, g) == Some(Leaf(g, G))
  {
    var doc := UseClipDoc(s, c, u1, u2, u3, r, g);
    var cp := UseClip(c, u1, u2, u3, r, g);
    var k := cp.children;
    var ns := [doc[0], cp, k[0], k[1], k[2], Leaf(r, Rect), Leaf(g, G)];
    UseClipFlatten(s, c, u1, u2, u3, r, g);
    First7(ns[0], ns[1], ns[2], ns[3], ns[4], ns[5], ns[6], r);
    First7(ns[0], ns[1], ns[2], ns[3], ns[4], ns[5], ns[6], g);
    FindVia(doc, ns, r, Some(Leaf(r, Rect)));
    FindVia(doc, ns, g, Some(Leaf(g, G)));
  }

  /** Which `use` children pass the test: only the one naming the rectangle. */
  lemma UseClipInvalid(s: NodeId, c: NodeId, u1: NodeId, u2: NodeId, u3: NodeId, r: NodeId, g: NodeId)
    requires s != r && c != r && u1 != r && u2 != r && u3 != r
    requires s != g && c != g && u1 != g && u2 != g && u3 != g && r != g
    ensures var doc := UseClipDoc(s, c, u1, u2, u3, r, g);
      InvalidChildren(doc, UseClip(c, u1, u2, u3, r, g).children) == [u1, u2]
  {
    var doc := UseClipDoc(s, c, u1, u2, u3, r, g);
    var k := UseClip(c, u1, u2, u3, r, g).children;
    UseClipFind(s, c, u1, u2, u3, r, g);
    RejectBareUse(doc, u1);
    RejectUseLink(doc, u2, g, Leaf(g, G));
    RejectUseLink(doc, u3, r, Leaf(r, Rect));
    assert [u1] + ([u2] + []) == [u1, u2];
    InvalidVia3(doc, k[0], k[1], k[2], [u1, u2]);
  }

  lemma UseClipRemoveSecond(s: NodeId, c: NodeId, u1: NodeId, u2: NodeId, u3: NodeId, r: NodeId, g: NodeId)
    requires s != u2 && c != u2 && u1 != u2 && u2 != u3 && u2 != r && u2 != g
    ensures RemoveSet(UseClipDoc(s, c, u1, u2, u3, r, g), {u2}) == UseClipMid(s, c, u1, u3, r, g)
  {
    var cp := UseClip(c, u1, u2, u3, r, g);
    var k := cp.children;
    var cp' := UseClipMid(s, c, u1, u3, r, g)[0].children[0];
    RootCut(s, [cp, Leaf(r, Rect), Leaf(g, G)], {u2});
    Cut3(cp, Leaf(r, Rect), Leaf(g, G), {u2});
    CutLeaf(Leaf(r, Rect), {u2});
    CutLeaf(Leaf(g, G), {u2});
    Cut3(k[0], k[1], k[2], {u2});
    CutLeaf(k[0], {u2});
    CutLeaf(k[1], {u2});
    CutLeaf(k[2], {u2});
    assert RemoveSet(k, {u2}) == cp'.children;
    assert Cut(cp, {u2}) == [cp'];
    assert RemoveSet([cp, Leaf(r, Rect), Leaf(g, G)], {u2}) == [cp', Leaf(r, Rect), Leaf(g, G)];
  }

  lemma UseClipRemoveFirst(s: NodeId, c: NodeId, u1: NodeId, u3: NodeId, r: NodeId, g: NodeId)
    requires s != u1 && c != u1 && u1 != u3 && u1 != r && u1 != g
    ensures RemoveSet(UseClipMid(s, c, u1, u3, r, g), {u1}) == UseClipOut(s, c, u3, r, g)
  {
    var cp := UseClipMid(s, c, u1, u3, r, g)[0].children[0];
    var k := cp.children;
    var cp' := UseClipOut(s, c, u3, r, g)[0].children[0];
    RootCut(s, [cp, Leaf(r, Rect), Leaf(g, G)], {u1});
    Cut3(cp, Leaf(r, Rect), Leaf(g, G), {u1});
    CutLeaf(Leaf(r, Rect), {u1});
    CutLeaf(Leaf(g, G), {u1});
    Cut2(k[0], k[1], {u1});
    CutLeaf(k[0], {u1});
    CutLeaf(k[1], {u1});
    assert RemoveSet(k, {u1}) == cp'.children;
    assert Cut(cp, {u1}) == [cp'];
    assert RemoveSet([cp, Leaf(r, Rect), Leaf(g, G)], {u1}) == [cp', Leaf(r, Rect), Leaf(g, G)];
  }

  /** The invalid children popped, the last listed first. */
  lemma UseClipRemove(s: NodeId, c: NodeId, u1: NodeId, u2: NodeId, u3: NodeId, r: NodeId, g: NodeId)
    requires s != u1 && s != u2 && c != u1 && c != u2
    requires u1 != u2 && u1 != u3 && u1 != r && u1 != g
    requires u2 != u3 && u2 != r && u2 != g
    ensures RemoveAll(UseClipDoc(s, c, u1, u2, u3, r, g), [u1, u2]) == UseClipOut(s, c, u3, r, g)
  {
    RemoveTwo(UseClipDoc(s, c, u1, u2, u3, r, g), u1, u2);
    UseClipRemoveSecond(s, c, u1, u2, u3, r, g);
    UseClipRemoveFirst(s, c, u1, u3, r, g);
  }

  lemma UseClipClips(s: NodeId, c: NodeId, u1: NodeId, u2: NodeId, u3: NodeId, r: NodeId, g: NodeId)
    requires s != c && s != u1 && s != u2 && s != r && s != g
    requires c != u1 && c != u2 && c != r && c != g
    requires u1 != u2 && u1 != u3 && u1 != r && u1 != g
    requires u2 != u3 && u2 != r && u2 != g
    requires u3 != r && u3 != g && r != g
    ensures ProcessClipPaths(UseClipDoc(s, c, u1, u2, u3, r, g)) == PassResult(UseClipOut(s, c, u3, r, g), false)
  {
    var doc := UseClipDoc(s, c, u1, u2, u3, r, g);
    var out := UseClipOut(s, c, u3, r, g);
    UseClipSelect(s, c, u1, u2, u3, r, g);
    FindFirstChild(s, doc[0].children, c);
    UseClipInvalid(s, c, u1, u2, u3, r, g);
    UseClipRemove(s, c, u1, u2, u3, r, g);
    FindFirstChild(s, out[0].children, c);
    VisitStrips(doc, c, doc[0].children[0], [u1, u2], out, out[0].children[0]);
    StripAllOne(doc, c);
    ClipPassFrom(doc, out, []);
  }

  /**
   * `rm_clip_path_children_2`: a `use` without a link and a `use` naming a group
   * are stripped; the `use` naming a rectangle stays.
   */
  lemma UseClipScenario(s: NodeId, c: NodeId, u1: NodeId, u2: NodeId, u3: NodeId, r: NodeId, g: NodeId)
    requires s != c && s != u1 && s != u2 && s != r && s != g
    requires c != u1 && c != u2 && c != r && c != g
    requires u1 != u2 && u1 != u3 && u1 != r && u1 != g
    requires u2 != u3 && u2 != r && u2 != g
    requires u3 != r && u3 != g && r != g
    ensures RemoveInvisibleElements(UseClipDoc(s, c, u1, u2, u3, r, g)) == Outcome(UseClipOut(s, c, u3, r, g), false)
  {
    var doc := UseClipDoc(s, c, u1, u2, u3, r, g);
    var out := UseClipOut(s, c, u3, r, g);
    UseClipIdle(s, c, u1, u2, u3, r, g);
    UseClipClips(s, c, u1, u2, u3, r, g);
    UseClipOutIdle(s, c, u1, u2, u3, r, g);
    RunOf(doc, PassResult(doc, false), PassResult(doc, false), PassResult(out, false), PassResult(out, false));
  }

  // ---------------------------------------------------------------------------
  // `rm_display_none_1`, and a second run that still finds work

  function HiddenLeafDoc(s: NodeId, x: NodeId, tag: ElementId): Forest
  {
    Root(s, [Node(x, tag, NoDisplay(), [])])
  }

  lemma HiddenLeafFlatten(s: NodeId, x: NodeId, tag: ElementId)
    ensures var doc := HiddenLeafDoc(s, x, tag);
      Flatten(doc) == [doc[0], doc[0].children[0]]
  {
    var doc := HiddenLeafDoc(s, x, tag);
    RootFlatten(s, doc[0].children);
    FlattenSingle(doc[0].children[0]);
  }

  lemma HiddenLeafCollect(s: NodeId, x: NodeId, tag: ElementId)
    ensures var doc := HiddenLeafDoc(s, x, tag);
      CollectHidden(doc, doc) == [x]
  {
    var doc := HiddenLeafDoc(s, x, tag);
    var leaf := doc[0].children[0];
    HiddenLeafFlatten(s, x, tag);
    LeafSubtree(leaf);
    assert !Used(doc, x);
    assert Hidden(doc, leaf);
    Collect1(doc, doc[0]);
    Collect1(doc, leaf);
  }

  lemma HiddenLeafDisplay(s: NodeId, x: NodeId, tag: ElementId)
    requires s != x
    ensures ProcessDisplayAttribute(HiddenLeafDoc(s, x, tag)) == PassResult(Root(s, []), true)
  {
    var doc := HiddenLeafDoc(s, x, tag);
    var leaf := doc[0].children[0];
    HiddenLeafCollect(s, x, tag);
    RemoveOne(doc, x);
    RootCut(s, [leaf], {x});
    Cut1(leaf, {x});
    DisplayPassFrom(doc, [x]);
  }

  /**
   * `rm_display_none_1` (with `tag` a `path`): an unused element with
   * `display="none"` is removed, whatever its kind.
   */
  lemma HiddenLeafScenario(s: NodeId, x: NodeId, tag: ElementId)
    requires s != x
    ensures RemoveInvisibleElements(HiddenLeafDoc(s, x, tag)) == Outcome(Root(s, []), true)
  {
    var out := Root(s, []);
    HiddenLeafDisplay(s, x, tag);
    BareSvgQuiet(s);
    RunOf(HiddenLeafDoc(s, x, tag), PassResult(out, true), PassResult(out, false), PassResult(out, false), PassResult(out, false));
  }

  /** A hidden group holding the only `use` of a hidden rectangle. */
  function ChainDoc(s: NodeId, a: NodeId, u: NodeId, r: NodeId): Forest
  {
    Root(s, [Node(a, G, NoDisplay(), [Node(u, Use, Href(r), [])]), Node(r, Rect, NoDisplay(), [])])
  }

  lemma ChainFlatten(s: NodeId, a: NodeId, u: NodeId, r: NodeId)
    ensures var doc := ChainDoc(s, a, u, r);
      var grp := doc[0].children[0];
      Flatten(doc) == [doc[0], grp, grp.children[0], doc[0].children[1]]
  {
    var doc := ChainDoc(s, a, u, r);
    var grp := doc[0].children[0];
    RootFlatten(s, doc[0].children);
    Flatten2(grp, doc[0].children[1]);
    FlattenSingle(grp);
    FlattenSingle(grp.children[0]);
    LeafSubtree(doc[0].children[1]);
  }

  /** Only the rectangle is used, by the `use` inside the group. */
  lemma ChainUses(s: NodeId, a: NodeId, u: NodeId, r: NodeId)
    requires a != u && a != r && u != r
    ensures var doc := ChainDoc(s, a, u, r);
      Used(doc, r) && !Used(doc, a) && !Used(doc, u)
  {
    var doc := ChainDoc(s, a, u, r);
    var grp := doc[0].children[0];
    var use := grp.children[0];
    var ns := [doc[0], grp, use, doc[0].children[1]];
    ChainFlatten(s, a, u, r);
    assert use.attrs[XlinkHref].LinksTo(r);
    assert use.LinksTo(r);
    assert r == ns[3].id;
    forall n | n in ns
      ensures !n.LinksTo(a) && !n.LinksTo(u)
    {
    }
  }

  lemma ChainCollect(s: NodeId, a: NodeId, u: NodeId, r: NodeId)
    requires a != u && a != r && u != r
    ensures var doc := ChainDoc(s, a, u, r);
      CollectHidden(doc, doc) == [a]
  {
    var doc := ChainDoc(s, a, u, r);
    var grp := doc[0].children[0];
    var use := grp.children[0];
    var rect := doc[0].children[1];
    ChainUses(s, a, u, r);
    FlattenSingle(use);
    assert Subtree(grp) == [grp, use];
    assert Hidden(doc, grp);
    assert !Hidden(doc, rect);
    Collect1(doc, doc[0]);
    Collect2(doc, grp, rect);
    Collect1(doc, grp);
    Collect1(doc, rect);
  }

  lemma ChainDisplay(s: NodeId, a: NodeId, u: NodeId, r: NodeId)
    requires s != a && a != u && a != r && u != r
    ensures ProcessDisplayAttribute(ChainDoc(s, a, u, r)) == PassResult(HiddenLeafDoc(s, r, Rect), true)
  {
    var doc := ChainDoc(s, a, u, r);
    var grp := doc[0].children[0];
    var rect := doc[0].children[1];
    ChainCollect(s, a, u, r);
    ChainRemove(s, a, u, r);
    DisplayPassFrom(doc, [a]);
  }

  lemma ChainRemove(s: NodeId, a: NodeId, u: NodeId, r: NodeId)
    requires s != a && a != r
    ensures RemoveAll(ChainDoc(s, a, u, r), [a]) == HiddenLeafDoc(s, r, Rect)
  {
    var doc := ChainDoc(s, a, u, r);
    var grp := doc[0].children[0];
    var rect := doc[0].children[1];
    RemoveOne(doc, a);
    RootCut(s, [grp, rect], {a});
    Cut2(grp, rect, {a});
    CutLeaf(rect, {a});
    assert RemoveSet([grp, rect], {a}) == [rect];
  }

  lemma HiddenLeafPlain(s: NodeId, x: NodeId, tag: ElementId)
    requires tag != Path && tag != ClipPath && tag != Filter
    ensures var doc := HiddenLeafDoc(s, x, tag);
      Lacks(doc, Path) && Lacks(doc, ClipPath) && Lacks(doc, Filter)
  {
    var doc := HiddenLeafDoc(s, x, tag);
    HiddenLeafFlatten(s, x, tag);
    forall n | n in [doc[0], doc[0].children[0]]
      ensures n.tag != Path && n.tag != ClipPath && n.tag != Filter
    {
    }
  }

  lemma HiddenLeafIdle(s: NodeId, x: NodeId, tag: ElementId)
    requires tag != Path && tag != ClipPath && tag != Filter
    ensures var doc := HiddenLeafDoc(s, x, tag);
      && ProcessPaths(doc) == PassResult(doc, false)
      && ProcessClipPaths(doc) == PassResult(doc, false)
      && ProcessFilter(doc) == PassResult(doc, false)
  {
    var doc := HiddenLeafDoc(s, x, tag);
    HiddenLeafPlain(s, x, tag);
    QuietPaths(doc);
    QuietClips(doc);
    QuietFilters(doc);
  }

  /**
   * The passes are not idempotent: removing the hidden group takes the only
   * `use` of the hidden rectangle with it, so the rectangle becomes unused
   * only after the display pass has made its decisions, and a second run
   * removes it.
   */
  lemma SecondRunFindsMore(s: NodeId, a: NodeId, u: NodeId, r: NodeId)
    requires s != a && s != r && a != u && a != r && u != r
    ensures RemoveInvisibleElements(ChainDoc(s, a, u, r)) == Outcome(HiddenLeafDoc(s, r, Rect), true)
    ensures RemoveInvisibleElements(HiddenLeafDoc(s, r, Rect)) == Outcome(Root(s, []), true)
    ensures var once := RemoveInvisibleElements(ChainDoc(s, a, u, r)).tree;
      RemoveInvisibleElements(once).tree != once
  {
    var once := HiddenLeafDoc(s, r, Rect);
    ChainDisplay(s, a, u, r);
    HiddenLeafIdle(s, r, Rect);
    RunOf(ChainDoc(s, a, u, r), PassResult(once, true), PassResult(once, false), PassResult(once, false), PassResult(once, false));
    HiddenLeafScenario(s, r, Rect);
  }

  // ---------------------------------------------------------------------------
  // A `use` left naming a removed shape

  function UserClip(a: NodeId, u: NodeId, r: NodeId): Node
  {
    Node(a, ClipPath, map[], [Node(u, Use, Href(r), [])])
  }

  function GroupClip(b: NodeId, gg: NodeId, r: NodeId): Node
  {
    Node(b, ClipPath, map[], [Node(gg, G, map[], [Leaf(r, Rect)])])
  }

  /** A `clipPath` whose `use` names a rectangle that sits inside a group in another `clipPath`. */
  function DanglingDoc(s: NodeId, a: NodeId, u: NodeId, b: NodeId, gg: NodeId, r: NodeId): Forest
  {
    Root(s, [UserClip(a, u, r), GroupClip(b, gg, r)])
  }

  function DanglingStripped(s: NodeId, a: NodeId, u: NodeId, b: NodeId, r: NodeId): Forest
  {
    Root(s, [UserClip(a, u, r), Leaf(b, ClipPath)])
  }

  function DanglingOut(s: NodeId, a: NodeId, u: NodeId, r: NodeId): Forest
  {
    Root(s, [UserClip(a, u, r)])
  }

  lemma UserClipSubtree(a: NodeId, u: NodeId, r: NodeId)
    ensures Subtree(UserClip(a, u, r)) == [UserClip(a, u, r), UserClip(a, u, r).children[0]]
  {
    var cpA := UserClip(a, u, r);
    FlattenSingle(cpA.children[0]);
  }

  lemma DanglingFlatten(s: NodeId, a: NodeId, u: NodeId, b: NodeId, gg: NodeId, r: NodeId)
    ensures var doc := DanglingDoc(s, a, u, b, gg, r);
      var cpA := UserClip(a, u, r);
      var cpB := GroupClip(b, gg, r);
      Flatten(doc) == [doc[0], cpA, cpA.children[0], cpB, cpB.children[0], Leaf(r, Rect)]
  {
    var doc := DanglingDoc(s, a, u, b, gg, r);
    var cpA := UserClip(a, u, r);
    var cpB := GroupClip(b, gg, r);
    RootFlatten(s, doc[0].children);
    Flatten2(cpA, cpB);
    UserClipSubtree(a, u, r);
    FlattenSingle(cpB);
    FlattenSingle(cpB.children[0]);
    FlattenSingle(Leaf(r, Rect));
  }

  lemma DanglingStrippedFlatten(s: NodeId, a: NodeId, u: NodeId, b: NodeId, r: NodeId)
    ensures var mid := DanglingStripped(s, a, u, b, r);
      var cpA := UserClip(a, u, r);
      Flatten(mid) == [mid[0], cpA, cpA.children[0], Leaf(b, ClipPath)]
  {
    var mid := DanglingStripped(s, a, u, b, r);
    var cpA := UserClip(a, u, r);
    RootFlatten(s, mid[0].children);
    Flatten2(cpA, Leaf(b, ClipPath));
    UserClipSubtree(a, u, r);
    LeafSubtree(Leaf(b, ClipPath));
  }

  lemma DanglingOutFlatten(s: NodeId, a: NodeId, u: NodeId, r: NodeId)
    ensures var out := DanglingOut(s, a, u, r);
      var cpA := UserClip(a, u, r);
      Flatten(out) == [out[0], cpA, cpA.children[0]]
  {
    var cpA := UserClip(a, u, r);
    RootFlatten(s, [cpA]);
    FlattenSingle(cpA);
    UserClipSubtree(a, u, r);
  }

  lemma DanglingSelect(s: NodeId, a: NodeId, u: NodeId, b: NodeId, gg: NodeId, r: NodeId)
    ensures SelectIds(DanglingDoc(s, a, u, b, gg, r), IsClipPath) == [a, b]
  {
    var doc := DanglingDoc(s, a, u, b, gg, r);
    var cpA := UserClip(a, u, r);
    var cpB := GroupClip(b, gg, r);
    var ns := [doc[0], cpA, cpA.children[0], cpB, cpB.children[0], Leaf(r, Rect)];
    DanglingFlatten(s, a, u, b, gg, r);
    Where6(doc[0], cpA, cpA.children[0], cpB, cpB.children[0], Leaf(r, Rect), IsClipPath);
    SelectVia(doc, ns, IsClipPath, [a, b]);
  }

  lemma DanglingFind(s: NodeId, a: NodeId, u: NodeId, b: NodeId, gg: NodeId, r: NodeId)
    requires s != r && a != r && u != r && b != r && gg != r
    requires s != b && a != b && u != b
    ensures var doc := DanglingDoc(s, a, u, b, gg, r);
      Find(doc, r) == Some(Leaf(r, Rect)) && Find(doc, b) == Some(GroupClip(b, gg, r))
  {
    var doc := DanglingDoc(s, a, u, b, gg, r);
    var cpA := UserClip(a, u, r);
    var cpB := GroupClip(b, gg, r);
    var ns := [doc[0], cpA, cpA.children[0], cpB, cpB.children[0], Leaf(r, Rect)];
    DanglingFlatten(s, a, u, b, gg, r);
    First6(ns[0], ns[1], ns[2], ns[3], ns[4], ns[5], r);
    First6(ns[0], ns[1], ns[2], ns[3], ns[4], ns[5], b);
    FindVia(doc, ns, r, Some(Leaf(r, Rect)));
    FindVia(doc, ns, b, Some(cpB));
  }

  /** The first `clipPath` keeps its `use`: the rectangle it names is still live. */
  lemma DanglingVisitFirst(s: NodeId, a: NodeId, u: NodeId, b: NodeId, gg: NodeId, r: NodeId)
    requires s != a && s != r && a != r && u != r && b != r && gg != r
    requires s != b && a != b && u != b
    ensures var doc := DanglingDoc(s, a, u, b, gg, r);
      StripOne(doc, a) == StripResult(doc, [])
  {
    var doc := DanglingDoc(s, a, u, b, gg, r);
    var cpA := UserClip(a, u, r);
    FindFirstChild(s, doc[0].children, a);
    DanglingFind(s, a, u, b, gg, r);
    Reject1(doc, cpA.children[0]);
    assert IsValidClipPathElem(doc, cpA.children[0]);
    VisitKeeps(doc, a, cpA);
  }

  lemma DanglingRemoveGroup(s: NodeId, a: NodeId, u: NodeId, b: NodeId, gg: NodeId, r: NodeId)
    requires s != gg && a != gg && u != gg && b != gg
    ensures RemoveAll(DanglingDoc(s, a, u, b, gg, r), [gg]) == DanglingStripped(s, a, u, b, r)
  {
    var doc := DanglingDoc(s, a, u, b, gg, r);
    var cpA := UserClip(a, u, r);
    var cpB := GroupClip(b, gg, r);
    RemoveOne(doc, gg);
    RootCut(s, [cpA, cpB], {gg});
    Cut2(cpA, cpB, {gg});
    Cut1(cpA.children[0], {gg});
    CutLeaf(cpA.children[0], {gg});
    Cut1(cpB.children[0], {gg});
    assert Cut(cpA, {gg}) == [cpA];
    assert Cut(cpB, {gg}) == [Leaf(b, ClipPath)];
    assert RemoveSet([cpA, cpB], {gg}) == [cpA, Leaf(b, ClipPath)];
  }

  lemma DanglingStrippedFind(s: NodeId, a: NodeId, u: NodeId, b: NodeId, r: NodeId)
    requires s != b && a != b && u != b
    ensures Find(DanglingStripped(s, a, u, b, r), b) == Some(Leaf(b, ClipPath))
  {
    var mid := DanglingStripped(s, a, u, b, r);
    var cpA := UserClip(a, u, r);
    var ns := [mid[0], cpA, cpA.children[0], Leaf(b, ClipPath)];
    DanglingStrippedFlatten(s, a, u, b, r);
    First4(ns[0], ns[1], ns[2], ns[3], b);
    FindVia(mid, ns, b, Some(Leaf(b, ClipPath)));
  }

  /** The second `clipPath` loses its group, and with it the rectangle, and is left empty. */
  lemma DanglingVisitSecond(s: NodeId, a: NodeId, u: NodeId, b: NodeId, gg: NodeId, r: NodeId)
    requires s != b && s != gg && s != r && a != b && a != gg && a != r
    requires u != b && u != gg && u != r && b != gg && b != r && gg != r
    ensures var doc := DanglingDoc(s, a, u, b, gg, r);
      StripOne(doc, b) == StripResult(DanglingStripped(s, a, u, b, r), [b])
  {
    var doc := DanglingDoc(s, a, u, b, gg, r);
    var cpB := GroupClip(b, gg, r);
    var mid := DanglingStripped(s, a, u, b, r);
    var cpA := UserClip(a, u, r);
    DanglingFind(s, a, u, b, gg, r);
    Reject1(doc, cpB.children[0]);
    NotUseValidity(doc, cpB.children[0]);
    DanglingRemoveGroup(s, a, u, b, gg, r);
    DanglingStrippedFind(s, a, u, b, r);
    VisitStrips(doc, b, cpB, [gg], mid, Leaf(b, ClipPath));
  }

  lemma DanglingStrip(s: NodeId, a: NodeId, u: NodeId, b: NodeId, gg: NodeId, r: NodeId)
    requires s != a && s != b && s != gg && s != r
    requires a != u && a != b && a != gg && a != r
    requires u != b && u != gg && u != r
    requires b != gg && b != r && gg != r
    ensures var doc := DanglingDoc(s, a, u, b, gg, r);
      StripClipPaths(doc) == StripResult(DanglingStripped(s, a, u, b, r), [b])
  {
    var doc := DanglingDoc(s, a, u, b, gg, r);
    DanglingSelect(s, a, u, b, gg, r);
    DanglingVisitFirst(s, a, u, b, gg, r);
    DanglingVisitSecond(s, a, u, b, gg, r);
    StripAllTwo(doc, a, b);
  }

  lemma DanglingCascade(s: NodeId, a: NodeId, u: NodeId, b: NodeId, r: NodeId)
    requires s != b && a != b && u != b && r != b
    ensures CascadeRemove(DanglingStripped(s, a, u, b, r), [b]) == DanglingOut(s, a, u, r)
  {
    var mid := DanglingStripped(s, a, u, b, r);
    var cpA := UserClip(a, u, r);
    var bare := Leaf(b, ClipPath);
    DanglingStrippedFlatten(s, a, u, b, r);
    CascadeOne(mid, b);
    assert !cpA.children[0].LinksTo(b);
    assert Linkers(mid, b) == {};
    RootCut(s, [cpA, bare], {});
    Cut2(cpA, bare, {});
    Cut1(cpA.children[0], {});
    CutLeaf(cpA.children[0], {});
    CutLeaf(bare, {});
    assert Cut(cpA, {}) == [cpA];
    assert RemoveSet([cpA, bare], {}) == [cpA, bare];
    assert RemoveSet(mid, {}) == mid;
    RootCut(s, [cpA, bare], {b});
    Cut2(cpA, bare, {b});
    Cut1(cpA.children[0], {b});
    CutLeaf(cpA.children[0], {b});
    assert Cut(cpA, {b}) == [cpA];
    assert RemoveSet([cpA, bare], {b}) == [cpA];
  }

  /** The `use` left behind names a rectangle that is no longer live. */
  lemma DanglingOutLosesShape(s: NodeId, a: NodeId, u: NodeId, r: NodeId)
    requires s != r && a != r && u != r
    ensures var out := DanglingOut(s, a, u, r);
      Find(out, r) == None
  {
    var out := DanglingOut(s, a, u, r);
    var cpA := UserClip(a, u, r);
    var ns := [out[0], cpA, cpA.children[0]];
    DanglingOutFlatten(s, a, u, r);
    First3(ns[0], ns[1], ns[2], r);
    FindVia(out, ns, r, None);
  }

  /**
   * A `use` judged valid while its rectangle was live is kept; stripping the
   * group of another `clipPath` then takes the rectangle away. The run removes
   * the emptied `clipPath` and leaves a `use` that no longer passes the test,
   * which is why the children left after a run are only valid or dangling.
   */
  lemma DanglingScenario(s: NodeId, a: NodeId, u: NodeId, b: NodeId, gg: NodeId, r: NodeId)
    requires s != a && s != b && s != gg && s != r
    requires a != u && a != b && a != gg && a != r
    requires u != b && u != gg && u != r
    requires b != gg && b != r && gg != r
    ensures RemoveInvisibleElements(DanglingDoc(s, a, u, b, gg, r)) == Outcome(DanglingOut(s, a, u, r), true)
    ensures var out := DanglingOut(s, a, u, r);
      !IsValidClipPathElem(out, out[0].children[0].children[0])
  {
    var doc := DanglingDoc(s, a, u, b, gg, r);
    var out := DanglingOut(s, a, u, r);
    DanglingIdle(s, a, u, b, gg, r);
    DanglingClips(s, a, u, b, gg, r);
    RunOf(doc, PassResult(doc, false), PassResult(doc, false), PassResult(out, true), PassResult(out, false));
    DanglingOutLosesShape(s, a, u, r);
  }

  lemma DanglingIdle(s: NodeId, a: NodeId, u: NodeId, b: NodeId, gg: NodeId, r: NodeId)
    ensures var doc := DanglingDoc(s, a, u, b, gg, r);
      && ProcessDisplayAttribute(doc) == PassResult(doc, false)
      && ProcessPaths(doc) == PassResult(doc, false)
      && ProcessFilter(DanglingOut(s, a, u, r)) == PassResult(DanglingOut(s, a, u, r), false)
  {
    var doc := DanglingDoc(s, a, u, b, gg, r);
    DanglingPlain(s, a, u, b, gg, r);
    DanglingOutPlain(s, a, u, r);
    QuietDisplay(doc);
    QuietPaths(doc);
    QuietFilters(DanglingOut(s, a, u, r));
  }

  lemma DanglingPlain(s: NodeId, a: NodeId, u: NodeId, b: NodeId, gg: NodeId, r: NodeId)
    ensures NoDisplayAttr(DanglingDoc(s, a, u, b, gg, r)) && Lacks(DanglingDoc(s, a, u, b, gg, r), Path)
  {
    var doc := DanglingDoc(s, a, u, b, gg, r);
    var cpA := UserClip(a, u, r);
    var cpB := GroupClip(b, gg, r);
    DanglingFlatten(s, a, u, b, gg, r);
    forall n | n in [doc[0], cpA, cpA.children[0], cpB, cpB.children[0], Leaf(r, Rect)]
      ensures Display !in n.attrs && n.tag != Path
    {
    }
  }

  lemma DanglingOutPlain(s: NodeId, a: NodeId, u: NodeId, r: NodeId)
    ensures Lacks(DanglingOut(s, a, u, r), Filter)
  {
    var out := DanglingOut(s, a, u, r);
    var cpA := UserClip(a, u, r);
    DanglingOutFlatten(s, a, u, r);
    forall n | n in [out[0], cpA, cpA.children[0]]
      ensures n.tag != Filter
    {
    }
  }


  lemma DanglingClips(s: NodeId, a: NodeId, u: NodeId, b: NodeId, gg: NodeId, r: NodeId)
    requires s != a && s != b && s != gg && s != r
    requires a != u && a != b && a != gg && a != r
    requires u != b && u != gg && u != r
    requires b != gg && b != r && gg != r
    ensures ProcessClipPaths(DanglingDoc(s, a, u, b, gg, r)) == PassResult(DanglingOut(s, a, u, r), true)
  {
    DanglingStrip(s, a, u, b, gg, r);
    ReverseOne(b);
    DanglingCascade(s, a, u, b, r);
    ClipPassFrom(DanglingDoc(s, a, u, b, gg, r), DanglingStripped(s, a, u, b, r), [b]);
  }


}
